=== FILE: README.md ===
# MultiselectTreeView core, modelled in Dafny

This project models the sequential logic of the MultiselectTreeView kit. The kit is a
WPF tree view whose nodes load their children asynchronously. Three pieces are
modelled:

- **The self-sorting child collection** `SortedObservableTreeItemCollection<T>`, with the
  `AddRange` list helper. It becomes the module `SortedCollection` (with `Ordering` and
  `CollectionHelpers`). Contents are a `seq<T>` sorted by a comparator passed in as a
  parameter. A counter `resets` records each Reset notification the collection raises.
  - `Add` is one silent re-sorting insert.
  - `InitializeWith` replaces all contents.
  - `AddRange` sorts only the new batch and appends it.
  - `RemoveRange` removes and re-sorts.
  - `CombineWith` is the diff-merge, with its threshold of 100 candidates.
- **The node record and its flag state machine** `TreeViewItemViewModel` and its proxy
  variant. They become the modules `TreeItem`, `TreeWalk` and `NodeLoad`.
  - Nodes live in an arena, a `map<NodeId, Node>`. A `kind` tag tells a normal node from
    a proxy, the placeholder child that marks "not loaded yet".
  - The model covers the derived flags, the guarded and silent setters, and child
    replacement, insertion and removal.
  - It also covers the re-entrancy-guarded `LoadChildren` with its deep load and expand
    rule, `CollapseAll`, `ExpandAll`, `LoadAll`, `ExpandSelect`, `EnsureVisibleSelected`
    and the depth-first `GetAllNodes` walk.
- **The tree-level decisions** of `TreeViewViewModel`. They become the modules
  `TreeView` and `Selection`.
  - `FillChildren` decides whether a fetch result is installed.
  - `OnLoadChildren` and `OnCollapsed` manage the expand-token and collapse-token
    registries, each a map from node id to a "cancelled" flag.
  - `CreateTreeNode` installs the proxy. `InsertItem` and `AddRootNode` route new nodes.
  - The selection bookkeeping covers `LastSelectedItem`, `NonTypedSelectedItems`,
    `NonTypedLastSelectedItem`, `LoadChildrenOnSelected` and `Clear`.

Each asynchronous method is one atomic step. Exceptions become `Result` or `Attempt`
values (module `Wrappers`). An `Attempt` carries the state left behind when code throws
half-way. The host's fetch of children is an uninterpreted `Fetch` value: throws,
returns null, or returns a list of possibly-null nodes, plus whether cancellation is
observed before or after the fetch. Deep loads receive one such value per node,
`Env = NodeId -> Fetch`. Recursion over the arena takes a `fuel` bound, since an
arbitrary map may contain cycles.

The model follows the code as written, except at the three places listed under
"## Findings", where the code is evidently wrong. There the model keeps two definitions
side by side. The public operations are stated on the corrected one, and an as-written
variant shows what the code does instead:

- `TreeView.InsertItem` inserts through the intended `InsertChild`;
  `TreeView.InsertItemAsWritten` throws where a proxy child is met.
- `NodeLoad.ExpandAll` and `NodeLoad.LoadAll` clear the re-entrancy flag after a fault;
  `NodeLoad.ExpandAllAsWritten` and `NodeLoad.LoadAllAsWritten` leave it set. Unforced
  loads (`ExpandSelect`, the loads of `EnsureVisibleSelected`) agree with the code as
  written, which `NodeLoad.UnforcedLoadsAgree` proves.
- `TreeView.CreateTreeNode` gives the proxy the new node as parent;
  `TreeView.CreateTreeNodeAsWritten` gives it the new node's own parent.

Where the code otherwise differs from its own documentation, the model follows the code:

- `AddRange` sorts only the appended batch. The whole collection is sorted afterwards
  only if it was empty before (`SortedCollection.AddRangeLeavesUnsorted` shows the
  counterexample).
- A successful empty fetch replaces the children by the empty list. The proxy is then
  gone, and the node counts as neither loaded nor a leaf.
- `SetItems(items, resetCollection)` returns before it ever reads `resetCollection`.
- `CombineWith` does no removal pass when every candidate is new, including when there
  are no candidates at all. Stale items then survive.

## Model

| member | source | states |
|---|---|---|
| `Wrappers.Present` | AsyncWpfMultiselectTreeView/WpfMultiselectTreeViewKit/ViewModels/TreeViewViewModel.cs:317-320 | the non-null filter keeps exactly the present values, each as many times as it occurs, drops every null, and never grows the list |
| `CollectionHelpers.AppendAll` | AsyncWpfMultiselectTreeView/WpfMultiselectTreeViewKit/Utils/CollectionHelpers.cs:7-13 | appending one item at a time yields the old list followed by the items, in enumeration order: existing items keep their positions, the suffix is the items, and an empty batch changes nothing |
| `Ordering.Sort` | AsyncWpfMultiselectTreeView/WpfMultiselectTreeViewKit/Utils/SortedObservableTreeItemCollection.cs:31 | `List.Sort` yields a permutation of its input, sorted whenever the comparison is a total preorder; no particular order among equal items is promised |
| `Ordering.DropKeepsSorted` | AsyncWpfMultiselectTreeView/WpfMultiselectTreeViewKit/ViewModels/TreeViewItemViewModel.cs:649-655 | dropping any one item from a sorted list leaves it sorted, which is why a removal needs no re-sort |
| `Ordering.Insert` | AsyncWpfMultiselectTreeView/WpfMultiselectTreeViewKit/Utils/SortedObservableTreeItemCollection.cs:31 | one insertion step of the sort adds exactly the item and nothing else (InsertKeepsSorted adds that it keeps the order) |
| `Ordering.InsertKeepsSorted` | AsyncWpfMultiselectTreeView/WpfMultiselectTreeViewKit/Utils/SortedObservableTreeItemCollection.cs:31 | inserting one item into a sorted list keeps it sorted (the step the sort's correctness rests on) |
| `SortedCollection.Add` | AsyncWpfMultiselectTreeView/WpfMultiselectTreeViewKit/Utils/SortedObservableTreeItemCollection.cs:27-34 | after a single insert the contents are the old contents plus the item, sorted, and no notification is raised |
| `SortedCollection.InitializeWith` | AsyncWpfMultiselectTreeView/WpfMultiselectTreeViewKit/Utils/SortedObservableTreeItemCollection.cs:36-41 | a null argument fails with ArgumentNull and a non-null one always succeeds; the contents then become exactly a sorted permutation of the argument, with one Reset |
| `SortedCollection.InitializeWithItem` | AsyncWpfMultiselectTreeView/WpfMultiselectTreeViewKit/Utils/SortedObservableTreeItemCollection.cs:43-48 | a null item fails with ArgumentNull and a non-null one always succeeds; the contents then become exactly the one item, silently |
| `SortedCollection.AddRange` | AsyncWpfMultiselectTreeView/WpfMultiselectTreeViewKit/Utils/SortedObservableTreeItemCollection.cs:110-120 | null fails with ArgumentNull and any other batch succeeds; the old contents stay as a prefix, the suffix is a sorted permutation of the batch, one Reset is raised even for an empty batch, and the batch size is returned |
| `SortedCollection.AddRangeSortedWhenEmpty` | AsyncWpfMultiselectTreeView/WpfMultiselectTreeViewKit/Utils/SortedObservableTreeItemCollection.cs:110-120 | on an empty collection the result is a sorted permutation of the batch |
| `SortedCollection.AddRangeLeavesUnsorted` | AsyncWpfMultiselectTreeView/WpfMultiselectTreeViewKit/Utils/SortedObservableTreeItemCollection.cs:114-116 | on a non-empty collection the whole is not necessarily sorted: [2] plus batch [1] gives the unsorted [2, 1] |
| `SortedCollection.RemoveFirst` | AsyncWpfMultiselectTreeView/WpfMultiselectTreeViewKit/Utils/SortedObservableTreeItemCollection.cs:100 | `List.Remove` drops one occurrence of an equal item when there is one and changes nothing otherwise |
| `SortedCollection.IndexOf` | AsyncWpfMultiselectTreeView/WpfMultiselectTreeViewKit/Utils/SortedObservableTreeItemCollection.cs:100 | the position found holds the item and no earlier position does |
| `SortedCollection.RemoveFirstAt` | AsyncWpfMultiselectTreeView/WpfMultiselectTreeViewKit/Utils/SortedObservableTreeItemCollection.cs:100 | the occurrence dropped is the first one, and the items before and after it keep their order |
| `SortedCollection.Remove` | AsyncWpfMultiselectTreeView/WpfMultiselectTreeViewKit/ViewModels/TreeViewItemViewModel.cs:653 | removal reports success exactly when the item was contained, drops exactly its first occurrence with the rest in order, and leaves the collection untouched otherwise |
| `SortedCollection.RemoveKeepsOthers` | AsyncWpfMultiselectTreeView/WpfMultiselectTreeViewKit/ViewModels/TreeViewItemViewModel.cs:653 | removal introduces no item, and a contained item leaves one fewer |
| `SortedCollection.RemoveKeepsSorted` | AsyncWpfMultiselectTreeView/WpfMultiselectTreeViewKit/ViewModels/TreeViewItemViewModel.cs:653 | removing from a sorted collection leaves it sorted |
| `SortedCollection.RemoveRange` | AsyncWpfMultiselectTreeView/WpfMultiselectTreeViewKit/Utils/SortedObservableTreeItemCollection.cs:91-108 | null fails with ArgumentNull and any other argument succeeds; at most one equal occurrence per argument is removed (multiset difference), the rest is re-sorted, one Reset is raised, and the number of arguments, not of removals, is returned |
| `SortedCollection.Clear` | AsyncWpfMultiselectTreeView/WpfMultiselectTreeViewKit/ViewModels/TreeViewViewModel.cs:229 | the inherited `Clear` empties the collection and raises exactly one Reset |
| `SortedCollection.Publish` | AsyncWpfMultiselectTreeView/WpfMultiselectTreeViewKit/Utils/SortedObservableTreeItemCollection.cs:82-88 | a change installs the working copy sorted with one Reset; no change leaves the collection as it was |
| `SortedCollection.CombineWith` | AsyncWpfMultiselectTreeView/WpfMultiselectTreeViewKit/Utils/SortedObservableTreeItemCollection.cs:50-89 | null fails with ArgumentNull and any candidate list succeeds; the collection is then either untouched or re-sorted with exactly one Reset |
| `SortedCollection.CombineWithAllNew` | AsyncWpfMultiselectTreeView/WpfMultiselectTreeViewKit/Utils/SortedObservableTreeItemCollection.cs:59-64 | when fewer than 100 candidates are all new, nothing is removed: the result is current plus candidates with one Reset, and no candidates changes nothing |
| `SortedCollection.CombineWithKeepsStale` | AsyncWpfMultiselectTreeView/WpfMultiselectTreeViewKit/Utils/SortedObservableTreeItemCollection.cs:64-73 | when every candidate (fewer than 100) is new, every current item survives the merge, although under a comparer no candidate matches it |
| `SortedCollection.CombineWithSomeKnown` | AsyncWpfMultiselectTreeView/WpfMultiselectTreeViewKit/Utils/SortedObservableTreeItemCollection.cs:56-73 | when at least one candidate is already present, the result holds exactly the current items some candidate compares equal to, plus the new candidates |
| `SortedCollection.CombineWithMatchesCandidates` | AsyncWpfMultiselectTreeView/WpfMultiselectTreeViewKit/Utils/SortedObservableTreeItemCollection.cs:56-73 | in that case every result item compares equal to a candidate and every candidate compares equal to a result item |
| `SortedCollection.CombineWithLarge` | AsyncWpfMultiselectTreeView/WpfMultiselectTreeViewKit/Utils/SortedObservableTreeItemCollection.cs:76-81 | with 100 or more candidates the contents become a sorted permutation of the candidates, whatever the overlap, with one Reset |
| `SortedCollection.CombineWithNotifiesIff` | AsyncWpfMultiselectTreeView/WpfMultiselectTreeViewKit/Utils/SortedObservableTreeItemCollection.cs:82-88 | one Reset is raised if and only if an item was added or removed (or the threshold was reached); otherwise the collection is unchanged |
| `SortedCollection.RemovalPassNotifies` | AsyncWpfMultiselectTreeView/WpfMultiselectTreeViewKit/Utils/SortedObservableTreeItemCollection.cs:64-73 | a removal pass with nothing inserted notifies exactly when some current item matches no candidate |
| `TreeItem.ProxyFlags` | AsyncWpfMultiselectTreeView/WpfMultiselectTreeViewKit/ViewModels/ProxyTreeViewItemViewModel.cs:16-29 | a proxy is a proxy, never parent-capable and never a leaf, so it is an item container whose children never count as loaded |
| `TreeItem.LeafExcludesLoaded` | AsyncWpfMultiselectTreeView/WpfMultiselectTreeViewKit/ViewModels/TreeViewItemViewModel.cs:238-259 | a leaf is not parent-capable and not loaded, and a loaded node is an item container and not a leaf |
| `TreeItem.ProxyCompareToIgnoresNode` | AsyncWpfMultiselectTreeView/WpfMultiselectTreeViewKit/ViewModels/ProxyTreeViewItemViewModel.cs:38-41 | the parameterless `CompareTo` is positive and the same for every proxy |
| `TreeItem.SetEditing` | AsyncWpfMultiselectTreeView/WpfMultiselectTreeViewKit/ViewModels/TreeViewItemViewModel.cs:182-186 | a non-editable node never becomes editing, an editable one takes the value, and no other field changes |
| `TreeItem.SetParentFlag` | AsyncWpfMultiselectTreeView/WpfMultiselectTreeViewKit/ViewModels/TreeViewItemViewModel.cs:238-242 | a normal node's parent flag follows the value, while a proxy stays non-parent whatever is assigned |
| `TreeItem.SetSilentExpand` | AsyncWpfMultiselectTreeView/WpfMultiselectTreeViewKit/ViewModels/TreeViewItemViewModel.cs:409-412 | the silent expand changes the expanded flag and nothing else |
| `TreeItem.SetSilentSelect` | AsyncWpfMultiselectTreeView/WpfMultiselectTreeViewKit/ViewModels/TreeViewItemViewModel.cs:404-407 | the silent select changes the selected flag and nothing else |
| `TreeItem.ExpandCallback` | AsyncWpfMultiselectTreeView/WpfMultiselectTreeViewKit/ViewModels/TreeViewItemViewModel.cs:334-380 | the load handler runs exactly on a real change to expanded, on a wired node whose children are not loaded; the collapse handler runs exactly on a real change to collapsed of a wired node under the unload policy |
| `TreeItem.SelectCallback` | AsyncWpfMultiselectTreeView/WpfMultiselectTreeViewKit/ViewModels/TreeViewItemViewModel.cs:386-398 | the select handler runs exactly on a real change to selected, on a wired node whose children are not loaded |
| `TreeItem.SetItems` | AsyncWpfMultiselectTreeView/WpfMultiselectTreeViewKit/ViewModels/TreeViewItemViewModel.cs:499-502 | null fails with ArgumentNull and any list succeeds; the children then become a sorted permutation of the items with one Reset, and the rest of the node is unchanged |
| `TreeItem.SetItemsIgnoresReset` | AsyncWpfMultiselectTreeView/WpfMultiselectTreeViewKit/ViewModels/TreeViewItemViewModel.cs:499-503 | the result does not depend on `resetCollection` |
| `TreeItem.SetItem` | AsyncWpfMultiselectTreeView/WpfMultiselectTreeViewKit/ViewModels/TreeViewItemViewModel.cs:530-540 | a present item becomes the only child; a node left without children is silently collapsed; nothing else changes |
| `TreeItem.FirstProxy` | AsyncWpfMultiselectTreeView/WpfMultiselectTreeViewKit/ViewModels/TreeViewItemViewModel.cs:635 | finds the first proxy child, or reports that there is none |
| `TreeItem.InsertChild` | AsyncWpfMultiselectTreeView/WpfMultiselectTreeViewKit/ViewModels/TreeViewItemViewModel.cs:631-640 | a contained child changes nothing; otherwise the proxies are dropped and the child is inserted in sorted position, silently |
| `TreeItem.InsertChildContents` | AsyncWpfMultiselectTreeView/WpfMultiselectTreeViewKit/ViewModels/TreeViewItemViewModel.cs:622-640 | afterwards the child is present, and a new child joins exactly the old non-proxy children |
| `TreeItem.InsertChildAsWritten` | AsyncWpfMultiselectTreeView/WpfMultiselectTreeViewKit/ViewModels/TreeViewItemViewModel.cs:631-640 | the enumerating loop throws exactly when a new child meets a proxy child; then the fault is InvalidOperation, the child is absent and one old child is gone, with nothing new; without a throw it agrees with the intended insert |
| `TreeItem.InsertChildAsWrittenThrows` | AsyncWpfMultiselectTreeView/WpfMultiselectTreeViewKit/ViewModels/TreeViewItemViewModel.cs:635-639 | when a proxy is present the loop throws InvalidOperation after removing one proxy, and the child is never added |
| `TreeItem.RemoveChild` | AsyncWpfMultiselectTreeView/WpfMultiselectTreeViewKit/ViewModels/TreeViewItemViewModel.cs:649-655 | an absent child changes nothing; a present one loses its first occurrence, the other children keeping their order; nothing else changes |
| `TreeItem.RemoveChildKeepsSorted` | AsyncWpfMultiselectTreeView/WpfMultiselectTreeViewKit/ViewModels/TreeViewItemViewModel.cs:649-655 | removing a child keeps a sorted child list sorted |
| `TreeWalk.AllNodesReach` | AsyncWpfMultiselectTreeView/WpfMultiselectTreeViewKit/ViewModels/TreeViewItemViewModel.cs:699-711 | a node is in the walk from a node exactly when it is reachable from it through child links within the depth bound |
| `TreeWalk.AllNodesOfReach` | AsyncWpfMultiselectTreeView/WpfMultiselectTreeViewKit/ViewModels/TreeViewItemViewModel.cs:705-709 | a node is in the walk of a list exactly when it is reachable from one of its entries |
| `TreeWalk.AllNodesSameChildren` | AsyncWpfMultiselectTreeView/WpfMultiselectTreeViewKit/ViewModels/TreeViewItemViewModel.cs:699-711 | the walk depends only on the child links, not on any flag |
| `TreeWalk.AllNodes` | AsyncWpfMultiselectTreeView/WpfMultiselectTreeViewKit/ViewModels/TreeViewItemViewModel.cs:699-703 | a zero depth bound lists nothing, and otherwise every child of the node is listed (AllNodesReach gives the exact set) |
| `TreeWalk.AllNodesOf` | AsyncWpfMultiselectTreeView/WpfMultiselectTreeViewKit/ViewModels/TreeViewItemViewModel.cs:705-711 | every listed node appears in the walk, which is at least as long as the list (AllNodesOfReach gives the exact set) |
| `TreeWalk.CollapseAllFrame` | AsyncWpfMultiselectTreeView/WpfMultiselectTreeViewKit/ViewModels/TreeViewItemViewModel.cs:451-461 | with unloading off, collapsing changes only expanded flags: no child list and no other field changes |
| `TreeWalk.CollapseAllCollapses` | AsyncWpfMultiselectTreeView/WpfMultiselectTreeViewKit/ViewModels/TreeViewItemViewModel.cs:451-461 | afterwards a node is expanded exactly when it was before and is neither the node nor one of its descendants |
| `TreeWalk.CollapseAll` | AsyncWpfMultiselectTreeView/WpfMultiselectTreeViewKit/ViewModels/TreeViewItemViewModel.cs:451-461 | no node is added or removed and the node itself ends collapsed (CollapseAllCollapses gives the exact set of collapsed nodes) |
| `TreeWalk.CollapseEach` | AsyncWpfMultiselectTreeView/WpfMultiselectTreeViewKit/ViewModels/TreeViewItemViewModel.cs:455-458 | the loop over the children adds or removes no node (CollapseEachCollapses gives its effect) |
| `TreeWalk.CollapseEachCollapses` | AsyncWpfMultiselectTreeView/WpfMultiselectTreeViewKit/ViewModels/TreeViewItemViewModel.cs:455-458 | after collapsing each of a list in turn, a node is expanded exactly when it was before and is neither listed nor below a listed node |
| `TreeWalk.Ancestors` | AsyncWpfMultiselectTreeView/WpfMultiselectTreeViewKit/ViewModels/TreeViewItemViewModel.cs:662-674 | the chain starts at the parent, each entry is the parent of the one before, and a chain shorter than the bound ends at a node with no parent (or one outside the arena) |
| `TreeWalk.AncestorsAreUp` | AsyncWpfMultiselectTreeView/WpfMultiselectTreeViewKit/ViewModels/TreeViewItemViewModel.cs:662-674 | against an independent climb of the parent links: the k-th entry of the chain is the node k + 1 links above, and a chain shorter than the bound stops exactly where the links run out |
| `TreeView.NewTree` | AsyncWpfMultiselectTreeView/WpfMultiselectTreeViewKit/ViewModels/TreeViewViewModel.cs:30-59 | a new tree has no roots, no selection, empty registries, and both policies off |
| `TreeView.FillChildren` | AsyncWpfMultiselectTreeView/WpfMultiselectTreeViewKit/ViewModels/TreeViewViewModel.cs:289-327 | waiting on a cancelled token throws; a fetch fault propagates; the children are untouched unless the node is updatable, not loaded or forced, not cancelled before or after the fetch, and the fetch returned a list; then they become a sorted permutation of the non-null results |
| `TreeView.FillChildrenLoads` | AsyncWpfMultiselectTreeView/WpfMultiselectTreeViewKit/ViewModels/TreeViewViewModel.cs:317-320 | an installed result of non-proxy nodes has as many children as non-null results and, for a parent node given at least one, counts as loaded |
| `TreeView.LoadedByContents` | AsyncWpfMultiselectTreeView/WpfMultiselectTreeViewKit/ViewModels/TreeViewItemViewModel.cs:255-259 | a node whose children are a set of non-proxies is loaded exactly when it is parent-capable and that set is non-empty |
| `TreeView.CancelExpand` | AsyncWpfMultiselectTreeView/WpfMultiselectTreeViewKit/ViewModels/TreeViewViewModel.cs:364-372 | a live expand token is marked cancelled and kept; without one nothing changes |
| `TreeView.CancelCollapse` | AsyncWpfMultiselectTreeView/WpfMultiselectTreeViewKit/ViewModels/TreeViewViewModel.cs:418-426 | a live collapse token is marked cancelled and kept; without one nothing changes |
| `TreeView.OnLoadChildren` | AsyncWpfMultiselectTreeView/WpfMultiselectTreeViewKit/ViewModels/TreeViewViewModel.cs:464-484 | any live collapse token is cancelled first, the expand token is gone afterwards whatever the outcome, and the arena is what the fill leaves behind |
| `TreeView.OnSelectedAsync` | AsyncWpfMultiselectTreeView/WpfMultiselectTreeViewKit/ViewModels/TreeViewViewModel.cs:437-446 | loading on select happens only under the `LoadChildrenOnSelected` policy, and then as an unforced load |
| `TreeView.NewProxy` | AsyncWpfMultiselectTreeView/WpfMultiselectTreeViewKit/ViewModels/ProxyTreeViewItemViewModel.cs:34-36 | a fresh proxy has the given parent, no children, no handlers and is never parent-capable |
| `TreeView.OnCollapsed` | AsyncWpfMultiselectTreeView/WpfMultiselectTreeViewKit/ViewModels/TreeViewViewModel.cs:381-412 | the expand token is cancelled; the children are replaced by one proxy exactly under the unload condition and are untouched otherwise; the collapse token is gone afterwards |
| `TreeView.Unload` | AsyncWpfMultiselectTreeView/WpfMultiselectTreeViewKit/ViewModels/TreeViewViewModel.cs:402-406 | unloading makes a fresh proxy, parented by the node, the node's only child and changes nothing else of the node |
| `TreeView.OnCollapsedKeepsLinks` | AsyncWpfMultiselectTreeView/WpfMultiselectTreeViewKit/ViewModels/TreeViewViewModel.cs:402-406 | collapsing keeps every child's parent link pointing back at its parent |
| `TreeView.Construct` | AsyncWpfMultiselectTreeView/WpfMultiselectTreeViewKit/ViewModels/TreeViewItemViewModel.cs:60-80 | a new node has its class's kind, the given parent, no children, and all flags clear |
| `TreeView.CreateTreeNodeAsWritten` | AsyncWpfMultiselectTreeView/WpfMultiselectTreeViewKit/ViewModels/TreeViewViewModel.cs:255-274 | a non-updatable parent node fails with InvalidArgument; otherwise the proxy is created with the new node's own parent as its parent |
| `TreeView.CreateTreeNode` | AsyncWpfMultiselectTreeView/WpfMultiselectTreeViewKit/ViewModels/TreeViewViewModel.cs:255-274 | same failure rule; the new node is created with its parent link set and no other node changes (it is not put into the parent's children, which `InsertItem` does); a parent node gets exactly one proxy child, parented by the new node, and wired handlers; other nodes get no children |
| `TreeView.CreateTreeNodeKeepsLinks` | AsyncWpfMultiselectTreeView/WpfMultiselectTreeViewKit/ViewModels/TreeViewViewModel.cs:255-274 | creating a node keeps every child's parent link consistent |
| `TreeView.CreateTreeNodeAsWrittenBreaksLinks` | AsyncWpfMultiselectTreeView/WpfMultiselectTreeViewKit/ViewModels/TreeViewViewModel.cs:267 | the code as written always leaves the proxy's parent link pointing away from the node that holds it |
| `TreeView.InsertItem` | AsyncWpfMultiselectTreeView/WpfMultiselectTreeViewKit/ViewModels/TreeViewViewModel.cs:508-524 | the corrected insert: null is a no-op; a parentless item joins the roots in sorted position; otherwise the parent's intended `InsertChild` does the work and the roots are untouched |
| `TreeView.InsertItemKeepsLinks` | AsyncWpfMultiselectTreeView/WpfMultiselectTreeViewKit/ViewModels/TreeViewViewModel.cs:508-524 | the corrected insert keeps parent links consistent, and an updatable parent ends up holding the item with no proxy beside it |
| `TreeView.InsertItemAsWritten` | AsyncWpfMultiselectTreeView/WpfMultiselectTreeViewKit/ViewModels/TreeViewViewModel.cs:508-524 | the insert as the code runs throws exactly when the item reaches an updatable parent that lacks it and has a proxy child; then the fault is InvalidOperation, the roots are untouched and the parent has lost a child without gaining the item; otherwise it is the corrected insert |
| `TreeView.InsertUnderAsWritten` | AsyncWpfMultiselectTreeView/WpfMultiselectTreeViewKit/ViewModels/TreeViewViewModel.cs:519-522 | under an updatable parent, the insert as written throws exactly when the parent lacks the item and shows a proxy; otherwise the parent gets the intended `InsertChild` and nothing else changes |
| `TreeView.InsertItemAsWrittenKeepsLinks` | AsyncWpfMultiselectTreeView/WpfMultiselectTreeViewKit/ViewModels/TreeViewViewModel.cs:508-524 | the insert as written keeps parent links consistent whether or not it throws |
| `TreeView.AddRootNode` | AsyncWpfMultiselectTreeView/WpfMultiselectTreeViewKit/ViewModels/TreeViewViewModel.cs:241-246 | null is a no-op; otherwise the roots become exactly that one node, silently |
| `TreeView.GetAllNodes` | AsyncWpfMultiselectTreeView/WpfMultiselectTreeViewKit/ViewModels/TreeViewViewModel.cs:530-542 | the tree walk lists exactly the nodes reachable from some root |
| `NodeLoad.SetExpanded` | AsyncWpfMultiselectTreeView/WpfMultiselectTreeViewKit/ViewModels/TreeViewItemViewModel.cs:167-177 | the same value is a no-op; expanding a loaded node or an unwired one only sets the flag (the unwired handler's failure is swallowed); collapsing with unloading off only clears it; expanding a wired unloaded node sets the flag and then runs the tree's load: the arena becomes what filling the node's children makes of it, the expand token is gone, a live collapse token is cancelled, and the selection bookkeeping and policies are unchanged |
| `NodeLoad.SetSelected` | AsyncWpfMultiselectTreeView/WpfMultiselectTreeViewKit/ViewModels/TreeViewItemViewModel.cs:200-213 | the same value is a no-op; the flag takes the value; a deselect, an unwired or loaded node, or the load-on-select policy off make it a pure flag change; otherwise the flag is set and the tree's load runs: the arena becomes what filling the node's children makes of it, the expand token is gone and a live collapse token is cancelled; the selection bookkeeping is unchanged |
| `NodeLoad.RunHandler` | AsyncWpfMultiselectTreeView/WpfMultiselectTreeViewKit/ViewModels/TreeViewItemViewModel.cs:563-570 | the re-entrancy flag takes the force value and the expanded flag is unchanged; an unwired node gets no fault and keeps its children; a wired node runs the tree's `OnLoadChildren`; when that fill installs a list, the node's children become exactly the fetched non-null ids, sorted, and otherwise they are unchanged; no other node changes |
| `NodeLoad.LoadChildren` | AsyncWpfMultiselectTreeView/WpfMultiselectTreeViewKit/ViewModels/TreeViewItemViewModel.cs:558-585 | a load in progress makes it a no-op; otherwise the flag is clear afterwards, whatever the handler did; a shallow load leaves the children the handler left; a load whose handler installs a fetched list, deep or not, leaves exactly that list, sorted; no node is added or removed |
| `NodeLoad.LoadChildrenAsWritten` | AsyncWpfMultiselectTreeView/WpfMultiselectTreeViewKit/ViewModels/TreeViewItemViewModel.cs:558-585 | a load in progress makes it a no-op; a shallow load leaves the children the handler left; a load whose handler installs a fetched list, deep or not, leaves exactly that list, sorted; no node is added or removed; the selection bookkeeping is unchanged |
| `NodeLoad.LoadedChildren` | AsyncWpfMultiselectTreeView/WpfMultiselectTreeViewKit/ViewModels/TreeViewItemViewModel.cs:563-578 | whatever the options and however a fault is handled, a shallow load ends with the children its handler left, and a load whose handler installs a fetched list ends holding exactly that list, whatever the deep walk does |
| `NodeLoad.LoadKeepsFetched` | AsyncWpfMultiselectTreeView/WpfMultiselectTreeViewKit/ViewModels/TreeViewItemViewModel.cs:558-594 | a node holding the list its own fetch installs still holds it after any load, however deep, since reloading it installs the same list |
| `NodeLoad.LoadChildrenKeeps` | AsyncWpfMultiselectTreeView/WpfMultiselectTreeViewKit/ViewModels/TreeViewItemViewModel.cs:558-594 | a load, deep or not, never changes a parent link, a kind or a selection, and without `expandAfterLoad` and with maintaining on it changes no expanded flag |
| `NodeLoad.LoadEachKeeps` | AsyncWpfMultiselectTreeView/WpfMultiselectTreeViewKit/ViewModels/TreeViewItemViewModel.cs:587-594 | the deep load over the children keeps the same frame |
| `NodeLoad.DeepLoad` | AsyncWpfMultiselectTreeView/WpfMultiselectTreeViewKit/ViewModels/TreeViewItemViewModel.cs:572-575 | the deep step adds or removes no node and keeps the tree's bookkeeping (DeepLoadKeeps and LoadKeepsFetched give what it keeps per node) |
| `NodeLoad.LoadEach` | AsyncWpfMultiselectTreeView/WpfMultiselectTreeViewKit/ViewModels/TreeViewItemViewModel.cs:587-594 | loading each child in turn adds or removes no node and keeps the tree's bookkeeping (LoadEachKeeps and LoadKeepsFetched give what it keeps per node) |
| `NodeLoad.LoadChildrenExpandRule` | AsyncWpfMultiselectTreeView/WpfMultiselectTreeViewKit/ViewModels/TreeViewItemViewModel.cs:571-578 | when the handler completes and the node has children, expanded becomes `expandAfterLoad` or (`maintain` and the previous status); with no children or after a fault it keeps its value |
| `NodeLoad.HandlerFaultsOnThrow` | AsyncWpfMultiselectTreeView/WpfMultiselectTreeViewKit/ViewModels/TreeViewViewModel.cs:311-312 | a fetch that throws makes the load handler throw |
| `NodeLoad.LoadChildrenAsWrittenSticks` | AsyncWpfMultiselectTreeView/WpfMultiselectTreeViewKit/ViewModels/TreeViewItemViewModel.cs:563-584 | after a forced load whose handler throws, the flag stays set and every later load is a no-op; the corrected load clears it |
| `NodeLoad.LoadWithAgrees` | AsyncWpfMultiselectTreeView/WpfMultiselectTreeViewKit/ViewModels/TreeViewItemViewModel.cs:563-594 | an unforced load, deep loads included, ends the same whether or not a fault clears the flag, since the flag was set to false before the handler |
| `NodeLoad.UnforcedLoadsAgree` | AsyncWpfMultiselectTreeView/WpfMultiselectTreeViewKit/ViewModels/TreeViewItemViewModel.cs:558-585 | every unforced `LoadChildren` of the model is the code as written |
| `NodeLoad.ExpandAll` | AsyncWpfMultiselectTreeView/WpfMultiselectTreeViewKit/ViewModels/TreeViewItemViewModel.cs:437-446 | with the corrected load: a node not already loading whose handler completes with children ends expanded; when its handler installs a fetched list the node holds exactly that list; no node is added or removed |
| `NodeLoad.ExpandAllAsWritten` | AsyncWpfMultiselectTreeView/WpfMultiselectTreeViewKit/ViewModels/TreeViewItemViewModel.cs:437-446 | as written: the same expand rule and the same installed list; a forced expand whose handler throws leaves the node marked as loading where the corrected one clears it; an unforced one is the corrected one |
| `NodeLoad.LoadAll` | AsyncWpfMultiselectTreeView/WpfMultiselectTreeViewKit/ViewModels/TreeViewItemViewModel.cs:466-486 | with the corrected load: the node's forced fetch, when installed, is exactly its child list; loading everything changes no parent link, kind, selection or expanded flag |
| `NodeLoad.LoadAllAsWritten` | AsyncWpfMultiselectTreeView/WpfMultiselectTreeViewKit/ViewModels/TreeViewItemViewModel.cs:466-486 | as written: the same installed list and the same frame, but a handler that throws leaves the node marked as loading, where the corrected one clears it |
| `NodeLoad.ExpandSelect` | AsyncWpfMultiselectTreeView/WpfMultiselectTreeViewKit/ViewModels/TreeViewItemViewModel.cs:419-424 | the node ends selected; its children are what its unforced shallow load's handler left, which is exactly the fetched list when the fill installs one; it ends expanded exactly by the load's expand rule |
| `NodeLoad.ShowOneExpands` | AsyncWpfMultiselectTreeView/WpfMultiselectTreeViewKit/ViewModels/TreeViewItemViewModel.cs:665-672 | one ancestor step leaves that ancestor expanded and collapses nothing |
| `NodeLoad.ShowAncestors` | AsyncWpfMultiselectTreeView/WpfMultiselectTreeViewKit/ViewModels/TreeViewItemViewModel.cs:662-674 | the loop over the ancestors adds or removes no node and keeps the tree's bookkeeping (ShowAncestorsExpands gives that every ancestor ends expanded) |
| `NodeLoad.ShowAncestorsExpands` | AsyncWpfMultiselectTreeView/WpfMultiselectTreeViewKit/ViewModels/TreeViewItemViewModel.cs:662-674 | every node in the chain ends expanded, nothing is collapsed, and no link changes |
| `NodeLoad.SetSelectedKeepsExpansion` | AsyncWpfMultiselectTreeView/WpfMultiselectTreeViewKit/ViewModels/TreeViewItemViewModel.cs:200-213 | selecting a node changes no expanded flag |
| `NodeLoad.EnsureVisibleSelected` | AsyncWpfMultiselectTreeView/WpfMultiselectTreeViewKit/ViewModels/TreeViewItemViewModel.cs:660-676 | the node ends selected, no node is added or removed, and the tree's bookkeeping is unchanged |
| `NodeLoad.EnsureVisibleSelectedShows` | AsyncWpfMultiselectTreeView/WpfMultiselectTreeViewKit/ViewModels/TreeViewItemViewModel.cs:660-676 | afterwards the node is selected and every ancestor is expanded |
| `Selection.SetLastSelected` | AsyncWpfMultiselectTreeView/WpfMultiselectTreeViewKit/ViewModels/TreeViewViewModel.cs:81-93 | the property takes the value; the current value or an already selected node is a pure store; a new unselected node is made selected |
| `Selection.SetLastSelectedShows` | AsyncWpfMultiselectTreeView/WpfMultiselectTreeViewKit/ViewModels/TreeViewViewModel.cs:86-91 | a new unselected node has all its ancestors expanded, and nothing is collapsed |
| `Selection.AsNode` | AsyncWpfMultiselectTreeView/WpfMultiselectTreeViewKit/ViewModels/TreeViewViewModel.cs:132 | the `as` cast yields a node exactly for a node and null for anything else |
| `Selection.SetNonTypedLastSelected` | AsyncWpfMultiselectTreeView/WpfMultiselectTreeViewKit/ViewModels/TreeViewViewModel.cs:126-134 | the untyped value is stored; a node also becomes the typed last selection, and anything else clears it |
| `Selection.TypedNodesSpec` | AsyncWpfMultiselectTreeView/WpfMultiselectTreeViewKit/ViewModels/TreeViewViewModel.cs:111-113 | the `OfType` filter keeps exactly the nodes, loses nothing exactly when everything is a node, and then keeps the order |
| `Selection.TypedNodesWrap` | AsyncWpfMultiselectTreeView/WpfMultiselectTreeViewKit/ViewModels/TreeViewViewModel.cs:111 | filtering a list of nodes gives back that list |
| `Selection.SetNonTypedSelected` | AsyncWpfMultiselectTreeView/WpfMultiselectTreeViewKit/ViewModels/TreeViewViewModel.cs:102-118 | the untyped list is stored; null clears the typed selection; a list with a non-node leaves the typed selection unchanged |
| `Selection.SetNonTypedSelectedTypes` | AsyncWpfMultiselectTreeView/WpfMultiselectTreeViewKit/ViewModels/TreeViewViewModel.cs:108-116 | an all-node list becomes the typed selection, in order |
| `Selection.SetLoadChildrenOnSelected` | AsyncWpfMultiselectTreeView/WpfMultiselectTreeViewKit/ViewModels/TreeViewViewModel.cs:151-186 | the policy takes the value; turning it off, with no last selection, or with a last selection whose children are loaded only stores it; otherwise the node's unforced load runs: the arena becomes what filling its children makes of it, the expand token is gone, a live collapse token is cancelled, and the selection bookkeeping is unchanged |
| `Selection.SetLoadChildrenOnSelectedLoads` | AsyncWpfMultiselectTreeView/WpfMultiselectTreeViewKit/ViewModels/TreeViewViewModel.cs:173-186 | switching on with an unloaded selected node and a successful fetch installs exactly the non-null results, sorted |
| `Selection.Clear` | AsyncWpfMultiselectTreeView/WpfMultiselectTreeViewKit/ViewModels/TreeViewViewModel.cs:224-231 | the selections become null and the roots empty, with one Reset; registries and policies are unchanged |
| `Selection.ClearEmptiesWalk` | AsyncWpfMultiselectTreeView/WpfMultiselectTreeViewKit/ViewModels/TreeViewViewModel.cs:224-231 | after clearing, the tree walk finds no nodes |

## Left out

- WPF controls, input routing, drag and drop, adorners and the edit box: these are
  visual and input behaviour, not decision logic. `DoDragDrop`, `DoDrop`, `CanDrop` and
  `Initialize` are abstract host members with no code here.
- Concurrency: the per-node `SemaphoreSlim`, the thread-safety of `ConcurrentDictionary`
  and `Dispatcher` marshalling are left out. Each asynchronous method is one atomic step.
  The semaphore wait appears only as its one observable effect: waiting on an already
  cancelled token throws.
- Property-change and collection-change events, `HasVisibleItems`, the commands and the
  console logging are left out. Only Reset notifications of the sorted collection are
  counted. A caught exception is logged and otherwise changes nothing, and the model
  shows exactly that.
- The host's `GetChildren`, `CreateProxyNode`, `CompareTo(object)` and the class
  activation behind `CreateTreeNode` are parameters. They are the fetch value, the
  comparator and a `NodeClass` record. `Construct` takes the place of the constructor
  call with the new node's class.
- Stored-only properties (`IsMultiSelected`, `IsBeingDragged`, `RefreshData`,
  `Refresh`, the item value) carry no decision logic and are not fields of the node.
- `TreeViewViewModel.SetLastSelectedItem` is the same setter as `LastSelectedItem` and
  is covered by `Selection.SetLastSelected`. The public `LoadChildren(item)`,
  `OnExpandedAsync` and `OnForceLoadChildrenAsync` forward to `OnLoadChildren`. The model
  connects them to `TreeView.OnLoadChildren` and does not repeat them.
- `SortedCollection.Remove`: the per-item Remove notification of `ObservableCollection` is
  not counted, since only Reset notifications are tracked.
- The branch of `SetItems` after its early `return` and `RemoveProxyNodes` are dead
  code. They are not modelled as behaviour.
- The unload path of `CollapseAll` and `OnCollapsed` is modelled, but no public
  operation reaches it. `ShouldUnloadChildrenOnCollapse` is a private field initialised
  to false with no setter. `TreeView.NewTree` fixes it to false and nothing changes it.
- `TreeWalk.CollapseAll` is modelled with unloading off, the only reachable case. Each
  node's children are read from the state before the collapse.
- Recursion over the arena (`GetAllNodes`, `CollapseAll`, deep loads, the ancestor
  chain) carries a `fuel` bound. It stands for the finite depth of a real tree. Nodes
  deeper than the bound are not visited, and the arena itself may hold cycles, which the
  source cannot.
- Nodes the host creates during a fetch are assumed to be in the arena already. The
  fetch returns ids, and `FillChildren` installs them as given. A deep load skips an
  id that is not in the arena, where the code would go on to load that child.
- `TreeView.InsertItem`: goes through the intended `InsertChild`, so it never throws.
  The throwing behaviour of the code is `TreeView.InsertItemAsWritten`.
- `NodeLoad.LoadAll`: uses the corrected load, which clears the flag after a fault. The
  code as written leaves it set; that is `NodeLoad.LoadAllAsWritten`. The node's own
  installed child list is stated; which descendants the deep walk fetched is not.
  `NodeLoad.LoadKeepsFetched` states only that the walk never undoes a completed fetch.
- `NodeLoad.ExpandAll`: uses the corrected load, as `LoadAll` does; the code as
  written is `NodeLoad.ExpandAllAsWritten`. Both state the expand rule for the node
  itself only. For its descendants they state only that no node is added or removed.
  The same rule applies to each of them through `LoadChildrenExpandRule`, but the deep
  case is not stated as one contract. Likewise the node's own installed child list is
  stated, and which descendants the deep walk fetched is not.
- `NodeLoad.ExpandAllAsWritten`: the node's own installed child list is stated; which
  descendants the deep walk fetched is not.
- `NodeLoad.LoadAllAsWritten`: the same as `LoadAll`; the descendants' fetches are not
  stated.
- `NodeLoad.DeepLoad`: its contract states what the walk keeps, not which nodes it
  loads.
- `NodeLoad.LoadEach`: the same as `DeepLoad`.
- `TreeWalk.CollapseEach`: its contract states only that no node is added or removed.
  Its effect on the expanded flags is the lemma `TreeWalk.CollapseEachCollapses`, kept
  apart so that proofs unfolding the walk do not carry it.
- `TreeWalk.AllNodes`: its contract gives membership of the direct children only; the
  exact set is `TreeWalk.AllNodesReach`.
- `TreeWalk.AllNodesOf`: its contract gives membership of the entries only; the exact
  set is `TreeWalk.AllNodesOfReach`.
- `NodeLoad.EnsureVisibleSelectedShows`: does not state which ancestors had a load
  requested. It states only the outcome, that every ancestor is expanded and the node
  is selected.
- `Selection.SetLastSelected`: the walk up the ancestors runs only on the fuel-bounded
  chain.

## Findings

| source | as written | input that shows it | evidently intended | confidence | as-written member | corrected member |
|---|---|---|---|---|---|---|
| AsyncWpfMultiselectTreeView/WpfMultiselectTreeViewKit/ViewModels/TreeViewItemViewModel.cs:635-638 | `InsertChild` removes proxies from the children while a lazy `Where` over those same children is being enumerated | a node whose children hold one proxy, inserting a new child: the first `Remove` invalidates the enumerator, the next `MoveNext` throws InvalidOperation, and the child is never added | drop every proxy child, then add the child (the doc comment) | not executed | `TreeItem.InsertChildAsWrittenThrows` | `TreeItem.InsertChildContents` |
| AsyncWpfMultiselectTreeView/WpfMultiselectTreeViewKit/ViewModels/TreeViewViewModel.cs:267 | `CreateTreeNode` creates the placeholder proxy with `parentNode`, the new node's own parent, as its parent | any parent-capable updatable node: its only child, the proxy, names the grandparent (or null) as its parent | the proxy's parent is the new node, as `OnCollapsed` does at line 405 | not executed | `TreeView.CreateTreeNodeAsWrittenBreaksLinks` | `TreeView.CreateTreeNodeKeepsLinks` |
| AsyncWpfMultiselectTreeView/WpfMultiselectTreeViewKit/ViewModels/TreeViewItemViewModel.cs:563-584 | `LoadChildren` clears the re-entrancy flag only at the end of the `try`; an exception in the handler skips it and is swallowed by the `catch` | `LoadChildren(forceIfAlreadyLoaded: true)` on a node whose fetch throws: the flag stays true and every later `LoadChildren` on that node returns at once | the flag is reset however the load ends | not executed | `NodeLoad.LoadChildrenAsWrittenSticks` | `NodeLoad.LoadChildren` |

=== FILE: collection_helpers.dfy ===
/** The `IList<T>.AddRange` extension: appends the given items one `Add` at a time. */
module CollectionHelpers {

  /** Appends `items` to `list`, one at a time and in enumeration order. Existing
      items keep their positions; the appended ones form the suffix, in their order. */
  function AppendAll<T>(list: seq<T>, items: seq<T>): (r: seq<T>)
    ensures r == list + items
    decreases |items|
  {
    if |items| == 0 then list
    else AppendAll(list + [items[0]], items[1..])
  }
}

=== FILE: node_load.dfy ===
/** The node operations of `TreeViewItemViewModel` that run through the handlers the
    tree wired into the node: the `IsExpanded` and `IsSelected` setters, `LoadChildren`
    with its deep variant, `ExpandAll`, `LoadAll`, `ExpandSelect` and
    `EnsureVisibleSelected`. Every `await` is one atomic step; what each node's fetch
    does is given by an environment `env`. */
module NodeLoad {
  import opened Wrappers
  import opened TreeItem
  import opened TreeView
  import TreeWalk
  import Ordering

  /** What the fetch of each node does during one operation. */
  type Env = NodeId -> Fetch

  // ---------------------------------------------------------------------------
  // The guarded setters

  /** `r` is `t` after node `id` took the state `n` and then loaded its children
      through `OnLoadChildren`: the arena is what filling the children makes of it,
      the expand token is gone, a pending collapse is cancelled, and the rest of the
      tree is as it was. */
  predicate LoadedAs(cmp: (NodeId, NodeId) -> int, t: Tree, id: NodeId, n: Node, f: Fetch, r: Tree)
    requires id in t.arena
  {
    r.arena == FillChildren(cmp, t.arena[id := n], id, ExpandCancelled(t, id), f, false).state &&
    r.expandTokens == t.expandTokens - {id} &&
    r.collapseTokens == (if id in t.collapseTokens then t.collapseTokens[id := true] else t.collapseTokens) &&
    LoadFrame(t, r)
  }

  /** The `IsExpanded` setter. Setting the current value does nothing. Otherwise the
      flag changes and the node's handler runs: `OnExpanded` (a load through
      `OnLoadChildren`) when expanding a node whose children are not loaded,
      `OnCollapsed` when collapsing under the unload policy. A handler's fault is
      logged and dropped. `proxy` is the id a collapse would give a new proxy. */
  function SetExpanded(cmp: (NodeId, NodeId) -> int, t: Tree, id: NodeId, v: bool, f: Fetch, proxy: NodeId): (r: Tree)
    requires id in t.arena && proxy !in t.arena
    ensures t.arena[id].isExpanded == v ==> r == t
    ensures id in r.arena && r.arena[id].isExpanded == v
    ensures v && (IsChildrenLoaded(t.arena, t.arena[id]) || !t.arena[id].wired) ==>
      r == t.(arena := t.arena[id := SetSilentExpand(t.arena[id], v)])
    ensures !v && !t.shouldUnload ==>
      r == t.(arena := t.arena[id := SetSilentExpand(t.arena[id], v)])
    ensures v && t.arena[id].isExpanded != v && t.arena[id].wired && !IsChildrenLoaded(t.arena, t.arena[id]) ==>
      LoadedAs(cmp, t, id, SetSilentExpand(t.arena[id], v), f, r)
  {
    var n := t.arena[id];
    if n.isExpanded == v then
      ExpandUnchanged(t, id);
      t
    else
      var t1 := t.(arena := t.arena[id := SetSilentExpand(n, v)]);
      match ExpandCallback(t.arena, n, v, t.shouldUnload)
      case ExpandHandler => OnLoadChildren(cmp, t1, id, f, false).state
      case CollapseHandler => OnCollapsed(cmp, t1, id, proxy)
      case _ => t1
  }

  /** Silently storing the expanded flag a node already has changes nothing. */
  lemma ExpandUnchanged(t: Tree, id: NodeId)
    requires id in t.arena
    ensures t.(arena := t.arena[id := SetSilentExpand(t.arena[id], t.arena[id].isExpanded)]) == t
  {
    assert SetSilentExpand(t.arena[id], t.arena[id].isExpanded) == t.arena[id];
  }

  /** The `IsSelected` setter. Setting the current value does nothing. Otherwise the
      flag changes, and selecting a node whose children are not loaded runs its
      `OnSelected` handler; a fault is logged and dropped. */
  function SetSelected(cmp: (NodeId, NodeId) -> int, t: Tree, id: NodeId, v: bool, f: Fetch): (r: Tree)
    requires id in t.arena
    ensures t.arena[id].isSelected == v ==> r == t
    ensures id in r.arena && r.arena[id].isSelected == v
    ensures (t.arena[id].isSelected != v &&
             (!v || !t.arena[id].wired || IsChildrenLoaded(t.arena, t.arena[id]) || !t.loadChildrenOnSelected)) ==>
      r == t.(arena := t.arena[id := SetSilentSelect(t.arena[id], v)])
    ensures (t.arena[id].isSelected != v && v && t.arena[id].wired && !IsChildrenLoaded(t.arena, t.arena[id]) &&
             t.loadChildrenOnSelected) ==> LoadedAs(cmp, t, id, SetSilentSelect(t.arena[id], v), f, r)
    ensures LoadFrame(t, r)
  {
    var n := t.arena[id];
    if n.isSelected == v then t
    else
      var t1 := t.(arena := t.arena[id := SetSilentSelect(n, v)]);
      if SelectCallback(t.arena, n, v) == SelectHandler then OnSelectedAsync(cmp, t1, id, f).state else t1
  }

  // ---------------------------------------------------------------------------
  // Loading

  /** The parameters of `LoadChildren`: `forceIfAlreadyLoaded`, `deepLoadChildren`,
      `expandAfterLoad`, `maintainCurrentExpandStatus`. */
  datatype LoadOptions = LoadOptions(force: bool, deep: bool, expandAfter: bool, maintain: bool)

  /** The options a bare `LoadChildren()` call gets. */
  const Defaults := LoadOptions(false, false, false, true)

  /** The child list a fetch that returns a list installs: its non-null ids, sorted. */
  function Fetched(cmp: (NodeId, NodeId) -> int, f: Fetch): seq<NodeId>
    requires f.outcome.Returns? && f.outcome.children.Some?
  {
    Ordering.Sort(cmp, Present(f.outcome.children.value))
  }

  /** The wired handler of node `id` gets as far as installing what `f` returns. */
  predicate HandlerInstalls(t: Tree, id: NodeId, f: Fetch, force: bool) {
    id in t.arena && t.arena[id].wired && Installs(t.arena, id, ExpandCancelled(t, id), f, force)
  }

  /** Node `x` holds exactly the children its own fetch installs. */
  predicate HoldsFetched(cmp: (NodeId, NodeId) -> int, t: Tree, x: NodeId, env: Env) {
    x in t.arena && env(x).outcome.Returns? && env(x).outcome.children.Some? &&
    t.arena[x].children.items == Fetched(cmp, env(x))
  }

  /** The first half of `LoadChildren`: set the re-entrancy flag to `force` and await
      the `OnForceLoadChildren` handler, if one is wired. */
  function RunHandler(cmp: (NodeId, NodeId) -> int, t: Tree, id: NodeId, force: bool, f: Fetch): (r: Attempt<Tree>)
    requires id in t.arena
    ensures id in r.state.arena && r.state.arena.Keys == t.arena.Keys
    ensures r.state.arena[id].isLoadingChildren == force
    ensures r.state.arena[id].isExpanded == t.arena[id].isExpanded
    ensures !t.arena[id].wired ==> r.fault.None? && r.state.arena[id].children == t.arena[id].children
    ensures t.arena[id].wired ==>
      r == OnLoadChildren(cmp, t.(arena := t.arena[id := t.arena[id].(isLoadingChildren := force)]), id, f, force)
    ensures HandlerInstalls(t, id, f, force) ==> r.fault.None? && r.state.arena[id].children.items == Fetched(cmp, f)
    ensures !HandlerInstalls(t, id, f, force) ==> r.state.arena[id].children == t.arena[id].children
    ensures forall x :: x in t.arena && x != id ==> r.state.arena[x] == t.arena[x]
    ensures LoadFrame(t, r.state)
  {
    var t1 := t.(arena := t.arena[id := t.arena[id].(isLoadingChildren := force)]);
    InstallsIgnoresLoading(t.arena, id, force, ExpandCancelled(t, id), f, force);
    assert ExpandCancelled(t1, id) == ExpandCancelled(t, id);
    if t.arena[id].wired then OnLoadChildren(cmp, t1, id, f, force) else Attempt(t1, None)
  }

  /** Whether a fill installs does not depend on the node's loading flag. */
  lemma InstallsIgnoresLoading(a: Arena, id: NodeId, v: bool, cancelled: bool, f: Fetch, force: bool)
    requires id in a
    ensures Installs(a[id := a[id].(isLoadingChildren := v)], id, cancelled, f, force) == Installs(a, id, cancelled, f, force)
  {
    var b := a[id := a[id].(isLoadingChildren := v)];
    assert forall c :: ChildIsProxy(b, c) == ChildIsProxy(a, c);
    assert IsChildrenLoaded(b, b[id]) == IsChildrenLoaded(a, a[id]);
  }

  /** Set the node's `mIsLoadingChildren` (storing the value it already has is no
      change at all). */
  function SetLoading(t: Tree, id: NodeId, v: bool): (r: Tree)
    requires id in t.arena
    ensures id in r.arena && r.arena.Keys == t.arena.Keys && r.arena[id].isLoadingChildren == v
    ensures r.arena[id].isExpanded == t.arena[id].isExpanded
    ensures t.arena[id].isLoadingChildren == v ==> r == t
    ensures LoadFrame(t, r)
  {
    if t.arena[id].isLoadingChildren == v then t
    else t.(arena := t.arena[id := t.arena[id].(isLoadingChildren := v)])
  }

  /** Silently set the node's expanded flag. */
  function ExpandTo(t: Tree, id: NodeId, v: bool): (r: Tree)
    requires id in t.arena
    ensures id in r.arena && r.arena.Keys == t.arena.Keys && r.arena[id].isExpanded == v
    ensures r.arena[id].isLoadingChildren == t.arena[id].isLoadingChildren
    ensures LoadFrame(t, r)
  {
    t.(arena := t.arena[id := SetSilentExpand(t.arena[id], v)])
  }

  /** `LoadChildren(force, deep, expandAfter, maintain)`, with the flag left after a
      fault chosen by `resetOnFault`. A node already loading returns at once;
      otherwise the handler runs and `AfterHandler` finishes. */
  function LoadChildrenWith(cmp: (NodeId, NodeId) -> int, t: Tree, id: NodeId, o: LoadOptions, env: Env, fuel: nat, resetOnFault: bool): (r: Tree)
    ensures r.arena.Keys == t.arena.Keys
    ensures id in t.arena && t.arena[id].isLoadingChildren ==> r == t
    decreases fuel, 2
    ensures LoadFrame(t, r)
  {
    if id !in t.arena || t.arena[id].isLoadingChildren then t
    else AfterHandler(cmp, RunHandler(cmp, t, id, o.force, env(id)), id, o, t.arena[id].isExpanded, env, fuel, resetOnFault)
  }

  /** The rest of `LoadChildren`, from what the handler left. If the node has
      children, a deep load walks them and the node is silently expanded to
      `expandAfter || (maintain && before)`; then the flag is cleared. A fault of
      the handler skips all that and, as the code is written, leaves the flag as
      set. */
  function AfterHandler(cmp: (NodeId, NodeId) -> int, h: Attempt<Tree>, id: NodeId, o: LoadOptions, before: bool, env: Env, fuel: nat, resetOnFault: bool): (r: Tree)
    requires id in h.state.arena
    ensures r.arena.Keys == h.state.arena.Keys
    ensures h.fault.None? || resetOnFault ==> !r.arena[id].isLoadingChildren
    ensures h.fault.Some? && !resetOnFault ==> r == h.state
    decreases fuel, 1
    ensures LoadFrame(h.state, r)
  {
    if h.fault.Some? then (if resetOnFault then SetLoading(h.state, id, false) else h.state)
    else if |h.state.arena[id].children.items| == 0 then SetLoading(h.state, id, false)
    else
      var t2 := DeepLoad(cmp, h.state, id, o, env, fuel, resetOnFault);
      SetLoading(ExpandTo(t2, id, o.expandAfter || (o.maintain && before)), id, false)
  }

  /** The deep part of a load: with `deepLoadChildren` set, `DeepLoadAllChildren` of
      the node, down to `fuel` levels; otherwise nothing. */
  function DeepLoad(cmp: (NodeId, NodeId) -> int, t: Tree, id: NodeId, o: LoadOptions, env: Env, fuel: nat, resetOnFault: bool): (r: Tree)
    requires id in t.arena
    ensures r.arena.Keys == t.arena.Keys
    decreases fuel, 0
    ensures LoadFrame(t, r)
  {
    if o.deep && fuel > 0
    then LoadEach(cmp, t, t.arena[id].children.items, o.(maintain := true), env, fuel - 1, resetOnFault)
    else t
  }

  /** `DeepLoadAllChildren`: every child loads deeply in turn, with the same force
      and expand-after options and the current expand status maintained. */
  function LoadEach(cmp: (NodeId, NodeId) -> int, t: Tree, nodes: seq<NodeId>, o: LoadOptions, env: Env, fuel: nat, resetOnFault: bool): (r: Tree)
    ensures r.arena.Keys == t.arena.Keys
    decreases fuel, |nodes| + 3
    ensures LoadFrame(t, r)
  {
    if |nodes| == 0 then t
    else LoadEach(cmp, LoadChildrenWith(cmp, t, nodes[0], o, env, fuel, resetOnFault), nodes[1..], o, env, fuel, resetOnFault)
  }

  /** `LoadChildren` with the re-entrancy flag cleared after a fault too. The
      operations below are stated on this one, with the forced ones also given as
      written. */
  function LoadChildren(cmp: (NodeId, NodeId) -> int, t: Tree, id: NodeId, o: LoadOptions, env: Env, fuel: nat): (r: Tree)
    ensures r.arena.Keys == t.arena.Keys
    ensures id in t.arena && t.arena[id].isLoadingChildren ==> r == t
    ensures id in t.arena ==> !r.arena[id].isLoadingChildren || t.arena[id].isLoadingChildren
    ensures id in t.arena && !t.arena[id].isLoadingChildren && !o.deep ==>
      r.arena[id].children == RunHandler(cmp, t, id, o.force, env(id)).state.arena[id].children
    ensures HandlerInstalls(t, id, env(id), o.force) && !t.arena[id].isLoadingChildren ==>
      r.arena[id].children.items == Fetched(cmp, env(id))
    ensures LoadFrame(t, r)
  {
    if id in t.arena && !t.arena[id].isLoadingChildren then
      var h := RunHandler(cmp, t, id, o.force, env(id));
      assert LoadChildrenWith(cmp, t, id, o, env, fuel, true) ==
        AfterHandler(cmp, h, id, o, t.arena[id].isExpanded, env, fuel, true);
      LoadedChildren(cmp, t, id, o, env, fuel, true);
      LoadChildrenWith(cmp, t, id, o, env, fuel, true)
    else LoadChildrenWith(cmp, t, id, o, env, fuel, true)
  }

  /** `LoadChildren` as the code is written. */
  function LoadChildrenAsWritten(cmp: (NodeId, NodeId) -> int, t: Tree, id: NodeId, o: LoadOptions, env: Env, fuel: nat): (r: Tree)
    ensures r.arena.Keys == t.arena.Keys
    ensures id in t.arena && t.arena[id].isLoadingChildren ==> r == t
    ensures id in t.arena && !t.arena[id].isLoadingChildren && !o.deep ==>
      r.arena[id].children == RunHandler(cmp, t, id, o.force, env(id)).state.arena[id].children
    ensures HandlerInstalls(t, id, env(id), o.force) && !t.arena[id].isLoadingChildren ==>
      r.arena[id].children.items == Fetched(cmp, env(id))
    ensures LoadFrame(t, r)
  {
    if id in t.arena && !t.arena[id].isLoadingChildren then
      LoadedChildren(cmp, t, id, o, env, fuel, false);
      LoadChildrenWith(cmp, t, id, o, env, fuel, false)
    else LoadChildrenWith(cmp, t, id, o, env, fuel, false)
  }

  /** What a load leaves in the node's child list: a shallow load leaves what the
      handler left, and a load whose handler installs a fetched list, however deep,
      leaves exactly that list. */
  lemma LoadedChildren(cmp: (NodeId, NodeId) -> int, t: Tree, id: NodeId, o: LoadOptions, env: Env, fuel: nat, resetOnFault: bool)
    requires id in t.arena && !t.arena[id].isLoadingChildren
    ensures !o.deep ==>
      LoadChildrenWith(cmp, t, id, o, env, fuel, resetOnFault).arena[id].children ==
      RunHandler(cmp, t, id, o.force, env(id)).state.arena[id].children
    ensures HandlerInstalls(t, id, env(id), o.force) ==>
      LoadChildrenWith(cmp, t, id, o, env, fuel, resetOnFault).arena[id].children.items == Fetched(cmp, env(id))
  {
    var h := RunHandler(cmp, t, id, o.force, env(id));
    assert LoadChildrenWith(cmp, t, id, o, env, fuel, resetOnFault) ==
      AfterHandler(cmp, h, id, o, t.arena[id].isExpanded, env, fuel, resetOnFault);
    if !o.deep {
      ShallowAfterHandler(cmp, h, id, o, t.arena[id].isExpanded, env, fuel, resetOnFault);
    }
    if HandlerInstalls(t, id, env(id), o.force) {
      AfterHandlerKeepsFetched(cmp, h, id, o, t.arena[id].isExpanded, env, fuel, resetOnFault, id);
    }
  }

  /** Without the deep walk, finishing a load leaves the node's children alone. */
  lemma ShallowAfterHandler(cmp: (NodeId, NodeId) -> int, h: Attempt<Tree>, id: NodeId, o: LoadOptions, before: bool, env: Env, fuel: nat,
                            resetOnFault: bool)
    requires id in h.state.arena && !o.deep
    ensures AfterHandler(cmp, h, id, o, before, env, fuel, resetOnFault).arena[id].children == h.state.arena[id].children
  {
    if h.fault.None? && |h.state.arena[id].children.items| > 0 {
      var t2 := DeepLoad(cmp, h.state, id, o, env, fuel, resetOnFault);
      assert t2 == h.state;
      var t3 := ExpandTo(t2, id, o.expandAfter || (o.maintain && before));
      assert t3.arena[id].children == h.state.arena[id].children;
      assert AfterHandler(cmp, h, id, o, before, env, fuel, resetOnFault) == SetLoading(t3, id, false);
    }
  }

  /** A load never undoes a completed fetch: a node holding the list its fetch
      installs still holds it after any load, however deep, because reloading that
      node installs the same list again. */
  lemma {:induction false} LoadKeepsFetched(cmp: (NodeId, NodeId) -> int, t: Tree, id: NodeId, o: LoadOptions, env: Env, fuel: nat,
                                            resetOnFault: bool, x: NodeId)
    requires HoldsFetched(cmp, t, x, env)
    ensures HoldsFetched(cmp, LoadChildrenWith(cmp, t, id, o, env, fuel, resetOnFault), x, env)
    decreases fuel, 2
  {
    if id in t.arena && !t.arena[id].isLoadingChildren {
      var h := RunHandler(cmp, t, id, o.force, env(id));
      assert HoldsFetched(cmp, h.state, x, env);
      AfterHandlerKeepsFetched(cmp, h, id, o, t.arena[id].isExpanded, env, fuel, resetOnFault, x);
    }
  }

  lemma {:induction false} AfterHandlerKeepsFetched(cmp: (NodeId, NodeId) -> int, h: Attempt<Tree>, id: NodeId, o: LoadOptions, before: bool,
                                                    env: Env, fuel: nat, resetOnFault: bool, x: NodeId)
    requires id in h.state.arena && HoldsFetched(cmp, h.state, x, env)
    ensures HoldsFetched(cmp, AfterHandler(cmp, h, id, o, before, env, fuel, resetOnFault), x, env)
    decreases fuel, 1
  {
    if h.fault.None? && |h.state.arena[id].children.items| > 0 {
      var t2 := DeepLoad(cmp, h.state, id, o, env, fuel, resetOnFault);
      DeepLoadKeepsFetched(cmp, h.state, id, o, env, fuel, resetOnFault, x);
      var t3 := ExpandTo(t2, id, o.expandAfter || (o.maintain && before));
      FlagsKeepFetched(cmp, t2, id, o.expandAfter || (o.maintain && before), x, env);
      FlagsKeepFetched(cmp, t3, id, false, x, env);
    } else {
      FlagsKeepFetched(cmp, h.state, id, false, x, env);
    }
  }

  /** Setting a node's loading or expanded flag leaves every child list alone. */
  lemma FlagsKeepFetched(cmp: (NodeId, NodeId) -> int, t: Tree, id: NodeId, v: bool, x: NodeId, env: Env)
    requires id in t.arena && HoldsFetched(cmp, t, x, env)
    ensures HoldsFetched(cmp, SetLoading(t, id, v), x, env)
    ensures HoldsFetched(cmp, ExpandTo(t, id, v), x, env)
  {
  }

  lemma {:induction false} DeepLoadKeepsFetched(cmp: (NodeId, NodeId) -> int, t: Tree, id: NodeId, o: LoadOptions, env: Env, fuel: nat,
                                                resetOnFault: bool, x: NodeId)
    requires id in t.arena && HoldsFetched(cmp, t, x, env)
    ensures HoldsFetched(cmp, DeepLoad(cmp, t, id, o, env, fuel, resetOnFault), x, env)
    decreases fuel, 0
  {
    if o.deep && fuel > 0 {
      LoadEachKeepsFetched(cmp, t, t.arena[id].children.items, o.(maintain := true), env, fuel - 1, resetOnFault, x);
    }
  }

  lemma {:induction false} LoadEachKeepsFetched(cmp: (NodeId, NodeId) -> int, t: Tree, nodes: seq<NodeId>, o: LoadOptions, env: Env, fuel: nat,
                                                resetOnFault: bool, x: NodeId)
    requires HoldsFetched(cmp, t, x, env)
    ensures HoldsFetched(cmp, LoadEach(cmp, t, nodes, o, env, fuel, resetOnFault), x, env)
    decreases fuel, |nodes| + 3
  {
    if |nodes| > 0 {
      LoadKeepsFetched(cmp, t, nodes[0], o, env, fuel, resetOnFault, x);
      LoadEachKeepsFetched(cmp, LoadChildrenWith(cmp, t, nodes[0], o, env, fuel, resetOnFault), nodes[1..], o, env, fuel, resetOnFault, x);
    }
  }

  // ---------------------------------------------------------------------------
  // What the loads keep

  /** `b` holds the same nodes as `a`, each with the same parent, kind and
      selection. */
  ghost predicate SameShape(a: Arena, b: Arena) {
    a.Keys == b.Keys &&
    forall x :: x in a ==>
      b[x].parent == a[x].parent && b[x].kind == a[x].kind && b[x].isSelected == a[x].isSelected
  }

  /** `b` holds the same nodes as `a`, each as expanded as before. */
  ghost predicate SameExpansion(a: Arena, b: Arena) {
    a.Keys == b.Keys && forall x :: x in a ==> b[x].isExpanded == a[x].isExpanded
  }

  lemma UpdateKeeps(a: Arena, id: NodeId, n: Node)
    requires id in a && n.parent == a[id].parent && n.kind == a[id].kind && n.isSelected == a[id].isSelected
    ensures SameShape(a, a[id := n])
    ensures n.isExpanded == a[id].isExpanded ==> SameExpansion(a, a[id := n])
  {
  }

  lemma KeepsTrans(a: Arena, b: Arena, c: Arena)
    ensures SameShape(a, b) && SameShape(b, c) ==> SameShape(a, c)
    ensures SameExpansion(a, b) && SameExpansion(b, c) ==> SameExpansion(a, c)
  {
  }

  /** `OnLoadChildren` changes nothing in a node but its children. */
  lemma OnLoadChildrenKeeps(cmp: (NodeId, NodeId) -> int, t: Tree, id: NodeId, f: Fetch, force: bool)
    ensures SameShape(t.arena, OnLoadChildren(cmp, t, id, f, force).state.arena)
    ensures SameExpansion(t.arena, OnLoadChildren(cmp, t, id, f, force).state.arena)
  {
    var r := OnLoadChildren(cmp, t, id, f, force).state.arena;
    if id in t.arena && r != t.arena {
      assert r == FillChildren(cmp, t.arena, id, ExpandCancelled(t, id), f, force).state;
      assert id in r && r == t.arena[id := r[id]];
      UpdateKeeps(t.arena, id, r[id]);
    }
  }

  lemma RunHandlerKeeps(cmp: (NodeId, NodeId) -> int, t: Tree, id: NodeId, force: bool, f: Fetch)
    requires id in t.arena
    ensures SameShape(t.arena, RunHandler(cmp, t, id, force, f).state.arena)
    ensures SameExpansion(t.arena, RunHandler(cmp, t, id, force, f).state.arena)
  {
    var t1 := t.(arena := t.arena[id := t.arena[id].(isLoadingChildren := force)]);
    UpdateKeeps(t.arena, id, t.arena[id].(isLoadingChildren := force));
    OnLoadChildrenKeeps(cmp, t1, id, f, force);
    KeepsTrans(t.arena, t1.arena, RunHandler(cmp, t, id, force, f).state.arena);
  }

  lemma SetLoadingKeeps(t: Tree, id: NodeId, v: bool)
    requires id in t.arena
    ensures SameShape(t.arena, SetLoading(t, id, v).arena) && SameExpansion(t.arena, SetLoading(t, id, v).arena)
  {
    UpdateKeeps(t.arena, id, t.arena[id].(isLoadingChildren := v));
  }

  lemma ExpandToKeeps(t: Tree, id: NodeId, v: bool)
    requires id in t.arena
    ensures SameShape(t.arena, ExpandTo(t, id, v).arena)
    ensures v == t.arena[id].isExpanded ==> SameExpansion(t.arena, ExpandTo(t, id, v).arena)
  {
    UpdateKeeps(t.arena, id, SetSilentExpand(t.arena[id], v));
  }

  /** A load, however deep, keeps every node with its parent, kind and selection;
      one that neither expands after loading nor drops the current expand status
      keeps every node's expanded flag too. */
  lemma {:induction false} LoadChildrenKeeps(cmp: (NodeId, NodeId) -> int, t: Tree, id: NodeId, o: LoadOptions, env: Env, fuel: nat, resetOnFault: bool)
    ensures SameShape(t.arena, LoadChildrenWith(cmp, t, id, o, env, fuel, resetOnFault).arena)
    ensures !o.expandAfter && o.maintain ==>
      SameExpansion(t.arena, LoadChildrenWith(cmp, t, id, o, env, fuel, resetOnFault).arena)
    decreases fuel, 2
  {
    if id in t.arena && !t.arena[id].isLoadingChildren {
      var h := RunHandler(cmp, t, id, o.force, env(id));
      RunHandlerKeeps(cmp, t, id, o.force, env(id));
      AfterHandlerKeeps(cmp, h, id, o, t.arena[id].isExpanded, env, fuel, resetOnFault);
      KeepsTrans(t.arena, h.state.arena, AfterHandler(cmp, h, id, o, t.arena[id].isExpanded, env, fuel, resetOnFault).arena);
    }
  }

  lemma {:induction false} AfterHandlerKeeps(cmp: (NodeId, NodeId) -> int, h: Attempt<Tree>, id: NodeId, o: LoadOptions, before: bool, env: Env, fuel: nat, resetOnFault: bool)
    requires id in h.state.arena
    ensures SameShape(h.state.arena, AfterHandler(cmp, h, id, o, before, env, fuel, resetOnFault).arena)
    ensures !o.expandAfter && o.maintain && before == h.state.arena[id].isExpanded ==>
      SameExpansion(h.state.arena, AfterHandler(cmp, h, id, o, before, env, fuel, resetOnFault).arena)
    decreases fuel, 1
  {
    if h.fault.Some? || |h.state.arena[id].children.items| == 0 {
      SetLoadingKeeps(h.state, id, false);
    } else {
      var t2 := DeepLoad(cmp, h.state, id, o, env, fuel, resetOnFault);
      DeepLoadKeeps(cmp, h.state, id, o, env, fuel, resetOnFault);
      var t3 := ExpandTo(t2, id, o.expandAfter || (o.maintain && before));
      ExpandToKeeps(t2, id, o.expandAfter || (o.maintain && before));
      SetLoadingKeeps(t3, id, false);
      KeepsTrans(h.state.arena, t2.arena, t3.arena);
      KeepsTrans(h.state.arena, t3.arena, SetLoading(t3, id, false).arena);
    }
  }

  lemma {:induction false} DeepLoadKeeps(cmp: (NodeId, NodeId) -> int, t: Tree, id: NodeId, o: LoadOptions, env: Env, fuel: nat, resetOnFault: bool)
    requires id in t.arena
    ensures SameShape(t.arena, DeepLoad(cmp, t, id, o, env, fuel, resetOnFault).arena)
    ensures !o.expandAfter ==> SameExpansion(t.arena, DeepLoad(cmp, t, id, o, env, fuel, resetOnFault).arena)
    decreases fuel, 0
  {
    if o.deep && fuel > 0 {
      LoadEachKeeps(cmp, t, t.arena[id].children.items, o.(maintain := true), env, fuel - 1, resetOnFault);
    }
  }

  lemma {:induction false} LoadEachKeeps(cmp: (NodeId, NodeId) -> int, t: Tree, nodes: seq<NodeId>, o: LoadOptions, env: Env, fuel: nat, resetOnFault: bool)
    ensures SameShape(t.arena, LoadEach(cmp, t, nodes, o, env, fuel, resetOnFault).arena)
    ensures !o.expandAfter && o.maintain ==>
      SameExpansion(t.arena, LoadEach(cmp, t, nodes, o, env, fuel, resetOnFault).arena)
    decreases fuel, |nodes| + 3
  {
    if |nodes| > 0 {
      var t1 := LoadChildrenWith(cmp, t, nodes[0], o, env, fuel, resetOnFault);
      LoadChildrenKeeps(cmp, t, nodes[0], o, env, fuel, resetOnFault);
      LoadEachKeeps(cmp, t1, nodes[1..], o, env, fuel, resetOnFault);
      KeepsTrans(t.arena, t1.arena, LoadEach(cmp, t1, nodes[1..], o, env, fuel, resetOnFault).arena);
    }
  }

  /** The expand-status rule of `LoadChildren`: when the handler completes and the
      node then has children, it ends expanded exactly when `expandAfter` is set or
      `maintain` is set and it was expanded before; otherwise (a fault, or no
      children) its expanded flag is untouched. */
  lemma LoadChildrenExpandRule(cmp: (NodeId, NodeId) -> int, t: Tree, id: NodeId, o: LoadOptions, env: Env, fuel: nat, resetOnFault: bool)
    requires id in t.arena && !t.arena[id].isLoadingChildren
    ensures (RunHandler(cmp, t, id, o.force, env(id)).fault.None? &&
             |RunHandler(cmp, t, id, o.force, env(id)).state.arena[id].children.items| > 0) ==>
      LoadChildrenWith(cmp, t, id, o, env, fuel, resetOnFault).arena[id].isExpanded ==
        (o.expandAfter || (o.maintain && t.arena[id].isExpanded))
    ensures (RunHandler(cmp, t, id, o.force, env(id)).fault.Some? ||
             |RunHandler(cmp, t, id, o.force, env(id)).state.arena[id].children.items| == 0) ==>
      LoadChildrenWith(cmp, t, id, o, env, fuel, resetOnFault).arena[id].isExpanded == t.arena[id].isExpanded
  {
    var h := RunHandler(cmp, t, id, o.force, env(id));
    assert LoadChildrenWith(cmp, t, id, o, env, fuel, resetOnFault) ==
      AfterHandler(cmp, h, id, o, t.arena[id].isExpanded, env, fuel, resetOnFault);
    AfterHandlerExpands(cmp, h, id, o, t.arena[id].isExpanded, env, fuel, resetOnFault);
  }

  lemma AfterHandlerExpands(cmp: (NodeId, NodeId) -> int, h: Attempt<Tree>, id: NodeId, o: LoadOptions, before: bool, env: Env, fuel: nat, resetOnFault: bool)
    requires id in h.state.arena
    ensures h.fault.None? && |h.state.arena[id].children.items| > 0 ==>
      AfterHandler(cmp, h, id, o, before, env, fuel, resetOnFault).arena[id].isExpanded == (o.expandAfter || (o.maintain && before))
    ensures h.fault.Some? || |h.state.arena[id].children.items| == 0 ==>
      AfterHandler(cmp, h, id, o, before, env, fuel, resetOnFault).arena[id].isExpanded == h.state.arena[id].isExpanded
  {
  }

  /** The handler of a wired, updatable node faults when the fetch throws: a forced
      load, no cancellation, no cancelled expand token. */
  lemma HandlerFaultsOnThrow(cmp: (NodeId, NodeId) -> int, t: Tree, id: NodeId, f: Fetch)
    requires id in t.arena && t.arena[id].wired && t.arena[id].updatable
    requires !ExpandCancelled(t, id) && !f.cancelBeforeFetch && f.outcome.Throws?
    ensures RunHandler(cmp, t, id, true, f).fault == Some(HostFault)
  {
    var t1 := t.(arena := t.arena[id := t.arena[id].(isLoadingChildren := true)]);
    assert ExpandCancelled(t1, id) == ExpandCancelled(t, id);
  }

  /** As written, a forced load whose handler faults leaves the node marked as
      loading, so every later `LoadChildren` of that node, forced or not, returns at
      once and its children can never be loaded again. */
  lemma LoadChildrenAsWrittenSticks(cmp: (NodeId, NodeId) -> int, t: Tree, id: NodeId, o: LoadOptions, env: Env, fuel: nat,
                                    o2: LoadOptions, env2: Env, fuel2: nat)
    requires id in t.arena && !t.arena[id].isLoadingChildren && o.force
    requires RunHandler(cmp, t, id, true, env(id)).fault.Some?
    ensures LoadChildrenAsWritten(cmp, t, id, o, env, fuel).arena[id].isLoadingChildren
    ensures LoadChildrenAsWritten(cmp, LoadChildrenAsWritten(cmp, t, id, o, env, fuel), id, o2, env2, fuel2)
      == LoadChildrenAsWritten(cmp, t, id, o, env, fuel)
    ensures !LoadChildren(cmp, t, id, o, env, fuel).arena[id].isLoadingChildren
  {
    var h := RunHandler(cmp, t, id, o.force, env(id));
    assert LoadChildrenWith(cmp, t, id, o, env, fuel, false) ==
      AfterHandler(cmp, h, id, o, t.arena[id].isExpanded, env, fuel, false);
    assert AfterHandler(cmp, h, id, o, t.arena[id].isExpanded, env, fuel, false) == h.state;
    assert LoadChildrenWith(cmp, t, id, o, env, fuel, true) ==
      AfterHandler(cmp, h, id, o, t.arena[id].isExpanded, env, fuel, true);
  }

  /** An unforced load sets the flag to false before its handler, so a fault leaves
      it as clearing it would: the two readings agree on every unforced load, deep
      loads included. */
  lemma {:induction false} LoadWithAgrees(cmp: (NodeId, NodeId) -> int, t: Tree, id: NodeId, o: LoadOptions, env: Env, fuel: nat)
    requires !o.force
    ensures LoadChildrenWith(cmp, t, id, o, env, fuel, true) == LoadChildrenWith(cmp, t, id, o, env, fuel, false)
    decreases fuel, 2
  {
    if id in t.arena && !t.arena[id].isLoadingChildren {
      var h := RunHandler(cmp, t, id, o.force, env(id));
      AfterHandlerAgrees(cmp, h, id, o, t.arena[id].isExpanded, env, fuel);
    }
  }

  lemma {:induction false} AfterHandlerAgrees(cmp: (NodeId, NodeId) -> int, h: Attempt<Tree>, id: NodeId, o: LoadOptions, before: bool, env: Env, fuel: nat)
    requires id in h.state.arena && !o.force && !h.state.arena[id].isLoadingChildren
    ensures AfterHandler(cmp, h, id, o, before, env, fuel, true) == AfterHandler(cmp, h, id, o, before, env, fuel, false)
    decreases fuel, 1
  {
    if h.fault.Some? {
      FaultAgrees(cmp, h, id, o, before, env, fuel);
    } else if |h.state.arena[id].children.items| > 0 {
      DeepLoadAgrees(cmp, h.state, id, o, env, fuel);
      var t2 := DeepLoad(cmp, h.state, id, o, env, fuel, true);
      var e := o.expandAfter || (o.maintain && before);
      var r := SetLoading(ExpandTo(t2, id, e), id, false);
      assert AfterHandler(cmp, h, id, o, before, env, fuel, true) == r;
      assert AfterHandler(cmp, h, id, o, before, env, fuel, false) == r;
    }
  }

  /** After a fault the two readings differ only in clearing a flag that is already
      clear. */
  lemma FaultAgrees(cmp: (NodeId, NodeId) -> int, h: Attempt<Tree>, id: NodeId, o: LoadOptions, before: bool, env: Env, fuel: nat)
    requires id in h.state.arena && !h.state.arena[id].isLoadingChildren && h.fault.Some?
    ensures AfterHandler(cmp, h, id, o, before, env, fuel, true) == AfterHandler(cmp, h, id, o, before, env, fuel, false)
  {
    assert AfterHandler(cmp, h, id, o, before, env, fuel, true) == SetLoading(h.state, id, false);
  }

  lemma {:induction false} DeepLoadAgrees(cmp: (NodeId, NodeId) -> int, t: Tree, id: NodeId, o: LoadOptions, env: Env, fuel: nat)
    requires id in t.arena && !o.force
    ensures DeepLoad(cmp, t, id, o, env, fuel, true) == DeepLoad(cmp, t, id, o, env, fuel, false)
    decreases fuel, 0
  {
    if o.deep && fuel > 0 {
      LoadEachAgrees(cmp, t, t.arena[id].children.items, o.(maintain := true), env, fuel - 1);
    }
  }

  lemma {:induction false} LoadEachAgrees(cmp: (NodeId, NodeId) -> int, t: Tree, nodes: seq<NodeId>, o: LoadOptions, env: Env, fuel: nat)
    requires !o.force
    ensures LoadEach(cmp, t, nodes, o, env, fuel, true) == LoadEach(cmp, t, nodes, o, env, fuel, false)
    decreases fuel, |nodes| + 3
  {
    if |nodes| > 0 {
      LoadWithAgrees(cmp, t, nodes[0], o, env, fuel);
      LoadEachAgrees(cmp, LoadChildrenWith(cmp, t, nodes[0], o, env, fuel, true), nodes[1..], o, env, fuel);
    }
  }

  /** Every unforced `LoadChildren` of the model is the code as written: the flag
      differs only after a forced load faults. */
  lemma UnforcedLoadsAgree(cmp: (NodeId, NodeId) -> int, t: Tree, id: NodeId, o: LoadOptions, env: Env, fuel: nat)
    requires !o.force
    ensures LoadChildren(cmp, t, id, o, env, fuel) == LoadChildrenAsWritten(cmp, t, id, o, env, fuel)
  {
    LoadWithAgrees(cmp, t, id, o, env, fuel);
  }

  // ---------------------------------------------------------------------------
  // The public load operations

  /** `ExpandAll(forceReload)`: a deep load that expands after loading. */
  function ExpandAll(cmp: (NodeId, NodeId) -> int, t: Tree, id: NodeId, force: bool, env: Env, fuel: nat): (r: Tree)
    ensures r.arena.Keys == t.arena.Keys
    ensures (id in t.arena && !t.arena[id].isLoadingChildren &&
             RunHandler(cmp, t, id, force, env(id)).fault.None? &&
             |RunHandler(cmp, t, id, force, env(id)).state.arena[id].children.items| > 0) ==> r.arena[id].isExpanded
    ensures HandlerInstalls(t, id, env(id), force) && !t.arena[id].isLoadingChildren ==>
      r.arena[id].children.items == Fetched(cmp, env(id))
  {
    var o := LoadOptions(force, true, true, true);
    if id in t.arena && !t.arena[id].isLoadingChildren then
      LoadChildrenExpandRule(cmp, t, id, o, env, fuel, true);
      LoadChildren(cmp, t, id, o, env, fuel)
    else LoadChildren(cmp, t, id, o, env, fuel)
  }

  /** `ExpandAll(forceReload)` as written: the same, except that a forced load
      whose handler faults leaves the node marked as loading. */
  function ExpandAllAsWritten(cmp: (NodeId, NodeId) -> int, t: Tree, id: NodeId, force: bool, env: Env, fuel: nat): (r: Tree)
    ensures r.arena.Keys == t.arena.Keys
    ensures (id in t.arena && !t.arena[id].isLoadingChildren &&
             RunHandler(cmp, t, id, force, env(id)).fault.None? &&
             |RunHandler(cmp, t, id, force, env(id)).state.arena[id].children.items| > 0) ==> r.arena[id].isExpanded
    ensures HandlerInstalls(t, id, env(id), force) && !t.arena[id].isLoadingChildren ==>
      r.arena[id].children.items == Fetched(cmp, env(id))
    ensures (id in t.arena && !t.arena[id].isLoadingChildren && force &&
             RunHandler(cmp, t, id, true, env(id)).fault.Some?) ==>
      r.arena[id].isLoadingChildren && !ExpandAll(cmp, t, id, force, env, fuel).arena[id].isLoadingChildren
    ensures !force ==> r == ExpandAll(cmp, t, id, force, env, fuel)
  {
    var o := LoadOptions(force, true, true, true);
    var r := LoadChildrenAsWritten(cmp, t, id, o, env, fuel);
    assert (id in t.arena && !t.arena[id].isLoadingChildren &&
            RunHandler(cmp, t, id, force, env(id)).fault.None? &&
            |RunHandler(cmp, t, id, force, env(id)).state.arena[id].children.items| > 0) ==> r.arena[id].isExpanded by {
      if id in t.arena && !t.arena[id].isLoadingChildren {
        LoadChildrenExpandRule(cmp, t, id, o, env, fuel, false);
      }
    }
    assert (id in t.arena && !t.arena[id].isLoadingChildren && force &&
            RunHandler(cmp, t, id, true, env(id)).fault.Some?) ==> r.arena[id].isLoadingChildren by {
      if id in t.arena && !t.arena[id].isLoadingChildren && force && RunHandler(cmp, t, id, true, env(id)).fault.Some? {
        LoadChildrenAsWrittenSticks(cmp, t, id, o, env, fuel, o, env, fuel);
      }
    }
    assert !force ==> r == ExpandAll(cmp, t, id, force, env, fuel) by {
      if !force {
        UnforcedLoadsAgree(cmp, t, id, o, env, fuel);
      }
    }
    r
  }

  /** `LoadAll()`: a forced deep load that keeps every node's expand status. */
  function LoadAll(cmp: (NodeId, NodeId) -> int, t: Tree, id: NodeId, env: Env, fuel: nat): (r: Tree)
    ensures SameShape(t.arena, r.arena) && SameExpansion(t.arena, r.arena)
    ensures HandlerInstalls(t, id, env(id), true) && !t.arena[id].isLoadingChildren ==>
      r.arena[id].children.items == Fetched(cmp, env(id))
  {
    LoadChildrenKeeps(cmp, t, id, LoadOptions(true, true, false, true), env, fuel, true);
    LoadChildren(cmp, t, id, LoadOptions(true, true, false, true), env, fuel)
  }

  /** `LoadAll()` as written: it keeps shapes and expand status all the same, but a
      handler fault leaves the node marked as loading for good. */
  function LoadAllAsWritten(cmp: (NodeId, NodeId) -> int, t: Tree, id: NodeId, env: Env, fuel: nat): (r: Tree)
    ensures SameShape(t.arena, r.arena) && SameExpansion(t.arena, r.arena)
    ensures HandlerInstalls(t, id, env(id), true) && !t.arena[id].isLoadingChildren ==>
      r.arena[id].children.items == Fetched(cmp, env(id))
    ensures (id in t.arena && !t.arena[id].isLoadingChildren &&
             RunHandler(cmp, t, id, true, env(id)).fault.Some?) ==>
      r.arena[id].isLoadingChildren && !LoadAll(cmp, t, id, env, fuel).arena[id].isLoadingChildren
  {
    var o := LoadOptions(true, true, false, true);
    LoadChildrenKeeps(cmp, t, id, o, env, fuel, false);
    if id in t.arena && !t.arena[id].isLoadingChildren && RunHandler(cmp, t, id, true, env(id)).fault.Some? then
      LoadChildrenAsWrittenSticks(cmp, t, id, o, env, fuel, o, env, fuel);
      LoadChildrenAsWritten(cmp, t, id, o, env, fuel)
    else LoadChildrenAsWritten(cmp, t, id, o, env, fuel)
  }

  /** `ExpandSelect()`: a shallow, unforced load that expands after loading
      regardless of the current status, then a silent select. */
  function ExpandSelect(cmp: (NodeId, NodeId) -> int, t: Tree, id: NodeId, env: Env, fuel: nat): (r: Tree)
    requires id in t.arena
    ensures r.arena.Keys == t.arena.Keys && r.arena[id].isSelected
    ensures !t.arena[id].isLoadingChildren ==>
      r.arena[id].children == RunHandler(cmp, t, id, false, env(id)).state.arena[id].children
    ensures HandlerInstalls(t, id, env(id), false) && !t.arena[id].isLoadingChildren ==>
      r.arena[id].children.items == Fetched(cmp, env(id))
    ensures (!t.arena[id].isLoadingChildren &&
             RunHandler(cmp, t, id, false, env(id)).fault.None? &&
             |RunHandler(cmp, t, id, false, env(id)).state.arena[id].children.items| > 0) ==> r.arena[id].isExpanded
    ensures (!t.arena[id].isLoadingChildren &&
             (RunHandler(cmp, t, id, false, env(id)).fault.Some? ||
              |RunHandler(cmp, t, id, false, env(id)).state.arena[id].children.items| == 0)) ==>
      r.arena[id].isExpanded == t.arena[id].isExpanded
  {
    var o := LoadOptions(false, false, true, false);
    var t1 := if !t.arena[id].isLoadingChildren then
      LoadChildrenExpandRule(cmp, t, id, o, env, fuel, true);
      LoadChildren(cmp, t, id, o, env, fuel)
    else LoadChildren(cmp, t, id, o, env, fuel);
    t1.(arena := t1.arena[id := SetSilentSelect(t1.arena[id], true)])
  }

  // ---------------------------------------------------------------------------
  // Making a node visible

  /** The load in one turn of the loop of `EnsureVisibleSelected`: an ancestor whose
      children are not loaded loads them with the default options. */
  function LoadIfNeeded(cmp: (NodeId, NodeId) -> int, t: Tree, p: NodeId, env: Env): (r: Tree)
    ensures r.arena.Keys == t.arena.Keys
    ensures LoadFrame(t, r)
  {
    if p in t.arena && !IsChildrenLoaded(t.arena, t.arena[p]) then LoadChildren(cmp, t, p, Defaults, env, 0) else t
  }

  lemma LoadIfNeededKeeps(cmp: (NodeId, NodeId) -> int, t: Tree, p: NodeId, env: Env)
    ensures SameShape(t.arena, LoadIfNeeded(cmp, t, p, env).arena)
    ensures SameExpansion(t.arena, LoadIfNeeded(cmp, t, p, env).arena)
  {
    if p in t.arena && !IsChildrenLoaded(t.arena, t.arena[p]) {
      LoadChildrenKeeps(cmp, t, p, Defaults, env, 0, true);
    }
  }

  /** One turn of the loop of `EnsureVisibleSelected`: load the ancestor if needed,
      then expand it silently if it is collapsed. */
  function ShowOne(cmp: (NodeId, NodeId) -> int, t: Tree, p: NodeId, env: Env): (r: Tree)
    ensures r.arena.Keys == t.arena.Keys
    ensures LoadFrame(t, r)
  {
    var t1 := LoadIfNeeded(cmp, t, p, env);
    if p in t1.arena && !t1.arena[p].isExpanded then ExpandTo(t1, p, true) else t1
  }

  /** One turn ends with the ancestor expanded, collapses nothing, and keeps the
      shape of the tree. */
  lemma ShowOneExpands(cmp: (NodeId, NodeId) -> int, t: Tree, p: NodeId, env: Env)
    ensures p in t.arena ==> ShowOne(cmp, t, p, env).arena[p].isExpanded
    ensures forall x :: x in t.arena && t.arena[x].isExpanded ==> ShowOne(cmp, t, p, env).arena[x].isExpanded
    ensures SameShape(t.arena, ShowOne(cmp, t, p, env).arena)
  {
    var t1 := LoadIfNeeded(cmp, t, p, env);
    LoadIfNeededKeeps(cmp, t, p, env);
    if p in t1.arena && !t1.arena[p].isExpanded {
      ExpandToKeeps(t1, p, true);
      KeepsTrans(t.arena, t1.arena, ExpandTo(t1, p, true).arena);
    }
  }

  /** The loop of `EnsureVisibleSelected` over the ancestors, nearest first. The
      chain is taken from the arena before the loop; loads never change a parent
      link (`LoadChildrenKeeps`), so it is the chain the loop follows. */
  function ShowAncestors(cmp: (NodeId, NodeId) -> int, t: Tree, chain: seq<NodeId>, env: Env): (r: Tree)
    ensures r.arena.Keys == t.arena.Keys
    decreases |chain|
    ensures LoadFrame(t, r)
  {
    if |chain| == 0 then t else ShowAncestors(cmp, ShowOne(cmp, t, chain[0], env), chain[1..], env)
  }

  /** `EnsureVisibleSelected()`: show every ancestor, then select the node through
      the `IsSelected` setter. */
  function EnsureVisibleSelected(cmp: (NodeId, NodeId) -> int, t: Tree, id: NodeId, env: Env, fuel: nat): (r: Tree)
    requires id in t.arena
    ensures r.arena.Keys == t.arena.Keys && r.arena[id].isSelected
    ensures LoadFrame(t, r)
  {
    var t1 := ShowAncestors(cmp, t, TreeWalk.Ancestors(t.arena, id, fuel), env);
    SelectKeepsKeys(cmp, t1, id, true, env(id));
    SetSelected(cmp, t1, id, true, env(id))
  }

  /** The `IsSelected` setter adds and removes no node. */
  lemma SelectKeepsKeys(cmp: (NodeId, NodeId) -> int, t: Tree, id: NodeId, v: bool, f: Fetch)
    requires id in t.arena
    ensures SetSelected(cmp, t, id, v, f).arena.Keys == t.arena.Keys
  {
    var n := t.arena[id];
    if n.isSelected != v && v && n.wired && !IsChildrenLoaded(t.arena, n) && t.loadChildrenOnSelected {
      assert LoadedAs(cmp, t, id, SetSilentSelect(n, v), f, SetSelected(cmp, t, id, v, f));
    }
  }

  /** Every node of the chain ends expanded, no expanded node is collapsed, and the
      shape of the tree is kept. */
  lemma {:induction false} ShowAncestorsExpands(cmp: (NodeId, NodeId) -> int, t: Tree, chain: seq<NodeId>, env: Env)
    ensures forall k :: 0 <= k < |chain| && chain[k] in t.arena ==>
      ShowAncestors(cmp, t, chain, env).arena[chain[k]].isExpanded
    ensures forall x :: x in t.arena && t.arena[x].isExpanded ==> ShowAncestors(cmp, t, chain, env).arena[x].isExpanded
    ensures SameShape(t.arena, ShowAncestors(cmp, t, chain, env).arena)
    decreases |chain|
  {
    if |chain| > 0 {
      var t1 := ShowOne(cmp, t, chain[0], env);
      ShowOneExpands(cmp, t, chain[0], env);
      ShowAncestorsExpands(cmp, t1, chain[1..], env);
      var r := ShowAncestors(cmp, t1, chain[1..], env);
      KeepsTrans(t.arena, t1.arena, r.arena);
      forall k | 0 <= k < |chain| && chain[k] in t.arena ensures r.arena[chain[k]].isExpanded {
        if k > 0 {
          assert chain[k] == chain[1..][k - 1];
        }
      }
    }
  }

  /** The `IsSelected` setter changes no expanded flag. */
  lemma SetSelectedKeepsExpansion(cmp: (NodeId, NodeId) -> int, t: Tree, id: NodeId, v: bool, f: Fetch)
    requires id in t.arena
    ensures SameExpansion(t.arena, SetSelected(cmp, t, id, v, f).arena)
  {
    var t1 := t.(arena := t.arena[id := SetSilentSelect(t.arena[id], v)]);
    assert SameExpansion(t.arena, t1.arena);
    OnLoadChildrenKeeps(cmp, t1, id, f, false);
    KeepsTrans(t.arena, t1.arena, OnLoadChildren(cmp, t1, id, f, false).state.arena);
  }

  /** After `EnsureVisibleSelected` the node is selected and every ancestor on the
      walk is expanded. */
  lemma EnsureVisibleSelectedShows(cmp: (NodeId, NodeId) -> int, t: Tree, id: NodeId, env: Env, fuel: nat)
    requires id in t.arena
    ensures EnsureVisibleSelected(cmp, t, id, env, fuel).arena[id].isSelected
    ensures forall p :: p in TreeWalk.Ancestors(t.arena, id, fuel) && p in t.arena ==>
      EnsureVisibleSelected(cmp, t, id, env, fuel).arena[p].isExpanded
  {
    var chain := TreeWalk.Ancestors(t.arena, id, fuel);
    var t1 := ShowAncestors(cmp, t, chain, env);
    ShowAncestorsExpands(cmp, t, chain, env);
    SetSelectedKeepsExpansion(cmp, t1, id, true, env(id));
    forall p | p in chain && p in t.arena ensures EnsureVisibleSelected(cmp, t, id, env, fuel).arena[p].isExpanded {
      var k :| 0 <= k < |chain| && chain[k] == p;
    }
  }
}

=== FILE: ordering.dfy ===
/** The ordering the sorted collection relies on: `IComparable.CompareTo` seen as a
    function `cmp` returning a negative, zero or positive number, and the
    `List.Sort` the collection calls, modelled as an insertion sort whose result is
    only ever promised to be SOME sorted permutation of its input (the source's sort
    is unstable, so nothing is said about the order of compare-equal items). */
module Ordering {

  /** Every item compares equal to itself. */
  ghost predicate ZeroOnSelf<T(!new)>(cmp: (T, T) -> int) {
    forall x :: cmp(x, x) == 0
  }

  /** Swapping the arguments swaps the sign. */
  ghost predicate SignAntisymmetric<T(!new)>(cmp: (T, T) -> int) {
    forall x, y :: cmp(x, y) < 0 <==> cmp(y, x) > 0
  }

  /** "Not greater" is transitive. */
  ghost predicate NotGreaterTransitive<T(!new)>(cmp: (T, T) -> int) {
    forall x, y, z :: cmp(x, y) <= 0 && cmp(y, z) <= 0 ==> cmp(x, z) <= 0
  }

  /** The contract of `CompareTo`. Under it, "not greater" is a total preorder and
      "compares equal" is an equivalence. */
  ghost predicate IsComparer<T(!new)>(cmp: (T, T) -> int) {
    ZeroOnSelf(cmp) && SignAntisymmetric(cmp) && NotGreaterTransitive(cmp)
  }

  /** Non-decreasing under `cmp`. */
  ghost predicate Sorted<T>(cmp: (T, T) -> int, s: seq<T>) {
    forall i, j :: 0 <= i < j < |s| ==> cmp(s[i], s[j]) <= 0
  }

  /** `r` is one of the results an unstable sort of `s` may produce. */
  ghost predicate IsSortedPermutation<T(!new)>(cmp: (T, T) -> int, r: seq<T>, s: seq<T>) {
    Sorted(cmp, r) && multiset(r) == multiset(s)
  }

  /** Dropping one item from a sorted list leaves it sorted. */
  lemma DropKeepsSorted<T>(cmp: (T, T) -> int, s: seq<T>, i: nat)
    requires i < |s| && Sorted(cmp, s)
    ensures Sorted(cmp, s[..i] + s[i + 1..])
  {
    var r := s[..i] + s[i + 1..];
    forall a, b | 0 <= a < b < |r| ensures cmp(r[a], r[b]) <= 0 {
      var a' := if a < i then a else a + 1;
      var b' := if b < i then b else b + 1;
      assert r[a] == s[a'] && r[b] == s[b'];
    }
  }

  /** Inserts `x` before the first item it is not greater than. */
  function Insert<T>(cmp: (T, T) -> int, x: T, s: seq<T>): (r: seq<T>)
    ensures multiset(r) == multiset(s) + multiset{x}
    ensures |r| == |s| + 1
  {
    if |s| == 0 then [x]
    else if cmp(x, s[0]) <= 0 then [x] + s
    else
      assert s == [s[0]] + s[1..];
      [s[0]] + Insert(cmp, x, s[1..])
  }

  /** A sort of the list by the items' own comparison, as `List.Sort` with a
      `CompareTo` comparer does it. */
  function Sort<T(!new)>(cmp: (T, T) -> int, s: seq<T>): (r: seq<T>)
    ensures multiset(r) == multiset(s)
    ensures |r| == |s|
    ensures IsComparer(cmp) ==> Sorted(cmp, r)
    decreases |s|
  {
    if |s| == 0 then []
    else
      var rest := Sort(cmp, s[1..]);
      assert s == [s[0]] + s[1..];
      InsertKeepsSorted(cmp, s[0], rest);
      Insert(cmp, s[0], rest)
  }

  /** Every item of `s` is not less than `y`. */
  ghost predicate AllNotLess<T>(cmp: (T, T) -> int, y: T, s: seq<T>) {
    forall k :: 0 <= k < |s| ==> cmp(y, s[k]) <= 0
  }

  lemma SortedCons<T>(cmp: (T, T) -> int, a: T, t: seq<T>)
    requires Sorted(cmp, t) && AllNotLess(cmp, a, t)
    ensures Sorted(cmp, [a] + t)
  {
    var r := [a] + t;
    forall i, j | 0 <= i < j < |r| ensures cmp(r[i], r[j]) <= 0 {
      assert r[j] == t[j - 1];
      if i > 0 {
        assert r[i] == t[i - 1];
      }
    }
  }

  lemma HeadBelowSorted<T(!new)>(cmp: (T, T) -> int, x: T, s: seq<T>)
    requires IsComparer(cmp) && Sorted(cmp, s) && |s| > 0 && cmp(x, s[0]) <= 0
    ensures AllNotLess(cmp, x, s)
  {
    forall k | 0 <= k < |s| ensures cmp(x, s[k]) <= 0 {
      if k > 0 {
        assert cmp(s[0], s[k]) <= 0;
      }
    }
  }

  lemma NotLessOfMultiset<T(!new)>(cmp: (T, T) -> int, y: T, s: seq<T>, r: seq<T>)
    requires AllNotLess(cmp, y, s) && multiset(r) <= multiset(s)
    ensures AllNotLess(cmp, y, r)
  {
    forall k | 0 <= k < |r| ensures cmp(y, r[k]) <= 0 {
      assert r[k] in multiset(r);
      var m :| 0 <= m < |s| && s[m] == r[k];
    }
  }

  lemma {:induction false} InsertKeepsSorted<T(!new)>(cmp: (T, T) -> int, x: T, s: seq<T>)
    ensures IsComparer(cmp) && Sorted(cmp, s) ==> Sorted(cmp, Insert(cmp, x, s))
    decreases |s|
  {
    if IsComparer(cmp) && Sorted(cmp, s) {
      if |s| == 0 {
      } else if cmp(x, s[0]) <= 0 {
        HeadBelowSorted(cmp, x, s);
        SortedCons(cmp, x, s);
      } else {
        var tail := Insert(cmp, x, s[1..]);
        assert Sorted(cmp, s[1..]) by {
          forall i, j | 0 <= i < j < |s[1..]| ensures cmp(s[1..][i], s[1..][j]) <= 0 {
            assert s[1..][i] == s[i + 1] && s[1..][j] == s[j + 1];
          }
        }
        InsertKeepsSorted(cmp, x, s[1..]);
        assert AllNotLess(cmp, s[0], s[1..] + [x]) by {
          assert cmp(s[0], x) <= 0;
          forall k | 0 <= k < |s[1..] + [x]| ensures cmp(s[0], (s[1..] + [x])[k]) <= 0 {
            if k < |s| - 1 {
              assert (s[1..] + [x])[k] == s[k + 1];
            }
          }
        }
        assert multiset(tail) <= multiset(s[1..] + [x]);
        NotLessOfMultiset(cmp, s[0], s[1..] + [x], tail);
        SortedCons(cmp, s[0], tail);
      }
    }
  }

  /** Items of `s` that satisfy `p`, in their original order (LINQ `Where`). */
  function Filter<T(!new)>(s: seq<T>, p: T -> bool): (r: seq<T>)
    ensures |r| <= |s|
    ensures forall k :: 0 <= k < |r| ==> p(r[k])
    decreases |s|
  {
    if |s| == 0 then []
    else (if p(s[0]) then [s[0]] else []) + Filter(s[1..], p)
  }

  /** Filtering only drops items. */
  lemma {:induction false} FilterSubMultiset<T(!new)>(s: seq<T>, p: T -> bool)
    ensures multiset(Filter(s, p)) <= multiset(s)
    decreases |s|
  {
    if |s| > 0 {
      FilterSubMultiset(s[1..], p);
      assert s == [s[0]] + s[1..];
    }
  }

  /** Splitting a sequence by a predicate `p` and its negation `q` loses and
      duplicates nothing. */
  lemma {:induction false} FilterSplit<T(!new)>(s: seq<T>, p: T -> bool, q: T -> bool)
    requires forall x :: q(x) <==> !p(x)
    ensures multiset(Filter(s, p)) + multiset(Filter(s, q)) == multiset(s)
    decreases |s|
  {
    if |s| > 0 {
      var rest := s[1..];
      FilterSplit(rest, p, q);
      assert multiset(s) == multiset{s[0]} + multiset(rest) by {
        assert s == [s[0]] + rest;
      }
      if p(s[0]) {
        assert Filter(s, p) == [s[0]] + Filter(rest, p);
        assert Filter(s, q) == Filter(rest, q);
      } else {
        assert Filter(s, p) == Filter(rest, p);
        assert Filter(s, q) == [s[0]] + Filter(rest, q);
      }
    }
  }

  lemma {:induction false} FilterMember<T(!new)>(s: seq<T>, p: T -> bool, x: T)
    ensures x in Filter(s, p) <==> x in s && p(x)
    decreases |s|
  {
    if |s| > 0 {
      FilterMember(s[1..], p, x);
      assert s == [s[0]] + s[1..];
    }
  }

  lemma {:induction false} FilterAll<T(!new)>(s: seq<T>, p: T -> bool)
    requires forall k :: 0 <= k < |s| ==> p(s[k])
    ensures Filter(s, p) == s
    decreases |s|
  {
    if |s| > 0 {
      FilterAll(s[1..], p);
      assert s == [s[0]] + s[1..];
    }
  }

  lemma {:induction false} FilterConcat<T(!new)>(a: seq<T>, b: seq<T>, p: T -> bool)
    ensures Filter(a + b, p) == Filter(a, p) + Filter(b, p)
    decreases |a|
  {
    if |a| > 0 {
      FilterConcat(a[1..], b, p);
      assert (a + b)[1..] == a[1..] + b;
    } else {
      assert a + b == b;
    }
  }
}

=== FILE: selection.dfy ===
/** The selection bookkeeping of `TreeViewViewModel`: the `LastSelectedItem`,
    `NonTypedLastSelectedItem`, `NonTypedSelectedItems` and `LoadChildrenOnSelected`
    setters, and `Clear`. */
module Selection {
  import opened Wrappers
  import opened Ordering
  import opened TreeItem
  import SortedCollection
  import opened TreeView
  import NodeLoad
  import TreeWalk

  // ---------------------------------------------------------------------------
  // The last selected item

  /** The `LastSelectedItem` setter (and `SetLastSelectedItem`, which only calls it).
      Setting the current value does nothing; otherwise the value is stored and a
      node that is not yet selected is made visible and selected through
      `EnsureVisibleSelected`, which walks at most `fuel` ancestors. */
  function SetLastSelected(cmp: (NodeId, NodeId) -> int, t: Tree, v: Option<NodeId>, env: NodeLoad.Env, fuel: nat): (r: Tree)
    requires v.Some? ==> v.value in t.arena
    ensures r.lastSelected == v
    ensures r.arena.Keys == t.arena.Keys
    ensures v.Some? && v != t.lastSelected ==> r.arena[v.value].isSelected
    ensures v == t.lastSelected || v.None? || t.arena[v.value].isSelected ==> r == t.(lastSelected := v)
    ensures r.selectedItems == t.selectedItems && r.nonTypedSelected == t.nonTypedSelected
    ensures r.roots == t.roots && r.nonTypedLast == t.nonTypedLast
  {
    if v == t.lastSelected then t
    else
      var t1 := t.(lastSelected := v);
      if v.Some? && !t.arena[v.value].isSelected then NodeLoad.EnsureVisibleSelected(cmp, t1, v.value, env, fuel)
      else t1
  }

  /** Selecting a node that is not selected yet leaves it selected with every
      ancestor on the walk expanded, and collapses nothing. */
  lemma SetLastSelectedShows(cmp: (NodeId, NodeId) -> int, t: Tree, id: NodeId, env: NodeLoad.Env, fuel: nat)
    requires id in t.arena && !t.arena[id].isSelected && t.lastSelected != Some(id)
    ensures forall p :: p in TreeWalk.Ancestors(t.arena, id, fuel) && p in t.arena ==>
      SetLastSelected(cmp, t, Some(id), env, fuel).arena[p].isExpanded
    ensures forall x :: x in t.arena && t.arena[x].isExpanded ==> SetLastSelected(cmp, t, Some(id), env, fuel).arena[x].isExpanded
  {
    var t1 := t.(lastSelected := Some(id));
    assert t1.arena == t.arena;
    NodeLoad.EnsureVisibleSelectedShows(cmp, t1, id, env, fuel);
    var chain := TreeWalk.Ancestors(t1.arena, id, fuel);
    NodeLoad.ShowAncestorsExpands(cmp, t1, chain, env);
    var t2 := NodeLoad.ShowAncestors(cmp, t1, chain, env);
    NodeLoad.SetSelectedKeepsExpansion(cmp, t2, id, true, env(id));
  }

  /** What `as ITreeViewNode` gives for an object: the node, or null for anything
      else. */
  function AsNode(o: Obj): (r: Option<NodeId>)
    ensures r.Some? <==> o.NodeObj?
    ensures r.Some? ==> o == NodeObj(r.value)
  {
    if o.NodeObj? then Some(o.id) else None
  }

  /** The `NonTypedLastSelectedItem` setter: stores the object, then sets
      `LastSelectedItem` to it when it is a node and to null otherwise. */
  function SetNonTypedLastSelected(cmp: (NodeId, NodeId) -> int, t: Tree, o: Obj, env: NodeLoad.Env, fuel: nat): (r: Tree)
    requires o.NodeObj? ==> o.id in t.arena
    ensures r.nonTypedLast == o
    ensures o.NodeObj? ==> r.lastSelected == Some(o.id)
    ensures o.NodeObj? && t.lastSelected != Some(o.id) ==> o.id in r.arena && r.arena[o.id].isSelected
    ensures !o.NodeObj? ==> r == t.(nonTypedLast := o, lastSelected := None)
  {
    SetLastSelected(cmp, t.(nonTypedLast := o), AsNode(o), env, fuel)
  }

  // ---------------------------------------------------------------------------
  // The selected items

  /** `OfType<ITreeViewNode>().ToList()`: the nodes among the objects, in order;
      null and objects of other types are dropped. */
  function TypedNodes(objs: seq<Obj>): (r: seq<NodeId>)
    ensures |r| <= |objs|
    decreases |objs|
  {
    if |objs| == 0 then []
    else (if objs[0].NodeObj? then [objs[0].id] else []) + TypedNodes(objs[1..])
  }

  /** Every object of the list is a node. */
  predicate AllAreNodes(objs: seq<Obj>) {
    forall k :: 0 <= k < |objs| ==> objs[k].NodeObj?
  }

  /** The typed list holds exactly the nodes of the list, and it is as long as the
      list exactly when every object is a node; then it lists them in order. */
  lemma {:induction false} TypedNodesSpec(objs: seq<Obj>)
    ensures forall id :: id in TypedNodes(objs) <==> NodeObj(id) in objs
    ensures |TypedNodes(objs)| == |objs| <==> AllAreNodes(objs)
    ensures AllAreNodes(objs) ==> forall k :: 0 <= k < |objs| ==> TypedNodes(objs)[k] == objs[k].id
    decreases |objs|
  {
    if |objs| > 0 {
      var rest := objs[1..];
      TypedNodesSpec(rest);
      assert objs == [objs[0]] + rest;
      var r := TypedNodes(objs);
      if objs[0].NodeObj? {
        assert r == [objs[0].id] + TypedNodes(rest);
        if AllAreNodes(objs) {
          assert AllAreNodes(rest) by {
            forall k | 0 <= k < |rest| ensures rest[k].NodeObj? {
              assert rest[k] == objs[k + 1];
            }
          }
        }
        if |r| == |objs| {
          assert AllAreNodes(objs) by {
            forall k | 0 <= k < |objs| ensures objs[k].NodeObj? {
              if k > 0 { assert objs[k] == rest[k - 1]; }
            }
          }
        }
      } else {
        assert r == TypedNodes(rest);
      }
    }
  }

  /** The objects for a list of nodes. */
  function Wrap(ids: seq<NodeId>): (r: seq<Obj>)
    ensures |r| == |ids| && forall k :: 0 <= k < |ids| ==> r[k] == NodeObj(ids[k])
  {
    seq(|ids|, k requires 0 <= k < |ids| => NodeObj(ids[k]))
  }

  /** Typing a list of wrapped nodes gives the nodes back. */
  lemma TypedNodesWrap(ids: seq<NodeId>)
    ensures TypedNodes(Wrap(ids)) == ids
  {
    var objs := Wrap(ids);
    TypedNodesSpec(objs);
    assert AllAreNodes(objs);
  }

  /** The `NonTypedSelectedItems` setter: stores the list; null clears
      `SelectedItems`; a list made only of nodes sets `SelectedItems` to them; a list
      holding anything else leaves `SelectedItems` as it was. */
  function SetNonTypedSelected(t: Tree, value: Option<seq<Obj>>): (r: Tree)
    ensures r.nonTypedSelected == value
    ensures value.None? ==> r.selectedItems.None?
    ensures value.Some? && !AllAreNodes(value.value) ==> r.selectedItems == t.selectedItems
    ensures r.(nonTypedSelected := t.nonTypedSelected, selectedItems := t.selectedItems) == t
  {
    var t1 := t.(nonTypedSelected := value);
    if value.None? then t1.(selectedItems := None)
    else
      var typed := TypedNodes(value.value);
      TypedNodesSpec(value.value);
      if |typed| != |value.value| then t1 else t1.(selectedItems := Some(typed))
  }

  /** A list made only of nodes becomes `SelectedItems`, in the same order; setting
      the objects of some nodes selects exactly those nodes. */
  lemma SetNonTypedSelectedTypes(t: Tree, objs: seq<Obj>, ids: seq<NodeId>)
    ensures AllAreNodes(objs) ==>
      (SetNonTypedSelected(t, Some(objs)).selectedItems == Some(TypedNodes(objs)) &&
       |TypedNodes(objs)| == |objs| &&
       forall k :: 0 <= k < |objs| ==> TypedNodes(objs)[k] == objs[k].id)
    ensures SetNonTypedSelected(t, Some(Wrap(ids))).selectedItems == Some(ids)
  {
    TypedNodesSpec(objs);
    TypedNodesWrap(ids);
    TypedNodesSpec(Wrap(ids));
  }

  // ---------------------------------------------------------------------------
  // Loading on selection, and clearing

  /** The `LoadChildrenOnSelected` setter: stores the flag; turning it on while a
      last selected node has its children not yet loaded runs `OnSelectedAsync` for
      that node, whose fault is logged and dropped. */
  function SetLoadChildrenOnSelected(cmp: (NodeId, NodeId) -> int, t: Tree, v: bool, f: Fetch): (r: Tree)
    ensures r.loadChildrenOnSelected == v
    ensures r.arena.Keys == t.arena.Keys
    ensures r.lastSelected == t.lastSelected && r.selectedItems == t.selectedItems && r.roots == t.roots
    ensures (!v || t.lastSelected.None? || t.lastSelected.value !in t.arena ||
             IsChildrenLoaded(t.arena, t.arena[t.lastSelected.value])) ==> r == t.(loadChildrenOnSelected := v)
    ensures (v && t.lastSelected.Some? && t.lastSelected.value in t.arena &&
             !IsChildrenLoaded(t.arena, t.arena[t.lastSelected.value])) ==>
      NodeLoad.LoadedAs(cmp, t.(loadChildrenOnSelected := v), t.lastSelected.value, t.arena[t.lastSelected.value], f, r)
  {
    var t1 := t.(loadChildrenOnSelected := v);
    if v && t.lastSelected.Some? && t.lastSelected.value in t.arena && !IsChildrenLoaded(t.arena, t.arena[t.lastSelected.value])
    then
      var id := t.lastSelected.value;
      assert t1.arena[id := t1.arena[id]] == t1.arena;
      OnSelectedAsync(cmp, t1, id, f).state
    else t1
  }

  /** Turning the flag on for a last selected node whose fetch completes with a list
      installs that list, without nulls and sorted, as the node's children. */
  lemma SetLoadChildrenOnSelectedLoads(cmp: (NodeId, NodeId) -> int, t: Tree, f: Fetch, xs: seq<Option<NodeId>>)
    requires IsComparer(cmp)
    requires t.lastSelected.Some? && t.lastSelected.value in t.arena
    requires t.arena[t.lastSelected.value].updatable && !IsChildrenLoaded(t.arena, t.arena[t.lastSelected.value])
    requires !ExpandCancelled(t, t.lastSelected.value)
    requires f == Fetch(false, Returns(Some(xs)), false)
    ensures multiset(SetLoadChildrenOnSelected(cmp, t, true, f).arena[t.lastSelected.value].children.items) == multiset(Present(xs))
    ensures Sorted(cmp, SetLoadChildrenOnSelected(cmp, t, true, f).arena[t.lastSelected.value].children.items)
  {
    var id := t.lastSelected.value;
    assert Installs(t.arena, id, ExpandCancelled(t, id), f, false);
  }

  /** `Clear`: the selection is dropped and the root collection emptied (one Reset). */
  function Clear(t: Tree): (r: Tree)
    ensures |r.roots.items| == 0 && r.roots.resets == t.roots.resets + 1
    ensures r.lastSelected.None? && r.selectedItems.None? && r.nonTypedSelected.None?
    ensures r.arena == t.arena && r.expandTokens == t.expandTokens && r.collapseTokens == t.collapseTokens
    ensures r.loadChildrenOnSelected == t.loadChildrenOnSelected && r.shouldUnload == t.shouldUnload
    ensures r.nonTypedLast == t.nonTypedLast
  {
    var t1 := SetNonTypedSelected(t, None).(selectedItems := None);
    // Setting `LastSelectedItem` to null never reaches `EnsureVisibleSelected`.
    var t2 := t1.(lastSelected := None);
    t2.(roots := SortedCollection.Clear(t2.roots))
  }

  /** After `Clear` no node is reachable from the roots. */
  lemma ClearEmptiesWalk(t: Tree, fuel: nat)
    ensures GetAllNodes(Clear(t), fuel) == []
  {
    assert Clear(t).roots.items == [];
  }
}

=== FILE: sorted_collection.dfy ===
/** `SortedObservableTreeItemCollection<T>`: the child list of every node and the
    root list of the tree. `items` is the content; `resets` counts the Reset-kind
    change notifications the collection has raised, so that contracts can say when
    an operation notifies and when it stays silent. */
module SortedCollection {
  import opened Wrappers
  import opened Ordering
  import CollectionHelpers

  datatype Coll<T> = Coll(items: seq<T>, resets: nat)

  /** At this many candidates `CombineWith` replaces the contents instead of diffing. */
  const FullResetThreshold: nat := 100

  /** A collection and the count an operation returns alongside it. */
  datatype Counted<T> = Counted(coll: Coll<T>, count: int)

  function Empty<T>(): (r: Coll<T>)
    ensures |r.items| == 0 && r.resets == 0
  {
    Coll([], 0)
  }

  /** `Contains`: `Equals`, i.e. identity of the item. */
  predicate Contains<T(==)>(c: Coll<T>, x: T) {
    x in c.items
  }

  /** The overridden `InsertItem` behind `Add`: appends to a copy, re-sorts the copy and
      refills the inner list. It works on the inner list only, so it raises no
      notification at all. */
  function Add<T(!new)>(cmp: (T, T) -> int, c: Coll<T>, x: T): (r: Coll<T>)
    ensures multiset(r.items) == multiset(c.items) + multiset{x}
    ensures IsComparer(cmp) ==> Sorted(cmp, r.items)
    ensures r.resets == c.resets
  {
    var copy := CollectionHelpers.AppendAll(c.items, [x]);
    Coll(CollectionHelpers.AppendAll([], Sort(cmp, copy)), c.resets)
  }

  /** `InitializeWith(IEnumerable<T>)`: clears the inner list and calls `AddRange`. */
  function InitializeWith<T(!new)>(cmp: (T, T) -> int, c: Coll<T>, collection: Option<seq<T>>): (r: Result<Coll<T>>)
    ensures r.Success? <==> collection.Some?
    ensures collection.None? ==> r == Failure(ArgumentNull)
    ensures r.Success? ==> multiset(r.value.items) == multiset(collection.value)
    ensures r.Success? && IsComparer(cmp) ==> Sorted(cmp, r.value.items)
    ensures r.Success? ==> r.value.resets == c.resets + 1
  {
    if collection.None? then Failure(ArgumentNull)
    else
      var added := AddRange(cmp, Coll([], c.resets), collection);
      Success(added.value.coll)
  }

  /** `InitializeWith(T item)`: clears the inner list and calls `Add`, which raises
      nothing. */
  function InitializeWithItem<T(!new)>(cmp: (T, T) -> int, c: Coll<T>, item: Option<T>): (r: Result<Coll<T>>)
    ensures r.Success? <==> item.Some?
    ensures item.None? ==> r == Failure(ArgumentNull)
    ensures r.Success? ==> r.value.items == [item.value] && r.value.resets == c.resets
  {
    if item.None? then Failure(ArgumentNull)
    else
      var added := Add(cmp, Coll([], c.resets), item.value);
      assert multiset(added.items) == multiset{item.value};
      assert |added.items| == 1 && added.items[0] in multiset(added.items);
      Success(added)
  }

  /** `AddRange`: sorts only the incoming items and appends them after the existing
      ones; always raises one Reset and returns the number of incoming items. */
  function AddRange<T(!new)>(cmp: (T, T) -> int, c: Coll<T>, collection: Option<seq<T>>): (r: Result<Counted<T>>)
    ensures r.Success? <==> collection.Some?
    ensures collection.None? ==> r == Failure(ArgumentNull)
    ensures r.Success? ==> |r.value.coll.items| == |c.items| + |collection.value|
    ensures r.Success? ==> r.value.coll.items[..|c.items|] == c.items
    ensures r.Success? ==> multiset(r.value.coll.items[|c.items|..]) == multiset(collection.value)
    ensures r.Success? && IsComparer(cmp) ==> Sorted(cmp, r.value.coll.items[|c.items|..])
    ensures r.Success? ==> r.value.coll.resets == c.resets + 1
    ensures r.Success? ==> r.value.count == |collection.value|
  {
    if collection.None? then Failure(ArgumentNull)
    else
      var newItems := Sort(cmp, collection.value);
      Success(Counted(Coll(CollectionHelpers.AppendAll(c.items, newItems), c.resets + 1), |newItems|))
  }

  /** Appending to an empty collection is the only case in which `AddRange` leaves the
      whole content sorted. */
  lemma AddRangeSortedWhenEmpty<T(!new)>(cmp: (T, T) -> int, c: Coll<T>, xs: seq<T>)
    requires IsComparer(cmp) && |c.items| == 0
    ensures IsSortedPermutation(cmp, AddRange(cmp, c, Some(xs)).value.coll.items, xs)
  {
    var r := AddRange(cmp, c, Some(xs)).value.coll.items;
    assert r[|c.items|..] == r;
  }

  /** ...and otherwise it need not: [2] followed by [1] stays [2, 1]. */
  lemma AddRangeLeavesUnsorted(c: Coll<int>, xs: seq<int>)
    requires c == Coll([2], 0) && xs == [1]
    ensures AddRange(IntCompare, c, Some(xs)).value.coll.items == [2, 1]
    ensures !Sorted(IntCompare, AddRange(IntCompare, c, Some(xs)).value.coll.items)
  {
    var r := AddRange(IntCompare, c, Some(xs)).value.coll.items;
    assert |r| == 2 && r[..1] == [2];
    assert multiset(r[1..]) == multiset{1};
    assert r[1..] == [r[1]];
    assert r[1] in multiset(r[1..]);
    assert IntCompare(r[0], r[1]) > 0;
  }

  /** The position of the first item of `s` equal to `x` (`IndexOf`). */
  function IndexOf<T(==)>(s: seq<T>, x: T): (i: nat)
    requires x in s
    ensures i < |s| && s[i] == x && x !in s[..i]
  {
    if s[0] == x then 0
    else
      assert s[1..][..IndexOf(s[1..], x)] == s[1..IndexOf(s[1..], x) + 1];
      1 + IndexOf(s[1..], x)
  }

  /** `List.Remove`: drops the first item equal to `x`, if there is one. */
  function RemoveFirst<T(==)>(s: seq<T>, x: T): (r: seq<T>)
    ensures multiset(r) == multiset(s) - multiset{x}
    ensures x !in s ==> r == s
    ensures x in s ==> |r| == |s| - 1
    decreases |s|
  {
    if |s| == 0 then s
    else if s[0] == x then
      assert s == [s[0]] + s[1..];
      s[1..]
    else
      assert s == [s[0]] + s[1..];
      [s[0]] + RemoveFirst(s[1..], x)
  }

  /** The items `RemoveFirst` keeps are those before and after the first `x`, in their
      original order. */
  lemma {:induction false} RemoveFirstAt<T>(s: seq<T>, x: T, i: nat)
    requires i < |s| && s[i] == x && x !in s[..i]
    ensures RemoveFirst(s, x) == s[..i] + s[i + 1..]
    decreases i
  {
    if i == 0 {
      assert s[..0] + s[1..] == s[1..];
    } else {
      assert s[0] in s[..i];
      assert x !in s[1..][..i - 1] by {
        assert forall y :: y in s[1..][..i - 1] ==> y in s[..i];
      }
      RemoveFirstAt(s[1..], x, i - 1);
      ConsSplit(s, i);
    }
  }

  /** Splitting the tail of `s` around position `i - 1` and putting the head back
      splits `s` around position `i`. */
  lemma ConsSplit<T>(s: seq<T>, i: nat)
    requires 0 < i < |s|
    ensures [s[0]] + (s[1..][..i - 1] + s[1..][i..]) == s[..i] + s[i + 1..]
  {
    assert s[..i] == [s[0]] + s[1..][..i - 1];
    assert s[i + 1..] == s[1..][i..];
  }

  /** What `Remove` leaves was all there before, one item fewer when `x` was present. */
  lemma RemoveKeepsOthers<T>(c: Coll<T>, x: T)
    ensures forall y :: y in Remove(c, x).0.items ==> y in c.items
    ensures x in c.items ==> |Remove(c, x).0.items| == |c.items| - 1
  {
    var r := Remove(c, x).0.items;
    forall y | y in r ensures y in c.items {
      assert y in multiset(r);
    }
    if x in c.items {
      assert |multiset(r)| == |multiset(c.items)| - 1;
    }
  }

  /** Removing an item keeps a sorted collection sorted, so no Reset is needed. */
  lemma RemoveKeepsSorted<T>(cmp: (T, T) -> int, c: Coll<T>, x: T)
    requires Sorted(cmp, c.items)
    ensures Sorted(cmp, Remove(c, x).0.items)
  {
    if x in c.items {
      DropKeepsSorted(cmp, c.items, IndexOf(c.items, x));
    }
  }

  /** `List.Remove` for each of `xs` in turn. */
  function RemoveEach<T(==)>(s: seq<T>, xs: seq<T>): (r: seq<T>)
    ensures multiset(r) == multiset(s) - multiset(xs)
    decreases |xs|
  {
    if |xs| == 0 then s
    else
      assert xs == [xs[0]] + xs[1..];
      RemoveEach(RemoveFirst(s, xs[0]), xs[1..])
  }

  /** `Remove` (from `Collection<T>`): removes the first occurrence of `x` and reports
      whether there was one. It raises a Remove-kind notification, not a Reset. */
  function Remove<T(==)>(c: Coll<T>, x: T): (r: (Coll<T>, bool))
    ensures r.1 <==> Contains(c, x)
    ensures multiset(r.0.items) == multiset(c.items) - multiset{x}
    ensures r.1 ==> r.0.items == c.items[..IndexOf(c.items, x)] + c.items[IndexOf(c.items, x) + 1..]
    ensures !r.1 ==> r.0 == c
    ensures r.0.resets == c.resets
  {
    if x in c.items then RemoveFirstAt(c.items, x, IndexOf(c.items, x)); (Coll(RemoveFirst(c.items, x), c.resets), true)
    else (c, false)
  }

  /** `Clear` inherited from `ObservableCollection`: empties and raises a Reset. */
  function Clear<T>(c: Coll<T>): (r: Coll<T>)
    ensures |r.items| == 0 && r.resets == c.resets + 1
  {
    Coll([], c.resets + 1)
  }

  /** `RemoveRange`: removes one `Equals`-match per argument (if any), re-sorts,
      always raises one Reset and returns the number of arguments enumerated. */
  function RemoveRange<T(!new,==)>(cmp: (T, T) -> int, c: Coll<T>, collection: Option<seq<T>>): (r: Result<Counted<T>>)
    ensures r.Success? <==> collection.Some?
    ensures collection.None? ==> r == Failure(ArgumentNull)
    ensures r.Success? ==> multiset(r.value.coll.items) == multiset(c.items) - multiset(collection.value)
    ensures r.Success? && IsComparer(cmp) ==> Sorted(cmp, r.value.coll.items)
    ensures r.Success? ==> r.value.coll.resets == c.resets + 1
    ensures r.Success? ==> r.value.count == |collection.value|
  {
    if collection.None? then Failure(ArgumentNull)
    else
      var left := RemoveEach(c.items, collection.value);
      Success(Counted(Coll(CollectionHelpers.AppendAll([], Sort(cmp, left)), c.resets + 1), |collection.value|))
  }

  // ---------------------------------------------------------------- CombineWith

  /** Line 60's test: no current item compares equal to `item`. */
  predicate IsNew<T>(cmp: (T, T) -> int, current: seq<T>, item: T) {
    forall k :: 0 <= k < |current| ==> cmp(current[k], item) != 0
  }

  /** Line 67's test, negated: some candidate compares equal to `item`. */
  predicate Matched<T>(cmp: (T, T) -> int, candidates: seq<T>, item: T) {
    exists k :: 0 <= k < |candidates| && cmp(candidates[k], item) == 0
  }

  function IsNewTo<T>(cmp: (T, T) -> int, current: seq<T>): T -> bool {
    item => IsNew(cmp, current, item)
  }

  function MatchedBy<T>(cmp: (T, T) -> int, candidates: seq<T>): T -> bool {
    item => Matched(cmp, candidates, item)
  }

  function UnmatchedBy<T>(cmp: (T, T) -> int, candidates: seq<T>): T -> bool {
    item => !Matched(cmp, candidates, item)
  }

  /** The candidates that are new with respect to `current`, in candidate order. */
  function NewItems<T(!new)>(cmp: (T, T) -> int, current: seq<T>, candidates: seq<T>): seq<T> {
    Filter(candidates, IsNewTo(cmp, current))
  }

  /** The items of `merged` that no candidate compares equal to. */
  function Unmatched<T(!new)>(cmp: (T, T) -> int, candidates: seq<T>, merged: seq<T>): seq<T> {
    Filter(merged, UnmatchedBy(cmp, candidates))
  }

  /** The tail of `CombineWith`: when something changed, sort, refill and raise one
      Reset; otherwise leave the collection as it was. */
  function Publish<T(!new)>(cmp: (T, T) -> int, c: Coll<T>, current: seq<T>, changed: bool): (r: Coll<T>)
    ensures changed ==> multiset(r.items) == multiset(current) && r.resets == c.resets + 1
    ensures changed && IsComparer(cmp) ==> Sorted(cmp, r.items)
    ensures !changed ==> r == c
  {
    if changed then Coll(CollectionHelpers.AppendAll([], Sort(cmp, current)), c.resets + 1)
    else c
  }

  /** `CombineWith` as written: below the threshold it adds the new candidates and,
      only when at least one candidate was already present, removes the current items
      no candidate compares equal to; at or above the threshold it replaces the
      contents with the candidates. */
  function CombineWith<T(!new,==)>(cmp: (T, T) -> int, c: Coll<T>, candidates: Option<seq<T>>): (r: Result<Coll<T>>)
    ensures r.Success? <==> candidates.Some?
    ensures candidates.None? ==> r == Failure(ArgumentNull)
    ensures r.Success? ==> r.value == c || r.value.resets == c.resets + 1
    ensures r.Success? && r.value.resets == c.resets + 1 && IsComparer(cmp) ==> Sorted(cmp, r.value.items)
  {
    if candidates.None? then Failure(ArgumentNull)
    else if |candidates.value| < FullResetThreshold then Success(MergeSmall(cmp, c, candidates.value))
    else Success(Publish(cmp, c, candidates.value, true))
  }

  /** The diffing branch of `CombineWith` (fewer candidates than the threshold). */
  function MergeSmall<T(!new,==)>(cmp: (T, T) -> int, c: Coll<T>, xs: seq<T>): (r: Coll<T>)
    ensures r == c || r.resets == c.resets + 1
    ensures r.resets == c.resets + 1 && IsComparer(cmp) ==> Sorted(cmp, r.items)
  {
    var newItems := NewItems(cmp, c.items, xs);
    var merged := c.items + newItems;
    if |newItems| != |xs| then RemovalPass(cmp, c, xs, merged, |newItems| > 0)
    else Publish(cmp, c, merged, |newItems| > 0)
  }

  /** Lines 66-72: drop every item of `merged` no candidate compares equal to. */
  function RemovalPass<T(!new,==)>(cmp: (T, T) -> int, c: Coll<T>, xs: seq<T>, merged: seq<T>, inserted: bool): (r: Coll<T>)
    ensures r == c || r.resets == c.resets + 1
    ensures r.resets == c.resets + 1 && IsComparer(cmp) ==> Sorted(cmp, r.items)
  {
    var deleted := Unmatched(cmp, xs, merged);
    Publish(cmp, c, RemoveEach(merged, deleted), inserted || |deleted| > 0)
  }

  /** When every candidate is new (an empty candidate list included) nothing is
      removed: the result holds the current items and all candidates. */
  lemma CombineWithAllNew<T(!new)>(cmp: (T, T) -> int, c: Coll<T>, xs: seq<T>)
    requires |xs| < FullResetThreshold
    requires forall k :: 0 <= k < |xs| ==> IsNew(cmp, c.items, xs[k])
    ensures |xs| == 0 ==> CombineWith(cmp, c, Some(xs)) == Success(c)
    ensures |xs| > 0 ==> multiset(CombineWith(cmp, c, Some(xs)).value.items) == multiset(c.items) + multiset(xs)
    ensures |xs| > 0 ==> CombineWith(cmp, c, Some(xs)).value.resets == c.resets + 1
  {
    FilterAll(xs, IsNewTo(cmp, c.items));
  }

  /** With every candidate new, stale items survive: every current item is kept,
      although (for a comparer) no candidate matches it. */
  lemma CombineWithKeepsStale<T(!new)>(cmp: (T, T) -> int, c: Coll<T>, xs: seq<T>, s: T)
    requires |xs| < FullResetThreshold
    requires forall k :: 0 <= k < |xs| ==> IsNew(cmp, c.items, xs[k])
    requires s in c.items
    ensures s in CombineWith(cmp, c, Some(xs)).value.items
    ensures IsComparer(cmp) ==> !Matched(cmp, xs, s)
  {
    CombineWithAllNew(cmp, c, xs);
    if |xs| > 0 {
      assert s in multiset(CombineWith(cmp, c, Some(xs)).value.items);
    }
    if IsComparer(cmp) {
      var j :| 0 <= j < |c.items| && c.items[j] == s;
      forall k | 0 <= k < |xs| ensures cmp(xs[k], s) != 0 {
        assert cmp(c.items[j], xs[k]) != 0;
      }
    }
  }

  /** A candidate that is not new is left out of `NewItems`, so fewer items are new
      than there are candidates. */
  lemma SomeKnownMeansFewerNew<T(!new)>(cmp: (T, T) -> int, current: seq<T>, xs: seq<T>, k0: nat)
    requires k0 < |xs| && !IsNew(cmp, current, xs[k0])
    ensures |NewItems(cmp, current, xs)| != |xs|
  {
    var newItems := NewItems(cmp, current, xs);
    FilterMember(xs, IsNewTo(cmp, current), xs[k0]);
    FilterSubMultiset(xs, IsNewTo(cmp, current));
    assert xs[k0] in multiset(xs) && xs[k0] !in multiset(newItems);
    if |newItems| == |xs| {
      MultisetSubEqual(multiset(newItems), multiset(xs));
    }
  }

  /** Each new candidate compares equal to itself, so it survives the removal scan. */
  lemma NewItemsAreMatched<T(!new)>(cmp: (T, T) -> int, current: seq<T>, xs: seq<T>)
    requires ZeroOnSelf(cmp)
    ensures Filter(NewItems(cmp, current, xs), MatchedBy(cmp, xs)) == NewItems(cmp, current, xs)
  {
    var newItems := NewItems(cmp, current, xs);
    FilterSubMultiset(xs, IsNewTo(cmp, current));
    forall k | 0 <= k < |newItems| ensures MatchedBy(cmp, xs)(newItems[k]) {
      assert newItems[k] in multiset(xs);
      var m :| 0 <= m < |xs| && xs[m] == newItems[k];
      assert cmp(xs[m], newItems[k]) == 0;
    }
    FilterAll(newItems, MatchedBy(cmp, xs));
  }

  /** What the removal scan leaves of `merged`: the items some candidate matches. */
  lemma RemoveUnmatched<T(!new)>(cmp: (T, T) -> int, xs: seq<T>, merged: seq<T>)
    ensures multiset(RemoveEach(merged, Unmatched(cmp, xs, merged))) == multiset(Filter(merged, MatchedBy(cmp, xs)))
  {
    FilterSplit(merged, UnmatchedBy(cmp, xs), MatchedBy(cmp, xs));
  }

  lemma CombineWithSmallIs<T(!new)>(cmp: (T, T) -> int, c: Coll<T>, xs: seq<T>)
    requires |xs| < FullResetThreshold
    ensures CombineWith(cmp, c, Some(xs)) == Success(MergeSmall(cmp, c, xs))
  {
  }

  lemma MergeSmallScans<T(!new)>(cmp: (T, T) -> int, c: Coll<T>, xs: seq<T>)
    requires |NewItems(cmp, c.items, xs)| != |xs|
    ensures MergeSmall(cmp, c, xs)
         == RemovalPass(cmp, c, xs, c.items + NewItems(cmp, c.items, xs), |NewItems(cmp, c.items, xs)| > 0)
  {
  }

  /** The removal pass keeps exactly the items of `merged` some candidate matches
      (when nothing was inserted, `merged` is the current content). */
  lemma RemovalPassContents<T(!new)>(cmp: (T, T) -> int, c: Coll<T>, xs: seq<T>, merged: seq<T>, inserted: bool)
    requires inserted || merged == c.items
    ensures multiset(RemovalPass(cmp, c, xs, merged, inserted).items) == multiset(Filter(merged, MatchedBy(cmp, xs)))
  {
    var deleted := Unmatched(cmp, xs, merged);
    RemoveUnmatched(cmp, xs, merged);
    FilterSplit(merged, UnmatchedBy(cmp, xs), MatchedBy(cmp, xs));
  }

  /** Below the threshold, with at least one candidate already present, the result
      holds exactly the current items some candidate compares equal to, plus the new
      candidates. */
  lemma CombineWithSomeKnown<T(!new)>(cmp: (T, T) -> int, c: Coll<T>, xs: seq<T>)
    requires ZeroOnSelf(cmp)
    requires |xs| < FullResetThreshold
    requires exists k :: 0 <= k < |xs| && !IsNew(cmp, c.items, xs[k])
    ensures multiset(CombineWith(cmp, c, Some(xs)).value.items)
         == multiset(Filter(c.items, MatchedBy(cmp, xs))) + multiset(NewItems(cmp, c.items, xs))
  {
    var newItems := NewItems(cmp, c.items, xs);
    var merged := c.items + newItems;
    var k0 :| 0 <= k0 < |xs| && !IsNew(cmp, c.items, xs[k0]);
    SomeKnownMeansFewerNew(cmp, c.items, xs, k0);
    CombineWithSmallIs(cmp, c, xs);
    MergeSmallScans(cmp, c, xs);
    if |newItems| == 0 {
      assert merged == c.items;
    }
    RemovalPassContents(cmp, c, xs, merged, |newItems| > 0);
    FilterConcat(c.items, newItems, MatchedBy(cmp, xs));
    NewItemsAreMatched(cmp, c.items, xs);
  }

  lemma MultisetSubEqual<T>(a: multiset<T>, b: multiset<T>)
    requires a <= b && |a| == |b|
    ensures a == b
  {
    var d := b - a;
    assert b == a + d;
    assert |d| == 0;
  }

  /** Below the threshold, with at least one candidate already present, the result
      and the candidates are the same up to `cmp`: every candidate compares equal to
      some resulting item and every resulting item to some candidate. */
  lemma CombineWithMatchesCandidates<T(!new)>(cmp: (T, T) -> int, c: Coll<T>, xs: seq<T>)
    requires ZeroOnSelf(cmp) && SignAntisymmetric(cmp)
    requires |xs| < FullResetThreshold
    requires exists k :: 0 <= k < |xs| && !IsNew(cmp, c.items, xs[k])
    ensures forall y :: y in CombineWith(cmp, c, Some(xs)).value.items ==> Matched(cmp, xs, y)
    ensures forall k :: 0 <= k < |xs| ==> !IsNew(cmp, CombineWith(cmp, c, Some(xs)).value.items, xs[k])
  {
    var r := CombineWith(cmp, c, Some(xs)).value.items;
    var kept := Filter(c.items, MatchedBy(cmp, xs));
    var newItems := NewItems(cmp, c.items, xs);
    CombineWithSomeKnown(cmp, c, xs);
    forall y | y in r ensures Matched(cmp, xs, y) {
      ResultItemMatched(cmp, c.items, xs, r, y);
    }
    forall k | 0 <= k < |xs| ensures !IsNew(cmp, r, xs[k]) {
      CandidateRepresented(cmp, c.items, xs, r, k);
    }
  }

  lemma ResultItemMatched<T(!new)>(cmp: (T, T) -> int, current: seq<T>, xs: seq<T>, r: seq<T>, y: T)
    requires ZeroOnSelf(cmp)
    requires multiset(r) == multiset(Filter(current, MatchedBy(cmp, xs))) + multiset(NewItems(cmp, current, xs))
    requires y in r
    ensures Matched(cmp, xs, y)
  {
    assert y in multiset(r);
    if y in multiset(Filter(current, MatchedBy(cmp, xs))) {
      FilterMember(current, MatchedBy(cmp, xs), y);
    } else {
      assert y in NewItems(cmp, current, xs);
      FilterMember(xs, IsNewTo(cmp, current), y);
      var m :| 0 <= m < |xs| && xs[m] == y;
      assert cmp(xs[m], y) == 0;
    }
  }

  lemma CandidateRepresented<T(!new)>(cmp: (T, T) -> int, current: seq<T>, xs: seq<T>, r: seq<T>, k: nat)
    requires ZeroOnSelf(cmp) && SignAntisymmetric(cmp)
    requires multiset(r) == multiset(Filter(current, MatchedBy(cmp, xs))) + multiset(NewItems(cmp, current, xs))
    requires k < |xs|
    ensures !IsNew(cmp, r, xs[k])
  {
    var x := xs[k];
    if IsNew(cmp, current, x) {
      FilterMember(xs, IsNewTo(cmp, current), x);
      assert x in multiset(NewItems(cmp, current, xs));
      assert x in multiset(r);
      var m :| 0 <= m < |r| && r[m] == x;
      assert cmp(r[m], x) == 0;
    } else {
      var j :| 0 <= j < |current| && cmp(current[j], x) == 0;
      var y := current[j];
      assert cmp(x, y) == 0;
      assert Matched(cmp, xs, y);
      FilterMember(current, MatchedBy(cmp, xs), y);
      assert y in multiset(Filter(current, MatchedBy(cmp, xs)));
      assert y in multiset(r);
      var m :| 0 <= m < |r| && r[m] == y;
      assert cmp(r[m], x) == 0;
    }
  }

  /** At or above the threshold the contents become a sorted permutation of the
      candidates, whatever they overlap with. */
  lemma CombineWithLarge<T(!new)>(cmp: (T, T) -> int, c: Coll<T>, xs: seq<T>)
    requires |xs| >= FullResetThreshold
    ensures multiset(CombineWith(cmp, c, Some(xs)).value.items) == multiset(xs)
    ensures IsComparer(cmp) ==> Sorted(cmp, CombineWith(cmp, c, Some(xs)).value.items)
    ensures CombineWith(cmp, c, Some(xs)).value.resets == c.resets + 1
  {
  }

  /** One Reset is raised exactly when the threshold is reached, a candidate is new, or
      (with some candidate already present) a current item is matched by no candidate;
      otherwise the collection is left as it was. */
  lemma CombineWithNotifiesIff<T(!new)>(cmp: (T, T) -> int, c: Coll<T>, xs: seq<T>)
    ensures CombineWith(cmp, c, Some(xs)).value.resets == c.resets + 1 <==>
      || |xs| >= FullResetThreshold
      || (exists k :: 0 <= k < |xs| && IsNew(cmp, c.items, xs[k]))
      || ((exists k :: 0 <= k < |xs| && !IsNew(cmp, c.items, xs[k])) &&
          (exists j :: 0 <= j < |c.items| && !Matched(cmp, xs, c.items[j])))
    ensures CombineWith(cmp, c, Some(xs)).value.resets != c.resets + 1 ==> CombineWith(cmp, c, Some(xs)) == Success(c)
  {
    if |xs| < FullResetThreshold {
      CombineWithSmallIs(cmp, c, xs);
      var newItems := NewItems(cmp, c.items, xs);
      if exists k :: 0 <= k < |xs| && IsNew(cmp, c.items, xs[k]) {
        var k :| 0 <= k < |xs| && IsNew(cmp, c.items, xs[k]);
        FilterMember(xs, IsNewTo(cmp, c.items), xs[k]);
        MergeSmallInserting(cmp, c, xs);
      } else {
        NoNewItems(cmp, c.items, xs);
        if |xs| > 0 {
          assert !IsNew(cmp, c.items, xs[0]);
          MergeSmallScans(cmp, c, xs);
          assert c.items + newItems == c.items;
          RemovalPassNotifies(cmp, c, xs);
        } else {
          assert MergeSmall(cmp, c, xs) == c;
        }
      }
    }
  }

  lemma NoNewItems<T(!new)>(cmp: (T, T) -> int, current: seq<T>, xs: seq<T>)
    requires forall k :: 0 <= k < |xs| ==> !IsNew(cmp, current, xs[k])
    ensures NewItems(cmp, current, xs) == []
  {
    var newItems := NewItems(cmp, current, xs);
    if |newItems| > 0 {
      FilterMember(xs, IsNewTo(cmp, current), newItems[0]);
    }
  }

  lemma MergeSmallInserting<T(!new)>(cmp: (T, T) -> int, c: Coll<T>, xs: seq<T>)
    requires |NewItems(cmp, c.items, xs)| > 0
    ensures MergeSmall(cmp, c, xs).resets == c.resets + 1
  {
  }

  /** With nothing new, the scan over the current items decides alone. */
  lemma RemovalPassNotifies<T(!new)>(cmp: (T, T) -> int, c: Coll<T>, xs: seq<T>)
    ensures RemovalPass(cmp, c, xs, c.items, false).resets == c.resets + 1 <==>
      exists j :: 0 <= j < |c.items| && !Matched(cmp, xs, c.items[j])
    ensures RemovalPass(cmp, c, xs, c.items, false).resets != c.resets + 1 ==> RemovalPass(cmp, c, xs, c.items, false) == c
  {
    var deleted := Unmatched(cmp, xs, c.items);
    if exists j :: 0 <= j < |c.items| && !Matched(cmp, xs, c.items[j]) {
      var j :| 0 <= j < |c.items| && !Matched(cmp, xs, c.items[j]);
      FilterMember(c.items, UnmatchedBy(cmp, xs), c.items[j]);
    } else if |deleted| > 0 {
      FilterMember(c.items, UnmatchedBy(cmp, xs), deleted[0]);
    }
  }

  /** `int.CompareTo` up to the magnitude of its result. */
  function IntCompare(a: int, b: int): int {
    a - b
  }
}

=== FILE: tree_item.dfy ===
/** `TreeViewItemViewModel` and its `ProxyTreeViewItemViewModel` variant: one node of
    the tree. Nodes live in an arena keyed by node id; an id stands for the node
    object itself, so reference equality (`Equals`, `Contains`, `Remove`) is equality
    of ids. The sort order of children is `CompareTo(object)`, supplied by the host,
    and appears as a comparator `cmp` on ids. */
module TreeItem {
  import opened Wrappers
  import opened Ordering
  import opened SortedCollection

  type NodeId = nat

  /** The two node classes: the virtual flags a proxy overrides become a match on the
      kind. */
  datatype Kind = Normal | Proxy

  datatype Node = Node(
    kind: Kind,
    parent: Option<NodeId>,
    children: Coll<NodeId>,
    isExpanded: bool,
    isSelected: bool,
    isEditing: bool,
    isEditable: bool,
    parentFlag: bool,          // the stored `mIsParentNode`
    proxyFlag: bool,           // the stored `mIsProxyNode`
    isLoadingChildren: bool,   // the re-entrancy flag of `LoadChildren`
    wired: bool,               // the tree has set the four load/collapse/select handlers
    updatable: bool)           // the object implements `ITreeViewUpdatableNode`

  type Arena = map<NodeId, Node>

  // ---------------------------------------------------------------- derived flags

  predicate IsProxyNode(n: Node) {
    match n.kind
    case Proxy => true
    case Normal => n.proxyFlag
  }

  predicate IsParentNode(n: Node) {
    match n.kind
    case Proxy => false
    case Normal => n.parentFlag
  }

  predicate IsLeaf(n: Node) {
    match n.kind
    case Proxy => false
    case Normal => !IsParentNode(n) && |n.children.items| == 0
  }

  predicate IsRootNode(n: Node) {
    n.parent.None?
  }

  predicate IsItemContainerNode(n: Node) {
    IsParentNode(n) || IsProxyNode(n)
  }

  /** Whether child `c` is a proxy object. An id the arena does not hold is not. */
  predicate ChildIsProxy(a: Arena, c: NodeId) {
    c in a && IsProxyNode(a[c])
  }

  function NotProxyIn(a: Arena): NodeId -> bool {
    (c: NodeId) => !ChildIsProxy(a, c)
  }

  /** Loaded means: parent-capable, some children, and none of them a proxy. */
  predicate IsChildrenLoaded(a: Arena, n: Node) {
    IsParentNode(n) && |n.children.items| > 0 &&
    forall k :: 0 <= k < |n.children.items| ==> !ChildIsProxy(a, n.children.items[k])
  }

  /** A proxy answers the three overridden flags with constants, whatever is stored. */
  lemma ProxyFlags(a: Arena, n: Node)
    requires n.kind == Proxy
    ensures IsProxyNode(n) && !IsParentNode(n) && !IsLeaf(n)
    ensures IsItemContainerNode(n) && !IsChildrenLoaded(a, n)
  {
  }

  /** Leaf and loaded exclude each other, and a leaf is never a container. */
  lemma LeafExcludesLoaded(a: Arena, n: Node)
    ensures IsLeaf(n) ==> !IsChildrenLoaded(a, n) && !IsParentNode(n)
    ensures IsChildrenLoaded(a, n) ==> IsItemContainerNode(n) && !IsLeaf(n)
  {
  }

  /** The proxy's parameterless `CompareTo()`, a separate method next to the host's
      `CompareTo(object)`. */
  function ParameterlessCompareTo(n: Node): int
    requires n.kind == Proxy
  {
    1
  }

  lemma ProxyCompareToIgnoresNode(n: Node, m: Node)
    requires n.kind == Proxy && m.kind == Proxy
    ensures ParameterlessCompareTo(n) == ParameterlessCompareTo(m) > 0
  {
  }

  // ---------------------------------------------------------------- plain setters

  /** The `IsEditing` setter stores `value && IsEditable`. */
  function SetEditing(n: Node, v: bool): (r: Node)
    ensures r.isEditing ==> n.isEditable
    ensures n.isEditable ==> r.isEditing == v
    ensures r.(isEditing := n.isEditing) == n
  {
    n.(isEditing := v && n.isEditable)
  }

  /** The `IsParentNode` setter writes the stored flag; a proxy keeps reading false. */
  function SetParentFlag(n: Node, v: bool): (r: Node)
    ensures n.kind == Normal ==> (IsParentNode(r) <==> v)
    ensures n.kind == Proxy ==> !IsParentNode(r)
    ensures r.(parentFlag := n.parentFlag) == n
  {
    n.(parentFlag := v)
  }

  /** `SetSilentExpand`: only the flag changes, and no handler runs. */
  function SetSilentExpand(n: Node, v: bool): (r: Node)
    ensures r.isExpanded == v
    ensures r.(isExpanded := n.isExpanded) == n
  {
    n.(isExpanded := v)
  }

  /** `SetSilentSelect`: only the flag changes, and no handler runs. */
  function SetSilentSelect(n: Node, v: bool): (r: Node)
    ensures r.isSelected == v
    ensures r.(isSelected := n.isSelected) == n
  {
    n.(isSelected := v)
  }

  // ---------------------------------------------------------------- guarded setters

  /** The handler a setter hands over to the owning tree. */
  datatype Callback =
    | NoCallback
    | ExpandHandler     // `OnExpanded`, awaited by `ExecuteOnExpanded`
    | CollapseHandler   // `OnCollapsed`, called by `ExecuteOnCollapsed`
    | SelectHandler     // `OnSelected`, awaited by `ExecuteOnSelected`

  /** The handler the `IsExpanded` setter calls when asked to store `v`. Nothing is
      called when the value is unchanged; otherwise the flag is stored (as
      `SetSilentExpand` does) and the expand handler is called if the children are not
      loaded, the collapse handler if the tree unloads on collapse. A handler that is
      not wired is a null delegate: the call throws, the exception is caught and
      logged, so nothing happens. */
  function ExpandCallback(a: Arena, n: Node, v: bool, unload: bool): (r: Callback)
    ensures r == ExpandHandler <==> n.isExpanded != v && v && n.wired && !IsChildrenLoaded(a, n)
    ensures r == CollapseHandler <==> n.isExpanded != v && !v && n.wired && unload
    ensures r != SelectHandler
  {
    if n.isExpanded == v || !n.wired then NoCallback
    else if v then (if IsChildrenLoaded(a, n) then NoCallback else ExpandHandler)
    else if unload then CollapseHandler
    else NoCallback
  }

  /** The handler the `IsSelected` setter calls when asked to store `v`: none when the
      value is unchanged; on selection the select handler, if it is wired and the
      children are not loaded. */
  function SelectCallback(a: Arena, n: Node, v: bool): (r: Callback)
    ensures r == SelectHandler <==> n.isSelected != v && v && n.wired && !IsChildrenLoaded(a, n)
    ensures r == NoCallback || r == SelectHandler
  {
    if n.isSelected != v && v && n.wired && !IsChildrenLoaded(a, n) then SelectHandler else NoCallback
  }

  // ---------------------------------------------------------------- children

  /** `SetItems(items, resetCollection)`: replaces the children by a sorted copy of
      `items` through `InitializeWith`. The method returns right after that call, so
      `resetCollection` changes nothing and an emptied node is not collapsed. */
  function SetItems(cmp: (NodeId, NodeId) -> int, n: Node, items: Option<seq<NodeId>>, resetCollection: bool): (r: Result<Node>)
    ensures r.Success? <==> items.Some?
    ensures items.None? ==> r == Failure(ArgumentNull)
    ensures r.Success? ==> multiset(r.value.children.items) == multiset(items.value)
    ensures r.Success? && IsComparer(cmp) ==> Sorted(cmp, r.value.children.items)
    ensures r.Success? ==> r.value.children.resets == n.children.resets + 1
    ensures r.Success? ==> r.value.(children := n.children) == n
  {
    var c := InitializeWith(cmp, n.children, items);
    if c.Failure? then Failure(c.error) else Success(n.(children := c.value))
  }

  lemma SetItemsIgnoresReset(cmp: (NodeId, NodeId) -> int, n: Node, items: Option<seq<NodeId>>)
    ensures SetItems(cmp, n, items, true) == SetItems(cmp, n, items, false)
  {
  }

  /** `SetItems(item)`: a non-null item becomes the only child (no notification, as
      `InitializeWith(item)` goes through `Add`); a node left without children is
      silently collapsed. */
  function SetItem(cmp: (NodeId, NodeId) -> int, n: Node, item: Option<NodeId>): (r: Node)
    ensures item.Some? ==> r.children.items == [item.value] && r.isExpanded == n.isExpanded
    ensures r.children.resets == n.children.resets
    ensures item.None? ==> r.children == n.children
    ensures |r.children.items| == 0 ==> !r.isExpanded
    ensures |r.children.items| > 0 ==> r.isExpanded == n.isExpanded
    ensures r.(children := n.children, isExpanded := n.isExpanded) == n
  {
    var init := InitializeWithItem(cmp, n.children, item);
    var children := if init.Success? then init.value else n.children;
    n.(children := children, isExpanded := n.isExpanded && |children.items| > 0)
  }

  /** Index of the first proxy among `s`, the one a filtered enumeration of `s` meets
      first. */
  function FirstProxy(a: Arena, s: seq<NodeId>): (r: Option<nat>)
    ensures r.None? <==> forall k :: 0 <= k < |s| ==> !ChildIsProxy(a, s[k])
    ensures r.Some? ==> r.value < |s| && ChildIsProxy(a, s[r.value])
    ensures r.Some? ==> forall k :: 0 <= k < r.value ==> !ChildIsProxy(a, s[k])
  {
    if |s| == 0 then None
    else if ChildIsProxy(a, s[0]) then Some(0)
    else
      var t := FirstProxy(a, s[1..]);
      if t.None? then None else Some(t.value + 1)
  }

  /** `InsertChild` as its comment describes it: a child already present changes
      nothing; otherwise every proxy child is removed and the child added in sorted
      position. The removals raise Remove-kind notifications and `Add` none, so no
      Reset is counted. */
  function InsertChild(cmp: (NodeId, NodeId) -> int, a: Arena, n: Node, child: NodeId): (r: Node)
    ensures child in n.children.items ==> r == n
    ensures child !in n.children.items ==>
      multiset(r.children.items) == multiset(Filter(n.children.items, NotProxyIn(a))) + multiset{child}
    ensures IsComparer(cmp) && child !in n.children.items ==> Sorted(cmp, r.children.items)
    ensures r.children.resets == n.children.resets
    ensures r.(children := n.children) == n
  {
    if child in n.children.items then n
    else
      var kept := Coll(Filter(n.children.items, NotProxyIn(a)), n.children.resets);
      n.(children := Add(cmp, kept, child))
  }

  /** After `InsertChild` the child is present, and every other child is an old
      non-proxy child. */
  lemma InsertChildContents(cmp: (NodeId, NodeId) -> int, a: Arena, n: Node, child: NodeId)
    ensures child in InsertChild(cmp, a, n, child).children.items
    ensures child !in n.children.items ==>
      forall c :: c in InsertChild(cmp, a, n, child).children.items && c != child ==>
        c in n.children.items && !ChildIsProxy(a, c)
  {
    var r := InsertChild(cmp, a, n, child);
    if child !in n.children.items {
      assert child in multiset(r.children.items);
      forall c | c in r.children.items && c != child
        ensures c in n.children.items && !ChildIsProxy(a, c)
      {
        assert c in multiset(r.children.items);
        assert c in multiset(Filter(n.children.items, NotProxyIn(a)));
        FilterMember(n.children.items, NotProxyIn(a), c);
      }
    }
  }

  /** Some child of `n` is a proxy. */
  predicate HasProxyChild(a: Arena, n: Node) {
    exists k :: 0 <= k < |n.children.items| && ChildIsProxy(a, n.children.items[k])
  }

  /** `InsertChild` as the code runs: it removes proxies from the collection while a
      lazy filter over that same collection is being enumerated. The first removal
      invalidates the enumerator, whose next step throws; so when a proxy is present
      the method ends with an `InvalidOperationException`, the first proxy removed
      and the new child never added. */
  function InsertChildAsWritten(cmp: (NodeId, NodeId) -> int, a: Arena, n: Node, child: NodeId): (r: Attempt<Node>)
    ensures child in n.children.items ==> r == Attempt(n, None)
    ensures r.fault.Some? <==> child !in n.children.items && HasProxyChild(a, n)
    ensures r.fault.None? ==> r.state == InsertChild(cmp, a, n, child)
    ensures r.fault.Some? ==>
      r.fault == Some(InvalidOperation) && child !in r.state.children.items &&
      |r.state.children.items| == |n.children.items| - 1 &&
      forall c :: c in r.state.children.items ==> c in n.children.items
    ensures r.state.children.resets == n.children.resets
    ensures r.state.(children := n.children) == n
  {
    if child in n.children.items then Attempt(n, None)
    else
      var first := FirstProxy(a, n.children.items);
      if first.Some? then
        var x := n.children.items[first.value];
        var (removed, _) := Remove(n.children, x);
        RemoveKeepsOthers(n.children, x);
        Attempt(n.(children := removed), Some(InvalidOperation))
      else
        FilterAll(n.children.items, NotProxyIn(a));
        Attempt(InsertChild(cmp, a, n, child), None)
  }

  /** Whenever a new child meets a proxy, the code as written throws and loses the
      child, where the described behaviour adds it. */
  lemma InsertChildAsWrittenThrows(cmp: (NodeId, NodeId) -> int, a: Arena, n: Node, child: NodeId, k: nat)
    requires child !in n.children.items
    requires k < |n.children.items| && ChildIsProxy(a, n.children.items[k])
    ensures InsertChildAsWritten(cmp, a, n, child).fault == Some(InvalidOperation)
    ensures child !in InsertChildAsWritten(cmp, a, n, child).state.children.items
    ensures |InsertChildAsWritten(cmp, a, n, child).state.children.items| == |n.children.items| - 1
    ensures child in InsertChild(cmp, a, n, child).children.items
  {
    var r := InsertChildAsWritten(cmp, a, n, child);
    var first := FirstProxy(a, n.children.items);
    assert first.Some?;
    var x := n.children.items[first.value];
    assert multiset(r.state.children.items) == multiset(n.children.items) - multiset{x};
    assert multiset(r.state.children.items)[child] == 0;
    InsertChildContents(cmp, a, n, child);
  }

  /** `RemoveChild`: removes the first occurrence of the child if present; the other
      children keep their order and nothing else changes. */
  function RemoveChild(n: Node, child: NodeId): (r: Node)
    ensures child !in n.children.items ==> r == n
    ensures multiset(r.children.items) == multiset(n.children.items) - multiset{child}
    ensures child in n.children.items ==>
      var i := IndexOf(n.children.items, child);
      r.children.items == n.children.items[..i] + n.children.items[i + 1..]
    ensures r.children.resets == n.children.resets
    ensures r.(children := n.children) == n
  {
    if child in n.children.items then n.(children := Remove(n.children, child).0) else n
  }

  /** Removing a child keeps a sorted child list sorted. */
  lemma RemoveChildKeepsSorted(cmp: (NodeId, NodeId) -> int, n: Node, child: NodeId)
    requires Sorted(cmp, n.children.items)
    ensures Sorted(cmp, RemoveChild(n, child).children.items)
  {
    RemoveKeepsSorted(cmp, n.children, child);
  }
}

=== FILE: tree_view.dfy ===
/** `TreeViewViewModel`: the roots, the selection, the cancellation-token registries
    and the handlers the tree wires into every parent-capable node. Each asynchronous
    handler runs as one atomic step; what the host and the other in-flight operations
    do meanwhile arrives as a `Fetch` value. */
module TreeView {
  import opened Wrappers
  import opened Ordering
  import opened SortedCollection
  import opened TreeItem
  import TreeWalk

  /** An element of the untyped selection list: null, a node of the tree's node type,
      or an object of some other type. */
  datatype Obj = NullObj | NodeObj(id: NodeId) | OtherObj

  datatype Tree = Tree(
    arena: Arena,
    roots: Coll<NodeId>,                 // `mItems`
    lastSelected: Option<NodeId>,        // `mLastSelectedItem`
    selectedItems: Option<seq<NodeId>>,  // `mSelectedItems`
    nonTypedSelected: Option<seq<Obj>>,  // `mNonTypedSelectedItems`
    nonTypedLast: Obj,                   // `mNonTypedLastSelectedItem`
    loadChildrenOnSelected: bool,
    shouldUnload: bool,                  // `mShouldUnloadChildrenOnCollapse`
    expandTokens: map<NodeId, bool>,     // live expand tokens: node -> cancellation requested
    collapseTokens: map<NodeId, bool>)   // live collapse tokens: node -> cancellation requested

  /** `r` differs from `t` at most in the nodes and the token registries: the roots,
      the selection and the flags of the tree are as they were. */
  predicate LoadFrame(t: Tree, r: Tree) {
    r.roots == t.roots && r.lastSelected == t.lastSelected && r.selectedItems == t.selectedItems &&
    r.nonTypedSelected == t.nonTypedSelected && r.nonTypedLast == t.nonTypedLast &&
    r.loadChildrenOnSelected == t.loadChildrenOnSelected && r.shouldUnload == t.shouldUnload
  }

  /** A freshly constructed tree. The unload policy starts off and no member of the
      tree ever sets it. */
  function NewTree(): (r: Tree)
    ensures |r.roots.items| == 0 && r.roots.resets == 0
    ensures r.lastSelected.None? && r.selectedItems.None? && r.nonTypedSelected.None? && r.nonTypedLast == NullObj
    ensures !r.shouldUnload && !r.loadChildrenOnSelected
    ensures |r.expandTokens| == 0 && |r.collapseTokens| == 0
  {
    Tree(map[], Empty(), None, None, None, NullObj, false, false, map[], map[])
  }

  /** Every child's `Parent` is the node that lists it. */
  ghost predicate ParentLinksConsistent(a: Arena) {
    forall p, k :: p in a && 0 <= k < |a[p].children.items| ==>
      a[p].children.items[k] in a && a[a[p].children.items[k]].parent == Some(p)
  }

  // ---------------------------------------------------------------------------
  // Loading children

  /** What `GetChildren` does: throw, or return a possibly null list whose elements
      may themselves be null. */
  datatype FetchOutcome = Throws | Returns(children: Option<seq<Option<NodeId>>>)

  /** The outside world during one `FillChildren`: whether cancellation is requested
      before the fetch starts, what the fetch does, and whether cancellation is
      requested while it runs. */
  datatype Fetch = Fetch(cancelBeforeFetch: bool, outcome: FetchOutcome, cancelDuringFetch: bool)

  /** `FillChildren` gets as far as `SetItems`: the node is updatable, the token was
      not already cancelled, the node is not loaded (or the load is forced), nothing
      cancels it, and the fetch returns a list. */
  predicate Installs(a: Arena, id: NodeId, cancelled: bool, f: Fetch, force: bool) {
    id in a && a[id].updatable && !cancelled && (force || !IsChildrenLoaded(a, a[id])) &&
    !f.cancelBeforeFetch && f.outcome.Returns? && f.outcome.children.Some? && !f.cancelDuringFetch
  }

  /** `FillChildren(item, token, force)`, `cancelled` being the token's state on entry.
      Waiting on an already cancelled token throws; so does a failing fetch. */
  function FillChildren(cmp: (NodeId, NodeId) -> int, a: Arena, id: NodeId, cancelled: bool, f: Fetch, force: bool): (r: Attempt<Arena>)
    ensures r.fault == Some(OperationCanceled) <==> id in a && a[id].updatable && cancelled
    ensures r.fault == Some(HostFault) <==>
      id in a && a[id].updatable && !cancelled && (force || !IsChildrenLoaded(a, a[id])) &&
      !f.cancelBeforeFetch && f.outcome.Throws?
    ensures r.fault.None? || r.fault == Some(OperationCanceled) || r.fault == Some(HostFault)
    ensures !Installs(a, id, cancelled, f, force) ==> r.state == a
    ensures Installs(a, id, cancelled, f, force) ==>
      id in r.state && r.state == a[id := r.state[id]] &&
      multiset(r.state[id].children.items) == multiset(Present(f.outcome.children.value)) &&
      r.state[id].children.resets == a[id].children.resets + 1 &&
      r.state[id].(children := a[id].children) == a[id]
    ensures Installs(a, id, cancelled, f, force) && IsComparer(cmp) ==> Sorted(cmp, r.state[id].children.items)
    ensures Installs(a, id, cancelled, f, force) ==> r.state[id].children.items == Sort(cmp, Present(f.outcome.children.value))
  {
    if id !in a || !a[id].updatable then Attempt(a, None)
    else if cancelled then Attempt(a, Some(OperationCanceled))
    else if !force && IsChildrenLoaded(a, a[id]) then Attempt(a, None)
    else if f.cancelBeforeFetch then Attempt(a, None)
    else match f.outcome
      case Throws => Attempt(a, Some(HostFault))
      case Returns(items) =>
        if f.cancelDuringFetch || items.None? then Attempt(a, None)
        else
          var n := SetItems(cmp, a[id], Some(Present(items.value)), true);
          if n.Success? then Attempt(a[id := n.value], None) else Attempt(a, None)
  }

  /** Installing fetched children drops every proxy the node had: when the host
      returns no proxies, the node ends loaded exactly when it is parent-capable and
      at least one non-null child came back. An empty result leaves the node with no
      children at all, not even a proxy. */
  lemma FillChildrenLoads(cmp: (NodeId, NodeId) -> int, a: Arena, id: NodeId, cancelled: bool, f: Fetch, force: bool)
    requires Installs(a, id, cancelled, f, force)
    requires forall c :: c in Present(f.outcome.children.value) ==> !ChildIsProxy(a, c)
    ensures |FillChildren(cmp, a, id, cancelled, f, force).state[id].children.items| == |Present(f.outcome.children.value)|
    ensures IsChildrenLoaded(FillChildren(cmp, a, id, cancelled, f, force).state, FillChildren(cmp, a, id, cancelled, f, force).state[id])
      <==> IsParentNode(a[id]) && |Present(f.outcome.children.value)| > 0
  {
    var r := FillChildren(cmp, a, id, cancelled, f, force).state;
    var got := Present(f.outcome.children.value);
    assert id in r && r == a[id := r[id]];
    assert r[id].(children := a[id].children) == a[id];
    SameKindSameProxies(a, id, r[id]);
    LoadedByContents(r, r[id], got);
  }

  /** Changing a node's children leaves every proxy test as it was. */
  lemma SameKindSameProxies(a: Arena, id: NodeId, n: Node)
    requires id in a && n.kind == a[id].kind && n.proxyFlag == a[id].proxyFlag
    ensures forall c :: ChildIsProxy(a[id := n], c) == ChildIsProxy(a, c)
  {
  }

  /** A node whose children are a permutation of non-proxies `got` is loaded exactly
      when it is parent-capable and `got` is not empty. */
  lemma LoadedByContents(a: Arena, n: Node, got: seq<NodeId>)
    requires multiset(n.children.items) == multiset(got)
    requires forall c :: c in got ==> !ChildIsProxy(a, c)
    ensures |n.children.items| == |got|
    ensures IsChildrenLoaded(a, n) <==> IsParentNode(n) && |got| > 0
  {
    var cs := n.children.items;
    assert |cs| == |multiset(cs)| == |multiset(got)| == |got|;
    forall k | 0 <= k < |cs| ensures !ChildIsProxy(a, cs[k]) {
      assert cs[k] in multiset(got);
    }
  }

  /** `CancelExpand`: request cancellation of the node's live expand token, if any. */
  function CancelExpand(t: Tree, id: NodeId): (r: Tree)
    ensures id in t.expandTokens ==> r.expandTokens == t.expandTokens[id := true]
    ensures id !in t.expandTokens ==> r == t
    ensures r.(expandTokens := t.expandTokens) == t
  {
    if id in t.expandTokens then t.(expandTokens := t.expandTokens[id := true]) else t
  }

  /** `CancelCollapse`: request cancellation of the node's live collapse token, if
      any. */
  function CancelCollapse(t: Tree, id: NodeId): (r: Tree)
    ensures id in t.collapseTokens ==> r.collapseTokens == t.collapseTokens[id := true]
    ensures id !in t.collapseTokens ==> r == t
    ensures r.(collapseTokens := t.collapseTokens) == t
  {
    if id in t.collapseTokens then t.(collapseTokens := t.collapseTokens[id := true]) else t
  }

  /** The token `OnLoadChildren` hands to `FillChildren` is already cancelled: a
      live expand token for the node exists and its cancellation was requested. */
  predicate ExpandCancelled(t: Tree, id: NodeId) {
    id in t.expandTokens && t.expandTokens[id]
  }

  /** `OnLoadChildren(item, force)`: cancel a pending collapse of the node, reuse or
      register its expand token, fill its children, and drop the token whatever the
      outcome. A fault propagates to the caller. */
  function OnLoadChildren(cmp: (NodeId, NodeId) -> int, t: Tree, id: NodeId, f: Fetch, force: bool): (r: Attempt<Tree>)
    ensures id !in t.arena ==> r == Attempt(t, None)
    ensures id in t.arena ==> id !in r.state.expandTokens && r.state.expandTokens == t.expandTokens - {id}
    ensures id in t.arena && id in t.collapseTokens ==> r.state.collapseTokens == t.collapseTokens[id := true]
    ensures id !in t.collapseTokens ==> r.state.collapseTokens == t.collapseTokens
    ensures r.fault == Some(OperationCanceled) <==> id in t.arena && t.arena[id].updatable && ExpandCancelled(t, id)
    ensures id in t.arena ==> Attempt(r.state.arena, r.fault) == FillChildren(cmp, t.arena, id, ExpandCancelled(t, id), f, force)
    ensures r.state.(arena := t.arena, expandTokens := t.expandTokens, collapseTokens := t.collapseTokens) == t
  {
    if id !in t.arena then Attempt(t, None)
    else
      var t1 := CancelCollapse(t, id);
      var fill := FillChildren(cmp, t.arena, id, ExpandCancelled(t, id), f, force);
      Attempt(t1.(arena := fill.state, expandTokens := t.expandTokens - {id}), fill.fault)
  }

  /** `OnSelectedAsync`: with `LoadChildrenOnSelected` on, a selected node loads its
      children as an expand would; otherwise nothing happens. */
  function OnSelectedAsync(cmp: (NodeId, NodeId) -> int, t: Tree, id: NodeId, f: Fetch): (r: Attempt<Tree>)
    ensures !t.loadChildrenOnSelected || id !in t.arena ==> r == Attempt(t, None)
    ensures t.loadChildrenOnSelected && id in t.arena ==> r == OnLoadChildren(cmp, t, id, f, false)
  {
    if t.loadChildrenOnSelected then OnLoadChildren(cmp, t, id, f, false) else Attempt(t, None)
  }

  // ---------------------------------------------------------------------------
  // Collapsing

  /** The proxy `CreateProxyNode(tree, parent)` returns: a fresh
      `ProxyTreeViewItemViewModel` with default state. */
  function NewProxy(parent: Option<NodeId>): (r: Node)
    ensures r.kind == Proxy && r.parent == parent && |r.children.items| == 0
    ensures IsProxyNode(r) && !IsParentNode(r) && !r.wired
  {
    Node(Proxy, parent, Empty(), false, false, false, true, false, false, false, false, true)
  }

  /** `OnCollapsed` gets as far as `SetItems`: no cancelled collapse token, the
      unload policy on, the node parent-capable and not kept loaded by being selected,
      and updatable. */
  predicate Unloads(t: Tree, id: NodeId) {
    id in t.arena && !(id in t.collapseTokens && t.collapseTokens[id]) &&
    t.shouldUnload && IsParentNode(t.arena[id]) &&
    !(t.loadChildrenOnSelected && t.arena[id].isSelected) && t.arena[id].updatable
  }

  /** `OnCollapsed(item)`: cancel a pending expand of the node, then, if the unload
      conditions hold, replace its children with one fresh proxy; the collapse token
      is dropped whatever happens. `proxy` is the id of the object `CreateProxyNode`
      would create. */
  function OnCollapsed(cmp: (NodeId, NodeId) -> int, t: Tree, id: NodeId, proxy: NodeId): (r: Tree)
    requires proxy !in t.arena
    ensures id !in t.arena ==> r == t
    ensures id in t.arena && id in t.expandTokens ==> r.expandTokens == t.expandTokens[id := true]
    ensures id !in t.expandTokens ==> r.expandTokens == t.expandTokens
    ensures id in t.arena ==> r.collapseTokens == t.collapseTokens - {id}
    ensures !Unloads(t, id) ==> r.arena == t.arena
    ensures Unloads(t, id) ==>
      id in r.arena && r.arena == t.arena[proxy := NewProxy(Some(id))][id := r.arena[id]] &&
      r.arena[id].children.items == [proxy] &&
      r.arena[id].(children := t.arena[id].children) == t.arena[id]
    ensures r.(arena := t.arena, expandTokens := t.expandTokens, collapseTokens := t.collapseTokens) == t
  {
    if id !in t.arena then t
    else
      var t1 := CancelExpand(t, id);
      var arena := if Unloads(t, id) then Unload(cmp, t.arena, id, proxy) else t.arena;
      t1.(arena := arena, collapseTokens := t.collapseTokens - {id})
  }

  /** Unloading a node: its children are replaced by a single new proxy, through
      `SetItems`. */
  function Unload(cmp: (NodeId, NodeId) -> int, a: Arena, id: NodeId, proxy: NodeId): (r: Arena)
    requires id in a && proxy !in a
    ensures id in r && r == a[proxy := NewProxy(Some(id))][id := r[id]]
    ensures r[id].children.items == [proxy]
    ensures r[id].(children := a[id].children) == a[id]
  {
    a[proxy := NewProxy(Some(id))][id := SetItem(cmp, a[id], Some(proxy))]
  }

  /** Unloading keeps every child's parent link: the proxy points back at the node,
      and the children it drops still name it as parent. */
  lemma OnCollapsedKeepsLinks(cmp: (NodeId, NodeId) -> int, t: Tree, id: NodeId, proxy: NodeId)
    requires proxy !in t.arena && ParentLinksConsistent(t.arena)
    ensures ParentLinksConsistent(OnCollapsed(cmp, t, id, proxy).arena)
  {
    var r := OnCollapsed(cmp, t, id, proxy).arena;
    if Unloads(t, id) {
      forall p, k | p in r && 0 <= k < |r[p].children.items|
        ensures r[p].children.items[k] in r && r[r[p].children.items[k]].parent == Some(p)
      {
        if p != proxy && p != id {
          assert r[p] == t.arena[p];
          assert r[p].children.items[k] != proxy;
        }
      }
    }
  }

  // ---------------------------------------------------------------------------
  // Creating and inserting nodes

  /** What the node class `T` of `CreateTreeNode<T>` fixes about a new instance. */
  datatype NodeClass = NodeClass(kind: Kind, parentFlag: bool, proxyFlag: bool, isEditable: bool, updatable: bool)

  /** The instance `Activator.CreateInstance` returns: no children, all state flags
      clear, no handlers. */
  function Construct(cls: NodeClass, parent: Option<NodeId>): (r: Node)
    ensures r.kind == cls.kind && r.parent == parent && |r.children.items| == 0
    ensures !r.isExpanded && !r.isSelected && !r.isEditing && !r.isLoadingChildren && !r.wired
  {
    Node(cls.kind, parent, Empty(), false, false, false, cls.isEditable, cls.parentFlag, cls.proxyFlag, false, false, cls.updatable)
  }

  /** `CreateTreeNode<T>(value, parentNode)` as the code is written: the proxy is
      given `parentNode` as its parent. `id` and `proxy` are the ids of the two new
      objects. */
  function CreateTreeNodeAsWritten(cmp: (NodeId, NodeId) -> int, a: Arena, cls: NodeClass, parent: Option<NodeId>, id: NodeId, proxy: NodeId): (r: Result<Arena>)
    requires id !in a && proxy !in a && id != proxy
    ensures r.Failure? <==> IsParentNode(Construct(cls, parent)) && !cls.updatable
    ensures r.Failure? ==> r.error == InvalidArgument
    ensures r.Success? && IsParentNode(Construct(cls, parent)) ==> proxy in r.value && r.value[proxy] == NewProxy(parent)
  {
    BuildNode(cmp, a, cls, parent, id, proxy, parent)
  }

  /** `CreateTreeNode<T>(value, parentNode)` with the proxy given the new node as its
      parent, as `OnCollapsed` does. */
  function CreateTreeNode(cmp: (NodeId, NodeId) -> int, a: Arena, cls: NodeClass, parent: Option<NodeId>, id: NodeId, proxy: NodeId): (r: Result<Arena>)
    requires id !in a && proxy !in a && id != proxy
    ensures r.Failure? <==> IsParentNode(Construct(cls, parent)) && !cls.updatable
    ensures r.Failure? ==> r.error == InvalidArgument
    ensures r.Success? ==> id in r.value && r.value[id].parent == parent && r.value[id].kind == cls.kind
    ensures r.Success? ==> forall x :: x in a ==> x in r.value && r.value[x] == a[x]
    ensures r.Success? && !IsParentNode(Construct(cls, parent)) ==>
      r.value == a[id := Construct(cls, parent)]
    ensures r.Success? && IsParentNode(Construct(cls, parent)) ==>
      r.value.Keys == a.Keys + {id, proxy} &&
      r.value[id].children.items == [proxy] && r.value[id].wired &&
      r.value[proxy] == NewProxy(Some(id)) && !IsChildrenLoaded(r.value, r.value[id])
  {
    BuildNode(cmp, a, cls, parent, id, proxy, Some(id))
  }

  /** The shared body of both versions; `proxyParent` is the parent the proxy gets. */
  function BuildNode(cmp: (NodeId, NodeId) -> int, a: Arena, cls: NodeClass, parent: Option<NodeId>, id: NodeId, proxy: NodeId, proxyParent: Option<NodeId>): (r: Result<Arena>)
    requires id !in a && proxy !in a && id != proxy
    ensures r.Failure? <==> IsParentNode(Construct(cls, parent)) && !cls.updatable
    ensures r.Failure? ==> r.error == InvalidArgument
    ensures r.Success? && !IsParentNode(Construct(cls, parent)) ==> r.value == a[id := Construct(cls, parent)]
    ensures r.Success? && IsParentNode(Construct(cls, parent)) ==>
      id in r.value && r.value == a[proxy := NewProxy(proxyParent)][id := r.value[id]] &&
      r.value[id].children.items == [proxy] && r.value[id].wired &&
      r.value[id].(children := Empty(), wired := false) == Construct(cls, parent)
  {
    var node := Construct(cls, parent);
    if !IsParentNode(node) then Success(a[id := node])
    else if !cls.updatable then Failure(InvalidArgument)
    else
      var init := SetItems(cmp, node, Some([proxy]), true);
      var n := if init.Success? then init.value else node;
      Success(a[proxy := NewProxy(proxyParent)][id := n.(wired := true)])
  }

  /** The corrected construction keeps every parent link consistent. */
  lemma CreateTreeNodeKeepsLinks(cmp: (NodeId, NodeId) -> int, a: Arena, cls: NodeClass, parent: Option<NodeId>, id: NodeId, proxy: NodeId)
    requires id !in a && proxy !in a && id != proxy
    requires ParentLinksConsistent(a)
    ensures CreateTreeNode(cmp, a, cls, parent, id, proxy).Success? ==>
      ParentLinksConsistent(CreateTreeNode(cmp, a, cls, parent, id, proxy).value)
  {
    var r := CreateTreeNode(cmp, a, cls, parent, id, proxy);
    if r.Success? {
      forall p, k | p in r.value && 0 <= k < |r.value[p].children.items|
        ensures r.value[p].children.items[k] in r.value && r.value[r.value[p].children.items[k]].parent == Some(p)
      {
        if p != proxy && p != id {
          assert r.value[p] == a[p];
        }
      }
    }
  }

  /** As written, every parent-capable node built for a parent already in the tree,
      or for no parent, gets a proxy whose parent is not the node that lists it. */
  lemma CreateTreeNodeAsWrittenBreaksLinks(cmp: (NodeId, NodeId) -> int, a: Arena, cls: NodeClass, parent: Option<NodeId>, id: NodeId, proxy: NodeId)
    requires id !in a && proxy !in a && id != proxy
    requires parent.Some? ==> parent.value in a
    requires IsParentNode(Construct(cls, parent)) && cls.updatable
    ensures CreateTreeNodeAsWritten(cmp, a, cls, parent, id, proxy).Success?
    ensures !ParentLinksConsistent(CreateTreeNodeAsWritten(cmp, a, cls, parent, id, proxy).value)
  {
    var r := CreateTreeNodeAsWritten(cmp, a, cls, parent, id, proxy).value;
    assert r[id].children.items[0] == proxy;
    assert r[proxy].parent == parent != Some(id);
  }

  /** `InsertItem(newItem)`: a parentless node joins the roots in sorted position
      (with no check for duplicates); any other goes to its parent's `InsertChild`,
      if that parent is updatable. */
  function InsertItem(cmp: (NodeId, NodeId) -> int, t: Tree, item: Option<NodeId>): (r: Tree)
    requires item.Some? ==> item.value in t.arena
    ensures item.None? ==> r == t
    ensures item.Some? && t.arena[item.value].parent.None? ==>
      r.arena == t.arena &&
      multiset(r.roots.items) == multiset(t.roots.items) + multiset{item.value} &&
      r.roots.resets == t.roots.resets &&
      (IsComparer(cmp) ==> Sorted(cmp, r.roots.items))
    ensures item.Some? && t.arena[item.value].parent.Some? ==> r.roots == t.roots
    ensures item.Some? && t.arena[item.value].parent.Some? ==>
      var p := t.arena[item.value].parent.value;
      if p in t.arena && t.arena[p].updatable
      then r.arena == t.arena[p := InsertChild(cmp, t.arena, t.arena[p], item.value)]
      else r.arena == t.arena
    ensures r.(arena := t.arena, roots := t.roots) == t
  {
    if item.None? then t
    else
      var parent := t.arena[item.value].parent;
      if parent.None? then t.(roots := Add(cmp, t.roots, item.value))
      else if parent.value in t.arena && t.arena[parent.value].updatable then
        t.(arena := t.arena[parent.value := InsertChild(cmp, t.arena, t.arena[parent.value], item.value)])
      else t
  }

  /** Inserting an item under its parent keeps parent links consistent, puts the item
      among the parent's children and leaves no proxy among them. */
  lemma InsertItemKeepsLinks(cmp: (NodeId, NodeId) -> int, t: Tree, item: NodeId)
    requires item in t.arena && ParentLinksConsistent(t.arena)
    ensures ParentLinksConsistent(InsertItem(cmp, t, Some(item)).arena)
    ensures t.arena[item].parent.Some? && t.arena[item].parent.value in t.arena && t.arena[t.arena[item].parent.value].updatable ==>
      var r := InsertItem(cmp, t, Some(item)).arena;
      var p := t.arena[item].parent.value;
      item in r[p].children.items &&
      (item !in t.arena[p].children.items ==>
        forall c :: c in r[p].children.items && c != item ==> !ChildIsProxy(t.arena, c))
  {
    var parent := t.arena[item].parent;
    var r := InsertItem(cmp, t, Some(item)).arena;
    if parent.Some? && parent.value in t.arena && t.arena[parent.value].updatable {
      var p := parent.value;
      var n := InsertChild(cmp, t.arena, t.arena[p], item);
      assert r == t.arena[p := n];
      InsertChildContents(cmp, t.arena, t.arena[p], item);
      InsertedLinks(t.arena, p, item, n);
    } else {
      assert r == t.arena;
    }
  }

  /** Inserting `item` reaches an updatable parent that does not hold it yet and has
      a proxy child: the case where the code as written throws. */
  predicate InsertMeetsProxy(t: Tree, item: NodeId)
    requires item in t.arena
  {
    var p := t.arena[item].parent;
    p.Some? && p.value in t.arena && t.arena[p.value].updatable &&
    item !in t.arena[p.value].children.items && HasProxyChild(t.arena, t.arena[p.value])
  }

  /** `InsertItem` as the code runs, through the parent's `InsertChild` as written:
      where the parent still shows a proxy, the call ends with an
      `InvalidOperationException`, the proxy removed and the item not added. In every
      other case it is `InsertItem`. */
  function InsertItemAsWritten(cmp: (NodeId, NodeId) -> int, t: Tree, item: Option<NodeId>): (r: Attempt<Tree>)
    requires item.Some? ==> item.value in t.arena
    ensures r.fault.Some? <==> item.Some? && InsertMeetsProxy(t, item.value)
    ensures r.fault.None? ==> r.state == InsertItem(cmp, t, item)
    ensures r.fault.Some? ==>
      var p := t.arena[item.value].parent.value;
      r.fault == Some(InvalidOperation) && r.state.roots == t.roots &&
      r.state.arena.Keys == t.arena.Keys &&
      item.value !in r.state.arena[p].children.items &&
      |r.state.arena[p].children.items| == |t.arena[p].children.items| - 1
    ensures r.state.(arena := t.arena, roots := t.roots) == t
  {
    if item.None? then Attempt(t, None)
    else
      var parent := t.arena[item.value].parent;
      if parent.None? then Attempt(t.(roots := Add(cmp, t.roots, item.value)), None)
      else if parent.value in t.arena && t.arena[parent.value].updatable then
        InsertUnderAsWritten(cmp, t, item.value, parent.value)
      else Attempt(t, None)
  }

  /** The parent's `InsertChild` as written, run inside the tree. */
  function InsertUnderAsWritten(cmp: (NodeId, NodeId) -> int, t: Tree, item: NodeId, p: NodeId): (r: Attempt<Tree>)
    requires item in t.arena && t.arena[item].parent == Some(p) && p in t.arena && t.arena[p].updatable
    ensures r.fault.Some? <==> InsertMeetsProxy(t, item)
    ensures r.fault.None? ==> r.state == t.(arena := t.arena[p := InsertChild(cmp, t.arena, t.arena[p], item)])
    ensures r.fault.Some? ==>
      r.fault == Some(InvalidOperation) && r.state.arena.Keys == t.arena.Keys &&
      item !in r.state.arena[p].children.items &&
      |r.state.arena[p].children.items| == |t.arena[p].children.items| - 1
    ensures r.state.(arena := t.arena) == t
  {
    var ins := InsertChildAsWritten(cmp, t.arena, t.arena[p], item);
    Attempt(t.(arena := t.arena[p := ins.state]), ins.fault)
  }

  /** The insert as written keeps parent links consistent too, whether or not it
      throws: on a throw the parent only lost a child. */
  lemma InsertItemAsWrittenKeepsLinks(cmp: (NodeId, NodeId) -> int, t: Tree, item: NodeId)
    requires item in t.arena && ParentLinksConsistent(t.arena)
    ensures ParentLinksConsistent(InsertItemAsWritten(cmp, t, Some(item)).state.arena)
  {
    var r := InsertItemAsWritten(cmp, t, Some(item));
    if r.fault.None? {
      InsertItemKeepsLinks(cmp, t, item);
    } else {
      var p := t.arena[item].parent.value;
      var ins := InsertChildAsWritten(cmp, t.arena, t.arena[p], item);
      assert r == InsertUnderAsWritten(cmp, t, item, p);
      assert r.state.arena == t.arena[p := ins.state];
      InsertedLinks(t.arena, p, item, ins.state);
    }
  }

  /** Giving node `p` children that are its old children plus `item`, whose parent is
      `p`, keeps parent links consistent. */
  lemma InsertedLinks(a: Arena, p: NodeId, item: NodeId, n: Node)
    requires ParentLinksConsistent(a) && p in a && item in a && a[item].parent == Some(p)
    requires n.parent == a[p].parent
    requires forall c :: c in n.children.items && c != item ==> c in a[p].children.items
    ensures ParentLinksConsistent(a[p := n])
  {
    var r := a[p := n];
    forall q, k | q in r && 0 <= k < |r[q].children.items|
      ensures r[q].children.items[k] in r && r[r[q].children.items[k]].parent == Some(q)
    {
      var c := r[q].children.items[k];
      if q == p && c != item {
        assert c in a[p].children.items;
        var j :| 0 <= j < |a[p].children.items| && a[p].children.items[j] == c;
      } else if q != p {
        assert r[q] == a[q];
      }
    }
  }

  /** `AddRootNode(rootNode)`: the roots become exactly that node; null is ignored. */
  function AddRootNode(cmp: (NodeId, NodeId) -> int, t: Tree, root: Option<NodeId>): (r: Tree)
    ensures root.None? ==> r == t
    ensures root.Some? ==> r.roots.items == [root.value] && r.roots.resets == t.roots.resets
    ensures r.(roots := t.roots) == t
  {
    if root.None? then t
    else
      var init := InitializeWithItem(cmp, t.roots, root);
      if init.Success? then t.(roots := init.value) else t
  }

  /** The tree's `GetAllNodes`: the roots and, below each, its `GetAllNodes`, down to
      `fuel` levels. */
  function GetAllNodes(t: Tree, fuel: nat): (r: seq<NodeId>)
    ensures forall x :: x in r <==> TreeWalk.ReachesFromAny(t.arena, t.roots.items, x, fuel)
  {
    var r := TreeWalk.AllNodesOf(t.arena, t.roots.items, fuel);
    assert forall x :: x in r <==> TreeWalk.ReachesFromAny(t.arena, t.roots.items, x, fuel) by {
      forall x ensures x in r <==> TreeWalk.ReachesFromAny(t.arena, t.roots.items, x, fuel) {
        TreeWalk.AllNodesOfReach(t.arena, t.roots.items, x, fuel);
      }
    }
    r
  }
}

=== FILE: tree_walk.dfy ===
/** The recursive walks of `TreeViewItemViewModel` over the arena: `GetAllNodes`
    (also used by the tree for its roots), `CollapseAll`, and the parent chain that
    `EnsureVisibleSelected` climbs. The arena may hold cycles, so every walk carries
    a depth bound `fuel`. */
module TreeWalk {
  import opened Wrappers
  import opened TreeItem

  /** The children of `id`; none for an id the arena does not hold. */
  function ChildrenOf(a: Arena, id: NodeId): seq<NodeId> {
    if id in a then a[id].children.items else []
  }

  /** `GetAllNodes()` of node `id`: every child followed by that child's own
      `GetAllNodes`, in child order, so a pre-order listing without the node itself.
      It descends at most `fuel` levels. */
  function AllNodes(a: Arena, id: NodeId, fuel: nat): (r: seq<NodeId>)
    ensures fuel == 0 ==> r == []
    ensures fuel > 0 && id in a ==> forall k :: 0 <= k < |a[id].children.items| ==> a[id].children.items[k] in r
    decreases fuel, 0
  {
    if fuel == 0 then [] else AllNodesOf(a, ChildrenOf(a, id), fuel - 1)
  }

  /** The walk over a list of nodes, through the private one-node overload of
      `GetAllNodes`: each node followed by its descendants. */
  function AllNodesOf(a: Arena, nodes: seq<NodeId>, fuel: nat): (r: seq<NodeId>)
    ensures |r| >= |nodes|
    ensures forall k :: 0 <= k < |nodes| ==> nodes[k] in r
    decreases fuel, |nodes| + 1
  {
    if |nodes| == 0 then []
    else [nodes[0]] + AllNodes(a, nodes[0], fuel) + AllNodesOf(a, nodes[1..], fuel)
  }

  /** `x` is reached from `id` by following child links, in one to `depth` steps. */
  ghost predicate Reaches(a: Arena, id: NodeId, x: NodeId, depth: nat)
    decreases depth
  {
    depth > 0 &&
    exists k :: 0 <= k < |ChildrenOf(a, id)| &&
      (ChildrenOf(a, id)[k] == x || Reaches(a, ChildrenOf(a, id)[k], x, depth - 1))
  }

  /** `x` is one of `nodes` or reached from one of them within `depth` steps. */
  ghost predicate ReachesFromAny(a: Arena, nodes: seq<NodeId>, x: NodeId, depth: nat) {
    exists k :: 0 <= k < |nodes| && (nodes[k] == x || Reaches(a, nodes[k], x, depth))
  }

  /** `GetAllNodes` lists exactly the nodes below `id`. */
  lemma {:induction false} AllNodesReach(a: Arena, id: NodeId, x: NodeId, fuel: nat)
    ensures x in AllNodes(a, id, fuel) <==> Reaches(a, id, x, fuel)
    decreases fuel, 0
  {
    if fuel > 0 {
      AllNodesOfReach(a, ChildrenOf(a, id), x, fuel - 1);
    }
  }

  /** The roots' `GetAllNodes` lists exactly the roots and the nodes below them. */
  lemma {:induction false} AllNodesOfReach(a: Arena, nodes: seq<NodeId>, x: NodeId, fuel: nat)
    ensures x in AllNodesOf(a, nodes, fuel) <==> ReachesFromAny(a, nodes, x, fuel)
    decreases fuel, |nodes| + 1
  {
    if |nodes| > 0 {
      AllNodesReach(a, nodes[0], x, fuel);
      AllNodesOfReach(a, nodes[1..], x, fuel);
      if ReachesFromAny(a, nodes[1..], x, fuel) {
        var k :| 0 <= k < |nodes[1..]| && (nodes[1..][k] == x || Reaches(a, nodes[1..][k], x, fuel));
        assert nodes[k + 1] == nodes[1..][k];
      }
      if ReachesFromAny(a, nodes, x, fuel) {
        var k :| 0 <= k < |nodes| && (nodes[k] == x || Reaches(a, nodes[k], x, fuel));
        if k > 0 {
          assert nodes[1..][k - 1] == nodes[k];
        }
      }
    }
  }

  /** Two arenas with the same child lists everywhere. */
  ghost predicate SameChildren(a: Arena, b: Arena) {
    forall x :: ChildrenOf(a, x) == ChildrenOf(b, x)
  }

  /** `GetAllNodes` reads nothing but child lists. */
  lemma {:induction false} AllNodesSameChildren(a: Arena, b: Arena, id: NodeId, fuel: nat)
    requires SameChildren(a, b)
    ensures AllNodes(a, id, fuel) == AllNodes(b, id, fuel)
    decreases fuel, 0
  {
    if fuel > 0 {
      assert ChildrenOf(a, id) == ChildrenOf(b, id);
      AllNodesOfSameChildren(a, b, ChildrenOf(a, id), fuel - 1);
    }
  }

  lemma {:induction false} AllNodesOfSameChildren(a: Arena, b: Arena, nodes: seq<NodeId>, fuel: nat)
    requires SameChildren(a, b)
    ensures AllNodesOf(a, nodes, fuel) == AllNodesOf(b, nodes, fuel)
    decreases fuel, |nodes| + 1
  {
    if |nodes| > 0 {
      AllNodesSameChildren(a, b, nodes[0], fuel);
      AllNodesOfSameChildren(a, b, nodes[1..], fuel);
    }
  }

  /** `CollapseAll` with the unload policy off: each child collapses its own subtree,
      then the node silently clears its own expanded flag. */
  function CollapseAll(a: Arena, id: NodeId, fuel: nat): (r: Arena)
    ensures r.Keys == a.Keys
    ensures id in a ==> !r[id].isExpanded
    decreases fuel, 0
  {
    if id !in a then a
    else
      var b := if fuel == 0 then a else CollapseEach(a, a[id].children.items, fuel - 1);
      b[id := SetSilentExpand(b[id], false)]
  }

  /** `CollapseAll` of each node in turn, the loop over a node's children. */
  function CollapseEach(a: Arena, nodes: seq<NodeId>, fuel: nat): (r: Arena)
    ensures r.Keys == a.Keys
    decreases fuel, |nodes| + 1
  {
    if |nodes| == 0 then a else CollapseEach(CollapseAll(a, nodes[0], fuel), nodes[1..], fuel)
  }

  /** `b` differs from `a` at most in expanded flags. */
  ghost predicate OnlyExpansion(a: Arena, b: Arena) {
    a.Keys == b.Keys &&
    forall x :: x in a ==> b[x] == a[x].(isExpanded := b[x].isExpanded)
  }

  lemma OnlyExpansionSameChildren(a: Arena, b: Arena)
    requires OnlyExpansion(a, b)
    ensures SameChildren(a, b)
  {
    forall x ensures ChildrenOf(a, x) == ChildrenOf(b, x) {
      if x in a {
        assert b[x].children == a[x].children;
      }
    }
  }

  lemma OnlyExpansionTrans(a: Arena, b: Arena, c: Arena)
    requires OnlyExpansion(a, b) && OnlyExpansion(b, c)
    ensures OnlyExpansion(a, c)
  {
  }

  lemma SetExpandedFrame(a: Arena, id: NodeId, v: bool)
    requires id in a
    ensures OnlyExpansion(a, a[id := SetSilentExpand(a[id], v)])
  {
    var r := a[id := SetSilentExpand(a[id], v)];
    forall x | x in a ensures r[x] == a[x].(isExpanded := r[x].isExpanded) {
      if x != id {
        assert r[x] == a[x];
      }
    }
  }

  /** `CollapseAll` touches nothing but expanded flags. */
  lemma {:induction false} CollapseAllFrame(a: Arena, id: NodeId, fuel: nat)
    ensures OnlyExpansion(a, CollapseAll(a, id, fuel))
    decreases fuel, 0
  {
    if id in a {
      var b := if fuel == 0 then a else CollapseEach(a, a[id].children.items, fuel - 1);
      if fuel > 0 {
        CollapseEachFrame(a, a[id].children.items, fuel - 1);
      }
      CollapseStepFrame(a, b, id);
    }
  }

  /** Clearing the node's own flag after its children keeps the frame. */
  lemma CollapseStepFrame(a: Arena, b: Arena, id: NodeId)
    requires id in a && OnlyExpansion(a, b)
    ensures OnlyExpansion(a, b[id := SetSilentExpand(b[id], false)])
  {
    SetExpandedFrame(b, id, false);
    OnlyExpansionTrans(a, b, b[id := SetSilentExpand(b[id], false)]);
  }

  lemma {:induction false} CollapseEachFrame(a: Arena, nodes: seq<NodeId>, fuel: nat)
    ensures OnlyExpansion(a, CollapseEach(a, nodes, fuel))
    decreases fuel, |nodes| + 1
  {
    if |nodes| > 0 {
      var b := CollapseAll(a, nodes[0], fuel);
      CollapseAllFrame(a, nodes[0], fuel);
      CollapseEachFrame(b, nodes[1..], fuel);
      OnlyExpansionTrans(a, b, CollapseEach(b, nodes[1..], fuel));
    }
  }

  /** With the unload policy off, `CollapseAll` leaves exactly the node and the nodes
      listed by its `GetAllNodes` collapsed and every other flag as it was. */
  lemma {:induction false} CollapseAllCollapses(a: Arena, id: NodeId, fuel: nat)
    ensures forall x :: x in a ==>
      (CollapseAll(a, id, fuel)[x].isExpanded <==> a[x].isExpanded && x != id && x !in AllNodes(a, id, fuel))
    decreases fuel, 0
  {
    if id in a {
      var b := if fuel == 0 then a else CollapseEach(a, a[id].children.items, fuel - 1);
      var r := b[id := SetSilentExpand(b[id], false)];
      assert CollapseAll(a, id, fuel) == r;
      if fuel > 0 {
        CollapseEachCollapses(a, a[id].children.items, fuel - 1);
      }
      forall x | x in a
        ensures r[x].isExpanded <==> a[x].isExpanded && x != id && x !in AllNodes(a, id, fuel)
      {
        if x != id {
          assert r[x] == b[x];
        }
      }
    }
  }

  lemma {:induction false} CollapseEachCollapses(a: Arena, nodes: seq<NodeId>, fuel: nat)
    ensures forall x :: x in a ==>
      (CollapseEach(a, nodes, fuel)[x].isExpanded <==> a[x].isExpanded && x !in AllNodesOf(a, nodes, fuel))
    decreases fuel, |nodes| + 1
  {
    if |nodes| > 0 {
      var b := CollapseAll(a, nodes[0], fuel);
      CollapseAllCollapses(a, nodes[0], fuel);
      CollapseAllFrame(a, nodes[0], fuel);
      OnlyExpansionSameChildren(a, b);
      CollapseEachCollapses(b, nodes[1..], fuel);
      AllNodesOfSameChildren(a, b, nodes[1..], fuel);
    }
  }

  /** The nodes `EnsureVisibleSelected` climbs through: the parent, its parent, and
      so on, at most `fuel` of them. */
  function Ancestors(a: Arena, id: NodeId, fuel: nat): (r: seq<NodeId>)
    ensures |r| <= fuel
    ensures |r| > 0 ==> id in a && a[id].parent == Some(r[0])
    ensures forall k :: 0 <= k < |r| - 1 ==> r[k] in a && a[r[k]].parent == Some(r[k + 1])
    ensures |r| < fuel && |r| == 0 ==> id !in a || a[id].parent.None?
    ensures |r| < fuel && |r| > 0 ==> r[|r| - 1] !in a || a[r[|r| - 1]].parent.None?
    decreases fuel
  {
    if fuel == 0 || id !in a || a[id].parent.None? then []
    else [a[id].parent.value] + Ancestors(a, a[id].parent.value, fuel - 1)
  }

  /** The node `n` parent links above `id`, following the links from the node up;
      none once a link is missing. */
  ghost function Up(a: Arena, id: NodeId, n: nat): Option<NodeId>
    decreases n
  {
    if n == 0 then Some(id)
    else match Up(a, id, n - 1)
      case None => None
      case Some(x) => if x in a then a[x].parent else None
  }

  /** Climbing `n + 1` links is one link and then `n` more. */
  lemma {:induction false} UpShift(a: Arena, id: NodeId, n: nat)
    ensures Up(a, id, n + 1) == if id in a && a[id].parent.Some? then Up(a, a[id].parent.value, n) else None
    decreases n
  {
    if n > 0 {
      UpShift(a, id, n - 1);
    }
  }

  /** The chain `EnsureVisibleSelected` climbs is the run of ancestors: its `k`-th
      entry is the node `k + 1` links up, and a chain shorter than the bound ends
      where the links do. */
  lemma {:induction false} AncestorsAreUp(a: Arena, id: NodeId, fuel: nat)
    ensures forall k :: 0 <= k < |Ancestors(a, id, fuel)| ==> Up(a, id, k + 1) == Some(Ancestors(a, id, fuel)[k])
    ensures |Ancestors(a, id, fuel)| < fuel ==> Up(a, id, |Ancestors(a, id, fuel)| + 1).None?
    decreases fuel
  {
    if fuel == 0 || id !in a || a[id].parent.None? {
      UpShift(a, id, 0);
    } else {
      var p := a[id].parent.value;
      AncestorsAreUp(a, p, fuel - 1);
      UpOneMore(a, id, p, Ancestors(a, p, fuel - 1), fuel);
    }
  }

  /** A chain of ancestors of the parent, with the parent put in front, is a chain of
      ancestors of the node. */
  lemma UpOneMore(a: Arena, id: NodeId, p: NodeId, rest: seq<NodeId>, fuel: nat)
    requires id in a && a[id].parent == Some(p) && fuel > 0
    requires forall k :: 0 <= k < |rest| ==> Up(a, p, k + 1) == Some(rest[k])
    requires |rest| < fuel - 1 ==> Up(a, p, |rest| + 1).None?
    ensures forall k :: 0 <= k < |rest| + 1 ==> Up(a, id, k + 1) == Some(([p] + rest)[k])
    ensures |rest| + 1 < fuel ==> Up(a, id, |rest| + 2).None?
  {
    forall k | 0 <= k < |rest| + 1 ensures Up(a, id, k + 1) == Some(([p] + rest)[k]) {
      UpShift(a, id, k);
    }
    UpShift(a, id, |rest| + 1);
  }
}

=== FILE: wrappers.dfy ===
/** Failure-carrying datatypes shared by the whole model: a C# reference that may be
    null becomes an `Option`, and an operation that may throw returns a `Result`. */
module Wrappers {

  datatype Option<+T> = None | Some(value: T)

  /** The exceptions the modelled code raises itself. */
  datatype Error =
    | ArgumentNull       // ArgumentNullException
    | InvalidArgument    // ArgumentException
    | InvalidOperation   // InvalidOperationException (collection modified while enumerated)
    | OperationCanceled  // OperationCanceledException (waiting on an already cancelled token)
    | HostFault          // whatever the host's own code throws (the children fetch)

  datatype Result<+R> = Success(value: R) | Failure(error: Error)

  /** The state an operation leaves behind together with the exception it ends with,
      if any: for code that throws half-way, after part of its effect has happened. */
  datatype Attempt<+S> = Attempt(state: S, fault: Option<Error>)

  /** The present values of `s`, in order: the list with its nulls filtered out. */
  function Present<T(!new)>(s: seq<Option<T>>): (r: seq<T>)
    ensures |r| <= |s|
    ensures forall x :: x in r <==> Some(x) in s
    ensures forall x :: multiset(r)[x] == multiset(s)[Some(x)]
  {
    if |s| == 0 then []
    else
      assert s == [s[0]] + s[1..];
      (if s[0].Some? then [s[0].value] else []) + Present(s[1..])
  }
}
